=== FILE: README.md ===
# Mapper core of pycat, in Dafny

This project models the map module of a MUD client (`modules/mapper.py`).
The module keeps a discovered map of a game world. It is built from the
`room.info` reports the game server sends. The module answers path queries
between rooms. It compresses direction sequences into `run` commands. It
lists unexplored neighbours. It adjusts the drawn length of exits. It also
renders a character-grid view of the map centred on the current room.

The model is split into one Dafny module per part of the source:

- `Wrappers` (wrappers.dfy): `Option`, `Result`, and the Python exceptions
  the code can raise (`KeyError(key)`, `IndexError`, `TypeError`,
  `AttributeError`).
- `AssocList` (assoc_list.dfy): a Python dict as an insertion-ordered
  association list. It covers `d[k]`, `d[k] = v`, `k in d` and `d.update(e)`.
- `Strings` (strings.dfy): `split`, `join`, `str(int)`, `lower()` and
  `find`.
- `Store` (store.dfy): the `Map` class. It covers rooms, exits, exit data
  bags, bookmarks, map data and the name search. It also defines `Walk`,
  which follows a sequence of exit labels through the map.
- `Compressor` (compressor.dfy): `assemble` and its inner `runifyDirs`.
- `PathFinder` (pathfinder.dfy): `Map.findPath`, a breadth-first search.
- `Observe` (observe.dfy): the `room.info` branch of `Mapper.handleGmcp`.
  It merges an observed room into the map.
- `ExitEdit` (exit_edit.dfy): `getRoomByDirection`, `exitLen` with `inc`
  and `dec`, and `addExitData`.
- `Explore` (explore.dfy): `Mapper.unmapped`, the search for unexplored or
  unvisited rooms near the current room.
- `Renderer` (renderer.dfy): `Mapper.draw`. It covers the label parsing of
  `adjustExit`, the breadth-first layout, exit glyphs, the start-room mark
  and the output string.

Several values come from outside the module. The model takes them as
parameters:

- the current room, which the source reads from the GMCP state;
- the terminal size;
- `self.drawAreas`;
- the "visited today" set.

Every operation that can raise returns its exception: as a `Result`, or,
where the map has already changed when it raises, together with the map it
leaves. The error is the exception the source would raise, at the point
where it would raise it.

The model follows the code as written, including where it behaves
differently from what a reader might expect:

- `findPath` does not always return a shortest path. Line 94 overwrites
  `paths[tgt]` each time a target is reached again. A room reached later
  through a longer route can therefore answer with the longer path.
  Example: `here -a-> A`, `here -b-> B`, `A -x-> X`, `B -t-> T`, `X -y-> T`.
  `findPath(here, T)` answers `[a, x, y]` rather than `[b, t]`.
  `PathFinder.FindPath` proves that every answer is a walk to the target.
  It does not claim minimality.
- The `room.info` handler does not insert stubs for new targets (see
  Findings).
- `draw` raises `TypeError` for a door label whose tail is not one of the
  ten directions. `adjustExit` returns None for such a label, and the
  caller unpacks that None. The model raises the same error.

## Model

| member | source | states |
|---|---|---|
| Store.Fresh | modules/mapper.py:17-21 | a new map has no rooms, no bookmarks and no map data |
| Store.AddRoom | modules/mapper.py:32-38 | the room is stored with exactly the given name, data and exits; every other id reads as before; the id set gains the id; a known id keeps its position, a new one is appended |
| Store.GetRoomName | modules/mapper.py:40-42 | succeeds exactly for a stored id and gives its name (None for a stub); KeyError(id) otherwise |
| Store.GetRoomData | modules/mapper.py:44-48 | the stored data bag for a known id, the empty bag for an unknown one |
| Store.GetRoomExits | modules/mapper.py:61-65 | the stored exits for a known id, no exits for an unknown one |
| Store.GetExitData | modules/mapper.py:70-74 | succeeds exactly when the room and the label exist; a missing bag reads as `{}`; KeyError names the room first, then the label |
| Store.SetExitData | modules/mapper.py:67-68 | succeeds exactly when the room and the label exist; afterwards the bag reads back as written; the target, the other labels, the room's name and data, the other rooms and the id set are unchanged |
| Store.FindRoomByName | modules/mapper.py:76-79 | None exactly when every room is passed over; otherwise the first room in insertion order whose name contains the needle; AttributeError only when a stub (name None) is reached before any hit |
| Store.ScanStops | modules/mapper.py:76-79 | the scan answers for the first room it does not pass over |
| Store.SetBookmarks | modules/mapper.py:29-30 | the bookmark table is replaced whole; rooms and map data are unchanged |
| Store.SetMapData | modules/mapper.py:50-51 | the map data is replaced whole; rooms and bookmarks are unchanged |
| Store.ExitAt | modules/mapper.py:302-303 | the exit `items()` yields at a position is what the dict reads for that label, and with unique labels it is the exit stored at that position |
| Strings.Split | modules/mapper.py:105 | splitting gives at least one piece and no piece holds the separator |
| Strings.JoinSplit | modules/mapper.py:105 | joining the pieces of a split gives back the string |
| Strings.SplitJoin | modules/mapper.py:152 | splitting a join of separator-free pieces gives back the pieces |
| Strings.ParseNatToString | modules/mapper.py:126 | reading back the decimal spelling of a count gives the count |
| Strings.Find | modules/mapper.py:78 | the first index where the needle occurs, -1 exactly when it occurs nowhere |
| Compressor.RunifyDirsLoop | modules/mapper.py:110-134 | the loop with its running count and `first` flag computes the run command of the maximal-run decomposition |
| Compressor.RunsUnique | modules/mapper.py:113-130 | a direction sequence has exactly one decomposition into maximal runs |
| Compressor.RunifyRoundTrip | modules/mapper.py:110-134 | expanding the run command as the game does gives back the direction sequence |
| Compressor.RunifyBare | modules/mapper.py:131-134 | the command is bare exactly for a single one-letter direction, and is that direction; otherwise it starts with `run ` |
| Compressor.RunifyNoSemicolon | modules/mapper.py:110-134 | a run command holds no `;` |
| Compressor.AssembleSpec | modules/mapper.py:101-152 | `assemble` is the `;`-join of the flattened tokens with other tokens unchanged and in place, and each maximal group of directions replaced by its run command |
| Compressor.AssembleIdempotent | modules/mapper.py:101-152 | compressing the output of `assemble` again gives the same string |
| PathFinder.FindPath | modules/mapper.py:81-98 | an answer is a walk from `here` to `there`; None only when no walk reaches `there`; KeyError only for a never-stored id that a walk reaches in no more steps than the shortest walk to `there`; a path answer means `there` is stored and so is every room reached in fewer steps than `there`; None means every room a walk reaches is stored |
| PathFinder.Visit | modules/mapper.py:89-98 | expanding a room not expanded before keeps the search invariant, answers when the room is `there` or unknown, and leaves fewer rooms to expand |
| PathFinder.EnqueueExits | modules/mapper.py:91-95 | recording paths through the room keeps every recorded path a walk to its room; the old queue stays a prefix and the target of every exit is queued |
| PathFinder.AnswerUnknown | modules/mapper.py:91 | dequeuing a never-stored id answers KeyError for an id a walk reaches |
| PathFinder.FrontierExhausted | modules/mapper.py:88-98 | when the queue runs dry, no walk from `here` reaches `there` |
| Observe.RecordVisit | modules/mapper.py:613-615 | the integer number is added and no string id becomes visited |
| Observe.RecordVisitKey | modules/mapper.py:615 | the string id becomes visited and no other id changes |
| Observe.AddLabel | modules/mapper.py:621-623 | a missing label is appended with the target and no data; a present one leaves the exits unchanged |
| Observe.Step | modules/mapper.py:619-625 | one report adds its label; the room ids are kept |
| Observe.MergeIds | modules/mapper.py:618-625 | the merge keeps the room ids, whether it succeeds or raises |
| Observe.MergeNeedsKnown | modules/mapper.py:624-625 | the merge succeeds exactly when every reported target was stored; otherwise it raises KeyError for a target that was not |
| Observe.MergeExtends | modules/mapper.py:618-623 | a successful merge keeps every recorded exit with its label, target and position |
| Observe.MergeAdds | modules/mapper.py:619-623 | after a successful merge every reported direction, lower-cased, is a label |
| Observe.MergeNew | modules/mapper.py:619-623 | a label that was not recorded reads, after a successful merge, the target of the first report of its direction with no data, and stays missing when no report names it |
| Observe.MergeAddsNew | modules/mapper.py:619-623 | a direction that was not a label gets the first reported target for it, with no data |
| Observe.MergeLabels | modules/mapper.py:619-623 | every label after the merge was a label before or is a reported direction |
| Observe.MergeKeepsNamed | modules/mapper.py:624-625 | a successful merge leaves every room with a truthy name as it was |
| Observe.DoorsFault | modules/mapper.py:626-628 | the door loop succeeds when every doored direction is a label, and raises KeyError only for one that is not |
| Observe.DoorsKeep | modules/mapper.py:626-628 | a label that no door alias overwrites keeps its exit |
| Observe.DoorsTarget | modules/mapper.py:626-628 | with distinct alias labels, each alias reads exactly the exit of its direction |
| Observe.ObserveFaults | modules/mapper.py:611-629 | the handler fails exactly when a reported target was never stored or a doored direction is not a label; it raises only KeyError and keeps the room ids |
| Observe.ObserveDoors | modules/mapper.py:626-629 | after a successful merge the handler fails exactly when the door step fails, with KeyError, keeping the room ids |
| Observe.ObserveNeedsKnown | modules/mapper.py:624-625 | a successful report names only rooms that were already stored |
| Observe.ObserveStores | modules/mapper.py:611-629 | on success the room holds the reported name and `{zone, terrain}`; old labels are kept and keep their exit unless an alias takes them over; every reported direction and every alias is a label; the id set gains only the room |
| Observe.ObserveFrame | modules/mapper.py:611-629 | on success every other stored room with a truthy name is unchanged |
| Observe.MergeFixedStubs | modules/mapper.py:624-625 | the corrected merge stores every reported target and leaves every previously stored room as it was |
| Observe.ObserveFixedStubs | modules/mapper.py:624-625 | the corrected handler stores every reported target and marks the room's string id as visited |
| Observe.FirstReport | modules/mapper.py:611-629 | the first report of a room with a new neighbour raises KeyError as written and leaves that room unstored; the corrected handler stores the neighbour as a stub |
| ExitEdit.GetRoomByDirection | modules/mapper.py:425-431 | a target exactly when the lower-cased label is an exit of the room, and it is where that label leads |
| ExitEdit.NewLen | modules/mapper.py:442-446 | the new length is the old length (1 when missing) plus the increment, floored at 1 |
| ExitEdit.LenBag | modules/mapper.py:441-447 | `len` reads the new length; every other key is unchanged |
| ExitEdit.FirstTo | modules/mapper.py:439-440 | the position of the first exit to the target; None exactly when no exit leads there |
| ExitEdit.LenDoEffect | modules/mapper.py:437-448 | `do` changes only the bag of the first exit to `there`; its `len` becomes the new length, at least 1; other labels, other rooms and the id set are unchanged |
| ExitEdit.ExitLenFrame | modules/mapper.py:433-451 | `exitLen` changes no room other than the current one and the one the direction leads to |
| ExitEdit.ExitLen | modules/mapper.py:433-451 | the room ids are kept; KeyError(None) exactly when the direction is unknown and the room `None` has an exit to the current room, because `setExitData` at line 68 indexes the rooms with None; for an unknown direction no room but `None` changes |
| ExitEdit.ExitLenBoth | modules/mapper.py:433-451 | for a direction to another room there is no error, the first exit there has its length adjusted, and so has the first exit back when there is one |
| ExitEdit.Inc | modules/mapper.py:454-455 | lengthening keeps the room ids, raises KeyError(None) exactly as `exitLen` does, and adds 2 to both lengths as `ExitEdit.ExitLenBoth` states |
| ExitEdit.Dec | modules/mapper.py:457-458 | shortening keeps the room ids, raises KeyError(None) exactly as `exitLen` does, and takes 2 from both lengths, floored at 1, as `ExitEdit.ExitLenBoth` states |
| ExitEdit.IncDecLen | modules/mapper.py:454-458 | `dec` after `inc` restores the length (1 when there was none); other keys are unchanged |
| ExitEdit.AddExitData | modules/mapper.py:220-223 | succeeds exactly when the room and the label exist; KeyError names the room first, then the label; other rooms and labels are unchanged |
| ExitEdit.AddExitDataReads | modules/mapper.py:220-223 | afterwards the bag reads each key of `data` with its last value and every other key as before; the target is kept |
| Explore.Dedupe | modules/mapper.py:515 | the result has no repeats, holds exactly the rooms of the list, and keeps them in the order of their first occurrences |
| Explore.DedupeFromNoDup | modules/mapper.py:515 | a list without repeats is its own dedupe |
| Explore.DedupeIdempotent | modules/mapper.py:515 | deduplicating twice is deduplicating once |
| Explore.Classify | modules/mapper.py:497-514 | the branch taken for an exit, each exactly when its condition holds: a lock; an open exit to an unexplored target; a zone fault (`inArea` and an explored target without a zone); a listable target; a target to enqueue (open, walked through, neither visited nor queued); and a pass only for an explored, unlisted target whose zone was read under `inArea` |
| Explore.Unmapped | modules/mapper.py:482-515 | KeyError('zone') when the start room has no zone, and otherwise only KeyError('zone'), only with `inArea`, and only when an explored room one open exit past a room the search enters has no zone; an answer has no repeats, every room of it lies one open exit past a room the search enters (a walk from the start through open exits into rooms of the start zone that are not themselves listed), and it holds only unexplored or listable rooms; without `one` it holds every such room in reach and, with `inArea`, every explored room one exit beyond a room the search walks through has a zone; with `one` it is a single unexplored room, or only listable rooms when none is unexplored, and then the same zone fact holds |
| Explore.Search | modules/mapper.py:486-515 | the search from a start room with a zone gives an answer as above, or KeyError('zone') with `inArea` when an explored room one open exit past a room the search enters has no zone; a full answer under `inArea` means every explored room the search reads has a zone, so a missing zone there forces the error |
| Explore.Expand | modules/mapper.py:492-514 | one turn keeps the search invariant and makes progress; an early answer is a single unexplored room one open exit past a room the search enters, and a KeyError('zone') names an explored room without a zone one open exit past such a room, with `inArea` |
| Explore.Finished | modules/mapper.py:492-515 | when the queue runs dry the deduplicated answer is sound (each room one open exit past an entered room) and complete |
| Explore.Complete | modules/mapper.py:492-514 | once every entered room is expanded, every unexplored or listable room one open exit past a walk through entered rooms is in the answer, and under `inArea` every explored such room has a zone |
| Explore.Progress | modules/mapper.py:512-514 | each turn queues a stored room for the first time or shortens the queue |
| Renderer.DirOf | modules/mapper.py:237-262 | a label names a direction exactly when it is that direction's spelling |
| Renderer.OpenTailSpec | modules/mapper.py:234 | the door pattern matches exactly when some `;` qualifies, and the group starts after the last one that does |
| Renderer.TailFinal | modules/mapper.py:234-236 | the tail of a door label never matches again, so `adjustExit` recurses at most once |
| Renderer.AliasDrawn | modules/mapper.py:304 | the door labels the handler stores are drawn in their direction |
| Renderer.AdjustExit | modules/mapper.py:233-262 | a step exactly when the label resolves; one unit step in its direction; `u`/`d` draw ◆ exactly when the opposite arrow is on the cell |
| Renderer.AdjustResolved | modules/mapper.py:233-262 | a label steps like the direction it resolves to |
| Renderer.TravelLine | modules/mapper.py:321-324 | `n` steps land `n` unit steps away; an unresolved label fails on the first step |
| Renderer.CellInjective | modules/mapper.py:335-348 | only `u` and `d` visit a cell twice |
| Renderer.Blank | modules/mapper.py:264-266 | `lines - 1` blank rows of `columns` cells |
| Renderer.Plot | modules/mapper.py:297 | the cell holds the glyph and every other cell is unchanged |
| Renderer.ExitLenFor | modules/mapper.py:279-283 | the length is 1 unless the target is present and in the drawn areas |
| Renderer.DrawExit | modules/mapper.py:334-348 | only cells along the exit change; each fitting cell of a compass exit gets exactly the glyph `Pick` chooses: marked when the target was placed elsewhere, hidden when it is missing or in another area, otherwise the line when the target was visited or the next cell was off the grid or blank before the exit, else hidden; `u`/`d` leave an arrow or ◆ on the room's cell |
| Renderer.VisitAt | modules/mapper.py:350-356 | the `visit` test holds exactly when the target is present, unvisited and in the drawn areas, the label is not `u`/`d`, and the target cell fits and is blank |
| Renderer.ExitStep | modules/mapper.py:302-358 | a label not drawn changes nothing; TypeError exactly for a drawn label with no target cell, which is a label naming no direction on an exit of length at least 0; otherwise such a label names a direction, the grid is the old grid with this exit drawn as `DrawExit` states (with the source's `mark`, `tgt in visited`, presence and area values), and the target is queued at its cell exactly when `visit` holds |
| Renderer.DrawAt | modules/mapper.py:318-358 | a drawn exit with a target cell keeps the loop invariant, leaves the grid as the old grid with this exit drawn as `DrawExit` states (marked when the target sits in `coordCache` at another cell), and queues the target exactly when `visit` holds |
| Renderer.PlaceExits | modules/mapper.py:301-358 | the exits loop keeps the layout invariant; TypeError exactly when some drawn label of the room with an exit length of at least 0 names no direction |
| Renderer.Turn | modules/mapper.py:291-358 | one turn keeps the layout invariant (each room placed once, on the grid, chained to an earlier room through an exit) and makes progress; a popped room already placed is dropped and nothing else changes; a new one is marked visited and appended to the placements at the popped coordinates; TypeError exactly when a placed room has a drawn label of length at least 0 that names no direction |
| Renderer.PlacedSnoc | modules/mapper.py:290-298 | a room reached from a placed one and appended to the coordinate cache keeps the placements distinct, on the grid and chained |
| Renderer.StartGlyph | modules/mapper.py:360-368 | the centre gets ▿, ▵ or ◇ over ▼, ▲ or ◆, and ░ otherwise |
| Renderer.Shown | modules/mapper.py:372-374 | only rows that are not blank, taken from the grid |
| Renderer.RenderJoin | modules/mapper.py:370-375 | the output is the shown rows joined by newlines, with a final newline |
| Renderer.RenderLines | modules/mapper.py:370-375 | splitting the output on newlines gives back exactly the shown rows and a final empty piece |
| Renderer.RenderNonEmpty | modules/mapper.py:370-375 | a grid with a non-blank row draws to a non-empty string ending in a newline |
| Renderer.Draw | modules/mapper.py:225-375 | KeyError('zone') exactly when the current room has no zone; IndexError exactly when it has one and there is no cell for the start; TypeError only for a room among sound placements with an unresolved drawn label; otherwise every drawn label of every placed room resolved, the centre is marked, the placements are sound and the text is the shown rows |

## Left out

- JSON serialisation, `load`, `save`, `quit`, `here`, `find`, `help`, `alias` and the command table are left out. They are file I/O, printing and dispatch.
- `path2`, `path`, `go`, `bookmark`, `bookmarks`, `autoVisit`, `currentArea` and the auto-visit tail of `handleGmcp` (lines 631-637) are left out. They glue the modelled operations to the game connection, the clock and the log.
- `startExit`, `endExit`, `lockExit` and `delExits` are left out. They read the live GMCP state and call `addRoom` and `addExitData`, which are modelled.
- `getRoomCoords` always answers `(0, 0, 0)`, and `draw` never uses its result, so it is not modelled. `areas` prints the map data.
- The door alias at line 628 stores the same dict object under two labels in Python. A later in-place change through one label would show through the other. The model copies the exit value, so this sharing is not modelled.
- `ExitEdit.ExitLen`: `exitLen` ends with `self.show(self.draw())` (line 452). The redraw can raise KeyError('zone'), IndexError or TypeError after both `do` calls have updated the map. That raise is not modelled: the model reports only the KeyError(None) of `do`. `Renderer.Draw` states when `draw` raises.
- `ExitEdit.ExitLenBoth`: a direction that leads back to the same room is adjusted twice. Only distinct rooms are stated.
- `Strings.Lower`: only the length is stated. `lower()` is modelled on ASCII letters only; other Unicode case mappings are left out.
- `PathFinder.FindPath`: does not claim that the path is shortest, because the code as written does not promise it (see above).
- `PathFinder.FindPath`: a path answer promises that every room reached in fewer steps than `there` is stored. It does not state the order of the queue among rooms as far away as `there`. A never-stored room at that distance queued before `there` raises KeyError in the source, but the contract also allows a path answer there.
- `Explore.Unmapped`: does not state the order of the answer beyond first-occurrence order after the dedupe.
- `Renderer.Draw`: the glyphs are stated per exit. `Renderer.ExitStep` gives the grid after one exit as the grid before it with that exit drawn. `Turn` and `Draw` do not restate the final grid as the composition of all exit steps, where a later exit may overwrite an earlier one. Nor does `Draw`'s contract fix which rooms get placed (which targets are queued, in which order, at which coordinates); so whether `draw` raises TypeError or answers is stated only relative to the placements it made, not from the map alone.

## Findings

| source | as written | input that shows it | evidently intended | confidence | as-written member | corrected member |
|---|---|---|---|---|---|---|
| modules/mapper.py:624-625 | the stub check calls `getRoomName`, which raises KeyError for an id never stored, so the handler fails on the first target it has not seen | an empty map and a report of room 1 with an exit `n` to room 2: KeyError('2'), and room 1 is not stored | insert an empty stub for every target never seen, as the comment says | not executed | Observe.FirstReport | Observe.ObserveFixedStubs |
| modules/mapper.py:615 | the "visited today" set receives the integer `num`, but `unmapped` (line 509) asks it about string ids, so no room ever counts as visited there | a report of room 1: afterwards the string id "1" is still not visited | record the string id the rest of the module uses | not executed | Observe.RecordVisit | Observe.RecordVisitKey |

=== FILE: assoc_list.dfy ===
/** Python dicts keep insertion order, and the mapper's search results, tie-breaks
    and layout all depend on that order.  A dict with string keys is modelled as
    an association list: assigning to a present key overwrites the value in
    place, assigning to a new key appends it. */
module AssocList {
  import opened Wrappers

  type AList<V> = seq<(string, V)>

  function Keys<V>(al: AList<V>): set<string>
  {
    set i | 0 <= i < |al| :: al[i].0
  }

  /** `k in d`. */
  predicate Has<V>(al: AList<V>, k: string)
  {
    exists i :: 0 <= i < |al| && al[i].0 == k
  }

  lemma HasKeys<V>(al: AList<V>, k: string)
    ensures Has(al, k) <==> k in Keys(al)
  {
    if k in Keys(al) {
      var i :| 0 <= i < |al| && al[i].0 == k;
    }
  }

  /** No key occurs twice, as in a dict. */
  predicate KeysUnique<V>(al: AList<V>)
  {
    forall i, j :: 0 <= i < j < |al| ==> al[i].0 != al[j].0
  }

  /** The position of `k`: the first entry with that key. */
  function IndexOf<V>(al: AList<V>, k: string): (i: nat)
    requires Has(al, k)
    ensures i < |al| && al[i].0 == k
    ensures forall j :: 0 <= j < i ==> al[j].0 != k
  {
    if al[0].0 == k then 0
    else
      assert Has(al[1..], k) by {
        var j :| 0 <= j < |al| && al[j].0 == k;
        assert al[1..][j - 1].0 == k;
      }
      1 + IndexOf(al[1..], k)
  }

  /** `d.get(k)`. */
  function Get<V>(al: AList<V>, k: string): (r: Option<V>)
    ensures r.Some? <==> Has(al, k)
    ensures r.Some? ==> r.value == al[IndexOf(al, k)].1
  {
    if Has(al, k) then Some(al[IndexOf(al, k)].1) else None
  }

  /** `d[k] = v`. */
  function Put<V>(al: AList<V>, k: string, v: V): (r: AList<V>)
    ensures Get(r, k) == Some(v)
    ensures forall k' :: k' != k ==> Get(r, k') == Get(al, k')
    ensures Has(al, k) ==> |r| == |al| && forall j :: 0 <= j < |al| ==> r[j].0 == al[j].0
    ensures !Has(al, k) ==> r == al + [(k, v)]
  {
    if Has(al, k) then
      var i := IndexOf(al, k);
      var r := al[i := (k, v)];
      assert r[i].0 == k;
      assert IndexOf(r, k) == i;
      forall k' | k' != k
        ensures Get(r, k') == Get(al, k')
      {
        if Has(al, k') {
          var j := IndexOf(al, k');
          assert r[j].0 == k';
          assert IndexOf(r, k') == j;
        }
      }
      r
    else
      var r := al + [(k, v)];
      assert r[|al|].0 == k;
      assert IndexOf(r, k) == |al|;
      forall k' | k' != k
        ensures Get(r, k') == Get(al, k')
      {
        if Has(al, k') {
          var j := IndexOf(al, k');
          assert r[j].0 == k';
          assert IndexOf(r, k') == j;
        }
      }
      r
  }

  /** The position of the last entry with key `k`. */
  function LastIndexOf<V>(al: AList<V>, k: string): (i: nat)
    requires Has(al, k)
    ensures i < |al| && al[i].0 == k
    ensures forall j :: i < j < |al| ==> al[j].0 != k
  {
    if al[|al| - 1].0 == k then |al| - 1
    else
      assert Has(al[..|al| - 1], k) by {
        var j :| 0 <= j < |al| && al[j].0 == k;
        assert al[..|al| - 1][j].0 == k;
      }
      LastIndexOf(al[..|al| - 1], k)
  }

  /** `d.update(e)`: every entry of `e` is assigned into `d`, in order, so a
      key of `e` ends with the value of its last entry there. */
  function Update<V>(al: AList<V>, e: AList<V>): (r: AList<V>)
    ensures forall k :: Get(r, k) == (if Has(e, k) then Some(e[LastIndexOf(e, k)].1) else Get(al, k))
    decreases |e|
  {
    if |e| == 0 then al
    else
      var n := |e| - 1;
      var r := Put(Update(al, e[..n]), e[n].0, e[n].1);
      forall k
        ensures Get(r, k) == (if Has(e, k) then Some(e[LastIndexOf(e, k)].1) else Get(al, k))
      {
        if e[n].0 != k {
          assert Has(e, k) <==> Has(e[..n], k) by {
            if Has(e, k) {
              var j :| 0 <= j < |e| && e[j].0 == k;
              assert e[..n][j].0 == k;
            }
            if Has(e[..n], k) {
              var j :| 0 <= j < n && e[..n][j].0 == k;
              assert e[j].0 == k;
            }
          }
          if Has(e, k) {
            assert LastIndexOf(e, k) == LastIndexOf(e[..n], k);
          }
        }
      }
      r
  }

  /** Entries appended after a present key do not change what `d[k]` reads. */
  lemma GetPrefix<V>(a: AList<V>, b: AList<V>, k: string)
    requires |a| <= |b| && b[..|a|] == a
    requires Has(a, k)
    ensures Has(b, k) && Get(b, k) == Get(a, k)
  {
    var i := IndexOf(a, k);
    assert b[i] == a[i];
    assert forall j :: 0 <= j < i ==> b[j] == a[j];
  }

  /** Appending an entry adds its key. */
  lemma KeysSnoc<V>(al: AList<V>, k: string, v: V)
    ensures Keys(al + [(k, v)]) == Keys(al) + {k}
  {
    var r := al + [(k, v)];
    forall t ensures t in Keys(r) <==> t in Keys(al) + {k} {
      if t in Keys(r) {
        var i :| 0 <= i < |r| && r[i].0 == t;
        if i < |al| {
          assert al[i].0 == t;
        }
      }
      if t in Keys(al) {
        var i :| 0 <= i < |al| && al[i].0 == t;
        assert r[i].0 == t;
      }
      assert r[|al|].0 == k;
    }
  }
}

=== FILE: compressor.dfy ===
/** The command compressor: `assemble` and its inner `runifyDirs` in
    modules/mapper.py.

    `assemble` takes the labels of a path (each possibly a `;`-joined compound
    command), splits every one on `;`, collects maximal groups of consecutive
    movement tokens and turns each group into one `run` command, where a run of
    identical directions becomes `<count><dir>`.  Everything else passes through
    unchanged, and the pieces are joined again with `;`. */
module Compressor {
  import opened Wrappers
  import opened Strings

  /** The closed set of movement tokens: `n e s w ne se sw nw u d`, spelt out
      letter by letter. */
  predicate IsDirection(t: string)
  {
    || (|t| == 1 && (t[0] == 'n' || t[0] == 'e' || t[0] == 's' || t[0] == 'w' || t[0] == 'u' || t[0] == 'd'))
    || (|t| == 2 && (t[0] == 'n' || t[0] == 's') && (t[1] == 'e' || t[1] == 'w'))
  }

  predicate AllDirections(d: seq<string>) { forall i :: 0 <= i < |d| ==> IsDirection(d[i]) }

  /** A direction is one or two lower-case letters: no digit, space or `;`. */
  lemma DirectionShape(t: string)
    requires IsDirection(t)
    ensures 1 <= |t| <= 2 && !IsDigit(t[0]) && ' ' !in t && ';' !in t
  {
  }

  // ---------------------------------------------------------------------------
  // runs

  /** `count` copies of one direction. */
  datatype Run = Run(count: nat, dir: string)

  function Repeat(x: string, n: nat): (r: seq<string>)
    ensures |r| == n
  {
    if n == 0 then [] else [x] + Repeat(x, n - 1)
  }

  lemma {:induction false} RepeatSnoc(x: string, n: nat)
    ensures Repeat(x, n + 1) == Repeat(x, n) + [x]
  {
    if n > 0 {
      RepeatSnoc(x, n - 1);
    }
  }

  /** The direction sequence a list of runs stands for. */
  function Expand(runs: seq<Run>): seq<string>
  {
    if |runs| == 0 then [] else Repeat(runs[0].dir, runs[0].count) + Expand(runs[1..])
  }

  lemma {:induction false} ExpandSnoc(runs: seq<Run>, r: Run)
    ensures Expand(runs + [r]) == Expand(runs) + Repeat(r.dir, r.count)
  {
    if |runs| == 0 {
      assert runs + [r] == [r];
    } else {
      assert (runs + [r])[1..] == runs[1..] + [r];
      ExpandSnoc(runs[1..], r);
    }
  }

  /** Runs that are maximal: none is empty and neighbours differ in direction. */
  predicate Maximal(runs: seq<Run>)
  {
    && (forall i :: 0 <= i < |runs| ==> runs[i].count >= 1)
    && (forall i, j :: 0 <= i && j == i + 1 < |runs| ==> runs[i].dir != runs[j].dir)
  }

  /** Putting one direction in front of a list of runs: it lengthens the
      first run when that has the same direction, and opens a run otherwise. */
  function Prepend(x: string, rest: seq<Run>): (r: seq<Run>)
    ensures |r| > 0 && r[0].dir == x
    ensures Expand(r) == [x] + Expand(rest)
    ensures Maximal(rest) ==> Maximal(r)
  {
    if |rest| > 0 && rest[0].dir == x then
      var r := [Run(rest[0].count + 1, x)] + rest[1..];
      ExpandFirst(rest);
      ExpandCons(r[0], rest[1..]);
      RepeatCons(x, rest[0].count + 1);
      Associative([x], Repeat(x, rest[0].count), Expand(rest[1..]));
      PrependMaximal(x, rest);
      r
    else
      var r := [Run(1, x)] + rest;
      ExpandCons(r[0], rest);
      assert Repeat(x, 1) == [x];
      PrependMaximal(x, rest);
      r
  }

  lemma PrependMaximal(x: string, rest: seq<Run>)
    ensures Maximal(rest) ==> Maximal(if |rest| > 0 && rest[0].dir == x then [Run(rest[0].count + 1, x)] + rest[1..] else [Run(1, x)] + rest)
  {
    if !Maximal(rest) {
    } else if |rest| > 0 && rest[0].dir == x {
      MaximalCons(rest, rest[0].count + 1);
    } else {
      var r := [Run(1, x)] + rest;
      forall i | 0 < i < |r| ensures r[i] == rest[i - 1] { }
    }
  }

  /** The maximal-run decomposition of a direction sequence. */
  function Runs(d: seq<string>): (r: seq<Run>)
    ensures Expand(r) == d
    ensures Maximal(r)
    ensures |r| == 0 <==> |d| == 0
  {
    if |d| == 0 then []
    else
      assert [d[0]] + d[1..] == d;
      Prepend(d[0], Runs(d[1..]))
  }

  /** There is only one maximal decomposition: any maximal list of runs that
      expands to `d` is `Runs(d)`. */
  lemma {:induction false} RunsUnique(rs: seq<Run>, d: seq<string>)
    requires Maximal(rs) && Expand(rs) == d
    ensures rs == Runs(d)
    decreases |d|
  {
    if |rs| > 0 {
      ShrinkExpand(rs);
      ShrinkMaximal(rs);
      RunsUnique(Shrink(rs), d[1..]);
      PrependShrink(rs);
    }
  }

  /** Taking the first direction off and putting it back gives the same runs. */
  lemma PrependShrink(rs: seq<Run>)
    requires |rs| > 0 && Maximal(rs)
    ensures Prepend(rs[0].dir, Shrink(rs)) == rs
  {
    if rs[0].count == 1 {
      if |rs| > 1 {
        assert rs[0].dir != rs[1].dir;
      }
      assert [rs[0]] + rs[1..] == rs;
    } else {
      var tail := Shrink(rs);
      assert rs == [Run(tail[0].count + 1, rs[0].dir)] + tail[1..];
    }
  }

  /** The runs left after taking the first direction off. */
  function Shrink(rs: seq<Run>): seq<Run>
    requires |rs| > 0
  {
    if rs[0].count <= 1 then rs[1..] else [Run(rs[0].count - 1, rs[0].dir)] + rs[1..]
  }

  lemma ShrinkExpand(rs: seq<Run>)
    requires |rs| > 0 && rs[0].count >= 1
    ensures Expand(rs) == [rs[0].dir] + Expand(Shrink(rs))
  {
    if rs[0].count == 1 {
      ExpandFirst(rs);
      assert Repeat(rs[0].dir, 1) == [rs[0].dir];
    } else {
      ShrinkMore(rs);
    }
  }

  lemma ExpandFirst(rs: seq<Run>)
    requires |rs| > 0
    ensures Expand(rs) == Repeat(rs[0].dir, rs[0].count) + Expand(rs[1..])
  {
  }

  lemma ShrinkMore(rs: seq<Run>)
    requires |rs| > 0 && rs[0].count > 1
    ensures Expand(rs) == [rs[0].dir] + Expand([Run(rs[0].count - 1, rs[0].dir)] + rs[1..])
  {
    var x := rs[0].dir;
    var c := rs[0].count;
    var rep := Repeat(x, c - 1);
    var e := Expand(rs[1..]);
    ExpandFirst(rs);
    RepeatCons(x, c);
    ExpandCons(Run(c - 1, x), rs[1..]);
    Associative([x], rep, e);
  }

  lemma RepeatCons(x: string, n: nat)
    requires n > 0
    ensures Repeat(x, n) == [x] + Repeat(x, n - 1)
  {
  }

  lemma ExpandCons(r: Run, rs: seq<Run>)
    ensures Expand([r] + rs) == Repeat(r.dir, r.count) + Expand(rs)
  {
    assert ([r] + rs)[1..] == rs;
  }

  lemma ShrinkMaximal(rs: seq<Run>)
    requires |rs| > 0 && Maximal(rs)
    ensures Maximal(Shrink(rs))
  {
    if rs[0].count == 1 {
      MaximalTail(rs);
    } else {
      MaximalCons(rs, rs[0].count - 1);
    }
  }

  lemma MaximalTail(rs: seq<Run>)
    requires |rs| > 0 && Maximal(rs)
    ensures Maximal(rs[1..])
  {
    var t := rs[1..];
    forall i, j | 0 <= i && j == i + 1 < |t| ensures t[i].dir != t[j].dir {
      assert t[i] == rs[i + 1] && t[j] == rs[j + 1];
    }
  }

  /** Shrinking the first run to a smaller positive count keeps runs maximal. */
  lemma MaximalCons(rs: seq<Run>, c: nat)
    requires |rs| > 0 && Maximal(rs) && c >= 1
    ensures Maximal([Run(c, rs[0].dir)] + rs[1..])
  {
    var t := [Run(c, rs[0].dir)] + rs[1..];
    forall i, j | 0 <= i && j == i + 1 < |t| ensures t[i].dir != t[j].dir {
      assert t[i].dir == rs[i].dir && t[j] == rs[j];
    }
  }

  /** Appending a direction either lengthens the last run or opens a new one:
      the left-to-right scan of `runifyDirs` computes `Runs`. */
  lemma RunsSnocSame(d: seq<string>, p: seq<Run>, r: Run)
    requires Runs(d) == p + [r]
    ensures Runs(d + [r.dir]) == p + [Run(r.count + 1, r.dir)]
  {
    ExpandGrowLast(p, r);
    MaximalGrowLast(p, r);
    RunsUnique(p + [Run(r.count + 1, r.dir)], d + [r.dir]);
  }

  lemma ExpandGrowLast(p: seq<Run>, r: Run)
    ensures Expand(p + [Run(r.count + 1, r.dir)]) == Expand(p + [r]) + [r.dir]
  {
    ExpandSnoc(p, r);
    ExpandSnoc(p, Run(r.count + 1, r.dir));
    RepeatSnoc(r.dir, r.count);
  }

  lemma RunsSnocNew(d: seq<string>, p: seq<Run>, r: Run, x: string)
    requires Runs(d) == p + [r] && r.dir != x
    ensures Runs(d + [x]) == p + [r, Run(1, x)]
  {
    var rs := p + [r];
    ExpandSnoc(rs, Run(1, x));
    assert Repeat(x, 1) == [x];
    MaximalSnoc(p, r, x);
    assert rs + [Run(1, x)] == p + [r, Run(1, x)];
    RunsUnique(p + [r, Run(1, x)], d + [x]);
  }

  lemma MaximalGrowLast(p: seq<Run>, r: Run)
    requires Maximal(p + [r])
    ensures Maximal(p + [Run(r.count + 1, r.dir)])
  {
    var rs := p + [r];
    var t := p + [Run(r.count + 1, r.dir)];
    forall i | 0 <= i < |p| ensures t[i].count >= 1 {
      assert t[i] == rs[i];
    }
    forall i, j | 0 <= i && j == i + 1 < |t| ensures t[i].dir != t[j].dir {
      assert t[i].dir == rs[i].dir && t[j].dir == rs[j].dir;
    }
  }

  lemma MaximalSnoc(p: seq<Run>, r: Run, x: string)
    requires Maximal(p + [r]) && r.dir != x
    ensures Maximal(p + [r, Run(1, x)])
  {
    var rs := p + [r];
    var t := p + [r, Run(1, x)];
    forall i | 0 <= i < |rs| ensures t[i].count >= 1 {
      assert t[i] == rs[i];
    }
    forall i, j | 0 <= i && j == i + 1 < |t| ensures t[i].dir != t[j].dir {
      if j < |rs| {
        assert t[i] == rs[i] && t[j] == rs[j];
      }
    }
  }

  /** How one run is spelt: the count (left out when it is 1), then the direction. */
  function RunText(r: Run): string
  {
    (if r.count == 1 then "" else NatToString(r.count)) + r.dir
  }

  function Texts(runs: seq<Run>): (t: seq<string>)
    ensures |t| == |runs|
    ensures forall i :: 0 <= i < |runs| ==> t[i] == RunText(runs[i])
  {
    if |runs| == 0 then [] else [RunText(runs[0])] + Texts(runs[1..])
  }

  /** The runs of `d`, spelt and separated by single spaces. */
  function RunBody(d: seq<string>): string
  {
    Join(Texts(Runs(d)), ' ')
  }

  /** `runifyDirs`: the run command for a group of directions.  The body is left
      bare only when it is a single character; otherwise it is prefixed by
      `run `. */
  function RunifyDirs(d: seq<string>): string
  {
    if |d| == 0 then ""
    else
      var out := RunBody(d);
      if |out| == 1 then out else "run " + out
  }

  /** `runifyDirs` as written: one pass with a running count, flushing a run at
      each change of direction and once more at the end. */
  method RunifyDirsLoop(directions: seq<string>) returns (s: string)
    ensures s == RunifyDirs(directions)
  {
    if |directions| == 0 {
      return "";
    }
    var out, count, first, done := ScanRuns(directions);
    ScannedAll(directions, out, count, first, done);
    if !first {
      out := out + " ";
    }
    var piece := (if count == 1 then "" else NatToString(count)) + directions[|directions| - 1];
    assert piece == RunText(Run(count, directions[|directions| - 1]));
    out := out + piece;
    if |out| == 1 {
      s := out;
    } else {
      s := "run " + out;
    }
  }

  /** After the loop, flushing the open run spells all the runs. */
  lemma ScannedAll(d: seq<string>, out: string, count: nat, first: bool, done: seq<Run>)
    requires |d| > 0 && Scanned(d, |d|, out, count, first, done)
    ensures RunBody(d) == (if first then "" else out + " ") + RunText(Run(count, d[|d| - 1]))
  {
    assert d[..|d|] == d;
    JoinTextsSnoc(done, Run(count, d[|d| - 1]));
    if first {
      assert "" + RunText(Run(count, d[|d| - 1])) == RunText(Run(count, d[|d| - 1]));
    }
  }

  /** The state of the loop of `runifyDirs` after reading `directions[..i]`:
      the runs completed so far are spelt in `out`, and the run still open has
      `count` copies of the last direction read. */
  ghost predicate Scanned(directions: seq<string>, i: nat, out: string, count: nat, first: bool, done: seq<Run>)
  {
    && 1 <= i <= |directions|
    && count >= 1
    && Runs(directions[..i]) == done + [Run(count, directions[i - 1])]
    && first == (|done| == 0)
    && out == Join(Texts(done), ' ')
  }

  /** The loop of `runifyDirs`. */
  method ScanRuns(directions: seq<string>) returns (out: string, count: nat, first: bool, ghost done: seq<Run>)
    requires |directions| > 0
    ensures Scanned(directions, |directions|, out, count, first, done)
  {
    count := 1;
    out := "";
    first := true;
    var i := 1;
    done := [];
    ScanStart(directions);
    while i < |directions|
      invariant Scanned(directions, i, out, count, first, done)
    {
      out, count, first, done := ScanStep(directions, i, out, count, first, done);
      i := i + 1;
    }
  }

  /** One turn of the loop: the same direction again lengthens the open run,
      a new one spells the open run and opens another. */
  method ScanStep(directions: seq<string>, i: nat, out: string, count: nat, first: bool, ghost done: seq<Run>)
    returns (out': string, count': nat, first': bool, ghost done': seq<Run>)
    requires i < |directions| && Scanned(directions, i, out, count, first, done)
    ensures Scanned(directions, i + 1, out', count', first', done')
  {
    if directions[i - 1] == directions[i] {
      ScannedSame(directions, i, out, count, first, done);
      out', count', first', done' := out, count + 1, first, done;
    } else {
      ScannedNew(directions, i, out, count, first, done);
      out' := out;
      if first {
        first' := false;
      } else {
        first' := first;
        out' := out' + " ";
      }
      var piece := (if count == 1 then "" else NatToString(count)) + directions[i - 1];
      assert piece == RunText(Run(count, directions[i - 1]));
      out' := out' + piece;
      done' := done + [Run(count, directions[i - 1])];
      count' := 1;
    }
  }

  lemma ScannedSame(d: seq<string>, i: nat, out: string, count: nat, first: bool, done: seq<Run>)
    requires i < |d| && Scanned(d, i, out, count, first, done) && d[i - 1] == d[i]
    ensures Scanned(d, i + 1, out, count + 1, first, done)
  {
    ScanSame(d, i, done, count);
  }

  lemma ScannedNew(d: seq<string>, i: nat, out: string, count: nat, first: bool, done: seq<Run>)
    requires i < |d| && Scanned(d, i, out, count, first, done) && d[i - 1] != d[i]
    ensures var last := Run(count, d[i - 1]);
      Scanned(d, i + 1, (if first then "" else out + " ") + RunText(last), 1, false, done + [last])
  {
    var last := Run(count, d[i - 1]);
    ScanNew(d, i, done, count);
    JoinTextsSnoc(done, last);
    if first {
      assert "" + RunText(last) == RunText(last);
    }
  }

  lemma ScanStart(d: seq<string>)
    requires |d| > 0
    ensures Runs(d[..1]) == [] + [Run(1, d[0])]
  {
    assert d[..1] == [d[0]];
  }

  lemma ScanSame(d: seq<string>, i: nat, done: seq<Run>, count: nat)
    requires 1 <= i < |d| && d[i - 1] == d[i]
    requires Runs(d[..i]) == done + [Run(count, d[i - 1])]
    ensures Runs(d[..i + 1]) == done + [Run(count + 1, d[i])]
  {
    assert d[..i + 1] == d[..i] + [d[i]];
    RunsSnocSame(d[..i], done, Run(count, d[i - 1]));
  }

  lemma ScanNew(d: seq<string>, i: nat, done: seq<Run>, count: nat)
    requires 1 <= i < |d| && d[i - 1] != d[i]
    requires Runs(d[..i]) == done + [Run(count, d[i - 1])]
    ensures Runs(d[..i + 1]) == (done + [Run(count, d[i - 1])]) + [Run(1, d[i])]
  {
    assert d[..i + 1] == d[..i] + [d[i]];
    RunsSnocNew(d[..i], done, Run(count, d[i - 1]), d[i]);
    assert done + [Run(count, d[i - 1]), Run(1, d[i])] == (done + [Run(count, d[i - 1])]) + [Run(1, d[i])];
  }

  /** Spelling one more run adds it after a space, or alone when it is the first. */
  lemma JoinTextsSnoc(done: seq<Run>, last: Run)
    ensures Join(Texts(done + [last]), ' ') ==
      if |done| == 0 then RunText(last) else Join(Texts(done), ' ') + " " + RunText(last)
  {
    TextsSnoc(done, last);
    if |done| > 0 {
      JoinSnoc(Texts(done), RunText(last), ' ');
    }
  }

  lemma {:induction false} TextsSnoc(rs: seq<Run>, r: Run)
    ensures Texts(rs + [r]) == Texts(rs) + [RunText(r)]
  {
    if |rs| > 0 {
      assert (rs + [r])[1..] == rs[1..] + [r];
      TextsSnoc(rs[1..], r);
    } else {
      assert rs + [r] == [r];
    }
  }

  // ---------------------------------------------------------------------------
  // reading a run command back

  function DigitPrefixLen(w: string): (k: nat)
    ensures k <= |w| && AllDigits(w[..k])
    ensures k < |w| ==> !IsDigit(w[k])
  {
    if |w| > 0 && IsDigit(w[0]) then
      var k := 1 + DigitPrefixLen(w[1..]);
      assert w[..k] == [w[0]] + w[1..][..k - 1];
      k
    else 0
  }

  lemma {:induction false} DigitPrefixOf(a: string, b: string)
    requires AllDigits(a)
    requires |b| > 0 && !IsDigit(b[0])
    ensures DigitPrefixLen(a + b) == |a|
  {
    if |a| > 0 {
      assert (a + b)[1..] == a[1..] + b;
      DigitPrefixOf(a[1..], b);
    }
  }

  /** What the game's `run` command does with one word: an optional count
      (1 when absent) followed by a direction. */
  function ExpandWord(w: string): Option<seq<string>>
  {
    var k := DigitPrefixLen(w);
    var count := if k == 0 then 1 else ParseDigits(w[..k]);
    if IsDirection(w[k..]) then Some(Repeat(w[k..], count)) else None
  }

  function ExpandWords(ws: seq<string>): Option<seq<string>>
  {
    if |ws| == 0 then Some([])
    else
      match (ExpandWord(ws[0]), ExpandWords(ws[1..]))
      case (Some(a), Some(b)) => Some(a + b)
      case _ => None
  }

  /** The directions a compressed movement command stands for: a bare
      direction, or `run ` followed by space-separated counted directions. */
  function ExpandCommand(s: string): Option<seq<string>>
  {
    var body := if IsPrefix("run ", s) then s[4..] else s;
    ExpandWords(Split(body, ' '))
  }

  lemma RunTextExpands(r: Run)
    requires r.count >= 1 && IsDirection(r.dir)
    ensures ExpandWord(RunText(r)) == Some(Repeat(r.dir, r.count))
    ensures ' ' !in RunText(r) && ';' !in RunText(r)
  {
    DirectionShape(r.dir);
    if r.count == 1 {
      assert RunText(r) == r.dir;
    } else {
      var digits := NatToString(r.count);
      DigitPrefixOf(digits, r.dir);
      assert (digits + r.dir)[..|digits|] == digits;
      assert (digits + r.dir)[|digits|..] == r.dir;
      ParseNatToString(r.count);
      assert forall c :: c in digits ==> IsDigit(c);
    }
  }

  lemma {:induction false} TextsExpand(runs: seq<Run>)
    requires forall i :: 0 <= i < |runs| ==> runs[i].count >= 1 && IsDirection(runs[i].dir)
    ensures ExpandWords(Texts(runs)) == Some(Expand(runs))
  {
    if |runs| > 0 {
      RunTextExpands(runs[0]);
      assert Texts(runs)[1..] == Texts(runs[1..]);
      TextsExpand(runs[1..]);
    }
  }

  /** The directions of every run of an all-direction sequence are directions. */
  lemma RunsAreDirections(d: seq<string>)
    requires AllDirections(d)
    ensures forall i :: 0 <= i < |Runs(d)| ==> IsDirection(Runs(d)[i].dir)
  {
    var rs := Runs(d);
    forall i | 0 <= i < |rs| ensures IsDirection(rs[i].dir) {
      ExpandSplit(rs, i);
      var a := Expand(rs[..i]);
      var b := Repeat(rs[i].dir, rs[i].count);
      assert d == a + b + Expand(rs[i + 1..]);
      assert b == [rs[i].dir] + Repeat(rs[i].dir, rs[i].count - 1);
      assert d[|a|] == b[0];
    }
  }

  lemma {:induction false} ExpandSplit(rs: seq<Run>, i: nat)
    requires i < |rs|
    ensures Expand(rs) == Expand(rs[..i]) + Repeat(rs[i].dir, rs[i].count) + Expand(rs[i + 1..])
  {
    if i > 0 {
      ExpandSplit(rs[1..], i - 1);
      assert rs[1..][..i - 1] == rs[..i][1..];
      assert rs[1..][i - 1] == rs[i];
      assert rs[1..][i..] == rs[i + 1..];
    } else {
      assert rs[..0] == [];
      assert rs[1..] == rs[i + 1..];
    }
  }

  /** Round trip: expanding the run command of a non-empty direction sequence
      gives back exactly that sequence. */
  lemma RunifyRoundTrip(d: seq<string>)
    requires |d| > 0 && AllDirections(d)
    ensures ExpandCommand(RunifyDirs(d)) == Some(d)
  {
    var rs := Runs(d);
    var out := RunBody(d);
    RunsAreDirections(d);
    forall i | 0 <= i < |rs| ensures ' ' !in Texts(rs)[i] {
      RunTextExpands(rs[i]);
    }
    SplitJoin(Texts(rs), ' ');
    TextsExpand(rs);
    if |out| != 1 {
      assert ("run " + out)[4..] == out;
    }
  }

  /** A run command is bare exactly for a single one-letter direction; every
      other group gets the `run ` prefix. */
  lemma RunifyBare(d: seq<string>)
    requires |d| > 0 && AllDirections(d)
    ensures |RunifyDirs(d)| == 1 <==> |d| == 1 && |d[0]| == 1
    ensures |RunifyDirs(d)| == 1 ==> RunifyDirs(d) == d[0]
    ensures |RunifyDirs(d)| != 1 ==> IsPrefix("run ", RunifyDirs(d))
  {
    var rs := Runs(d);
    RunsAreDirections(d);
    if |rs| == 1 {
      DirectionShape(rs[0].dir);
      if rs[0].count == 1 {
        assert d == Repeat(rs[0].dir, 1) == [rs[0].dir];
      } else {
        assert |NatToString(rs[0].count)| >= 1;
        assert |d| >= 2 by {
          assert d == Repeat(rs[0].dir, rs[0].count) + Expand(rs[1..]);
          assert Repeat(rs[0].dir, rs[0].count) == [rs[0].dir] + Repeat(rs[0].dir, rs[0].count - 1);
        }
      }
    } else {
      assert |d| >= 2 by {
        assert d == Repeat(rs[0].dir, rs[0].count) + Expand(rs[1..]);
        assert Expand(rs[1..]) == Repeat(rs[1].dir, rs[1].count) + Expand(rs[2..]);
      }
      assert Join(Texts(rs), ' ') == Texts(rs)[0] + [' '] + Join(Texts(rs)[1..], ' ');
      DirectionShape(rs[0].dir);
    }
  }

  /** The run command holds no `;`, so it survives a later split on `;`. */
  lemma RunifyNoSemicolon(d: seq<string>)
    requires AllDirections(d)
    ensures ';' !in RunifyDirs(d)
  {
    if |d| > 0 {
      var rs := Runs(d);
      RunsAreDirections(d);
      forall i | 0 <= i < |rs| ensures ';' !in Texts(rs)[i] {
        RunTextExpands(rs[i]);
      }
      JoinNoSep(Texts(rs), ' ', ';');
    }
  }

  // ---------------------------------------------------------------------------
  // assemble

  /** `cmds += cmd.split(';')` for every segment, in order. */
  function Flatten(cmds: seq<string>): (r: seq<string>)
    ensures forall i :: 0 <= i < |r| ==> ';' !in r[i]
  {
    if |cmds| == 0 then [] else Flatten(cmds[..|cmds| - 1]) + Split(cmds[|cmds| - 1], ';')
  }

  /** The pending direction group, emitted as one run command if non-empty. */
  function Flush(directions: seq<string>): seq<string>
  {
    if |directions| > 0 then [RunifyDirs(directions)] else []
  }

  /** The `while cmds` loop of `assemble`: directions accumulate, and the group
      is flushed at a non-direction token and at the end. */
  function AssembleLoop(cmds: seq<string>, directions: seq<string>): seq<string>
    decreases |cmds|
  {
    if |cmds| == 0 then Flush(directions)
    else if IsDirection(cmds[0]) then AssembleLoop(cmds[1..], directions + [cmds[0]])
    else Flush(directions) + [cmds[0]] + AssembleLoop(cmds[1..], [])
  }

  /** `assemble`. */
  function Assemble(cmds1: seq<string>): string
  {
    Join(AssembleLoop(Flatten(cmds1), []), ';')
  }

  /** A piece of the flattened token stream: a maximal group of directions or
      one other token. */
  datatype Segment = Moves(dirs: seq<string>) | Other(token: string)

  function Render(s: Segment): string
  {
    match s
    case Moves(d) => RunifyDirs(d)
    case Other(t) => t
  }

  function RenderAll(segs: seq<Segment>): (r: seq<string>)
    ensures |r| == |segs|
    ensures forall i :: 0 <= i < |segs| ==> r[i] == Render(segs[i])
  {
    seq(|segs|, i requires 0 <= i < |segs| => Render(segs[i]))
  }

  function Tokens(segs: seq<Segment>): seq<string>
  {
    if |segs| == 0 then []
    else (match segs[0] case Moves(d) => d case Other(t) => [t]) + Tokens(segs[1..])
  }

  /** The segments a token stream is made of: direction groups that are
      non-empty and maximal (never two in a row), other tokens one by one. */
  predicate SegmentOk(s: Segment)
  {
    match s
    case Moves(d) => |d| > 0 && AllDirections(d)
    case Other(t) => !IsDirection(t)
  }

  predicate WellFormed(segs: seq<Segment>)
  {
    && (forall i :: 0 <= i < |segs| ==> SegmentOk(segs[i]))
    && (forall i, j :: 0 <= i && j == i + 1 < |segs| ==> !(segs[i].Moves? && segs[j].Moves?))
  }

  /** The segmentation of a token stream: a direction joins the group that
      follows it, any other token stands alone. */
  function Segments(t: seq<string>): (r: seq<Segment>)
    ensures WellFormed(r)
    ensures Tokens(r) == t
    ensures |r| == 0 <==> |t| == 0
    ensures |r| > 0 ==> (r[0].Moves? <==> IsDirection(t[0]))
  {
    if |t| == 0 then []
    else
      var rest := Segments(t[1..]);
      if IsDirection(t[0]) && |rest| > 0 && rest[0].Moves? then
        var r := [Moves([t[0]] + rest[0].dirs)] + rest[1..];
        SegmentsMerge(t, rest);
        r
      else
        var s := if IsDirection(t[0]) then Moves([t[0]]) else Other(t[0]);
        SegmentsCons(t, s, rest);
        [s] + rest
  }

  /** A direction in front of a group joins it. */
  lemma SegmentsMerge(t: seq<string>, rest: seq<Segment>)
    requires |t| > 0 && IsDirection(t[0])
    requires WellFormed(rest) && Tokens(rest) == t[1..] && |rest| > 0 && rest[0].Moves?
    ensures WellFormed([Moves([t[0]] + rest[0].dirs)] + rest[1..])
    ensures Tokens([Moves([t[0]] + rest[0].dirs)] + rest[1..]) == t
  {
    var r := [Moves([t[0]] + rest[0].dirs)] + rest[1..];
    assert r[1..] == rest[1..];
    assert Tokens(rest) == rest[0].dirs + Tokens(rest[1..]);
    Associative([t[0]], rest[0].dirs, Tokens(rest[1..]));
    assert [t[0]] + t[1..] == t;
    forall i | 0 < i < |r| ensures r[i] == rest[i] { }
  }

  /** Any other front token opens a segment of its own. */
  lemma SegmentsCons(t: seq<string>, s: Segment, rest: seq<Segment>)
    requires |t| > 0 && s == (if IsDirection(t[0]) then Moves([t[0]]) else Other(t[0]))
    requires WellFormed(rest) && Tokens(rest) == t[1..]
    requires IsDirection(t[0]) ==> |rest| == 0 || !rest[0].Moves?
    ensures WellFormed([s] + rest)
    ensures Tokens([s] + rest) == t
  {
    var r := [s] + rest;
    assert r[1..] == rest;
    assert [t[0]] + t[1..] == t;
    assert SegmentOk(s);
    forall i | 0 < i < |r| ensures r[i] == rest[i - 1] { }
  }

  /** The rendered segments, with a pending direction group `acc` glued to
      the group they open with, if any. */
  function Glue(acc: seq<string>, segs: seq<Segment>): seq<string>
  {
    if |acc| == 0 then RenderAll(segs)
    else if |segs| > 0 && segs[0].Moves? then [RunifyDirs(acc + segs[0].dirs)] + RenderAll(segs[1..])
    else [RunifyDirs(acc)] + RenderAll(segs)
  }

  /** The loop of `assemble` emits exactly the rendered segments; a pending
      group is glued to the group the rest of the stream opens with. */
  lemma {:induction false} AssembleLoopSegments(t: seq<string>, acc: seq<string>)
    ensures AssembleLoop(t, acc) == Glue(acc, Segments(t))
    decreases |t|
  {
    if |t| > 0 {
      if IsDirection(t[0]) {
        AssembleLoopSegments(t[1..], acc + [t[0]]);
        GlueDirection(t, acc);
      } else {
        AssembleLoopSegments(t[1..], []);
        RenderAllCons(Other(t[0]), Segments(t[1..]));
      }
    }
  }

  /** A direction read off the front moves from the stream into the pending group. */
  lemma GlueDirection(t: seq<string>, acc: seq<string>)
    requires |t| > 0 && IsDirection(t[0])
    ensures Glue(acc + [t[0]], Segments(t[1..])) == Glue(acc, Segments(t))
  {
    var rest := Segments(t[1..]);
    if |rest| > 0 && rest[0].Moves? {
      GlueJoins(t[0], acc, rest);
    } else {
      RenderAllCons(Moves([t[0]]), rest);
    }
  }

  lemma GlueJoins(x: string, acc: seq<string>, rest: seq<Segment>)
    requires |rest| > 0 && rest[0].Moves?
    ensures Glue(acc + [x], rest) == Glue(acc, [Moves([x] + rest[0].dirs)] + rest[1..])
  {
    Associative(acc, [x], rest[0].dirs);
    RenderAllCons(Moves([x] + rest[0].dirs), rest[1..]);
  }

  lemma Associative<T>(a: seq<T>, b: seq<T>, c: seq<T>)
    ensures a + b + c == a + (b + c)
  {
  }

  lemma RenderAllCons(s: Segment, segs: seq<Segment>)
    ensures RenderAll([s] + segs) == [Render(s)] + RenderAll(segs)
  {
    assert ([s] + segs)[1..] == segs;
  }

  /** What `assemble` produces: the `;`-join of the rendered segments of the
      flattened input — other tokens unchanged and in place, each maximal
      direction group replaced by its run command. */
  lemma AssembleSpec(cmds: seq<string>)
    ensures Assemble(cmds) == Join(RenderAll(Segments(Flatten(cmds))), ';')
    ensures Tokens(Segments(Flatten(cmds))) == Flatten(cmds)
  {
    AssembleLoopSegments(Flatten(cmds), []);
  }

  /** A single one-letter direction is its own run command. */
  lemma RunifySingle(x: string)
    requires IsDirection(x) && |x| == 1
    ensures RunifyDirs([x]) == x
  {
    assert Repeat(x, 1) == [x];
    RunsUnique([Run(1, x)], [x]);
    assert RunText(Run(1, x)) == x;
    assert Texts([Run(1, x)]) == [x];
  }

  /** Rendering a well-formed segmentation and segmenting it again renders the
      same pieces: a bare one-letter run is re-read as a group of one, and a
      `run ...` command or other token is passed through. */
  lemma {:induction false} RenderStable(segs: seq<Segment>)
    requires WellFormed(segs)
    ensures RenderAll(Segments(RenderAll(segs))) == RenderAll(segs)
    decreases |segs|
  {
    if |segs| > 0 {
      var p := RenderAll(segs);
      var rest := segs[1..];
      assert WellFormed(rest) by {
        forall i | 0 <= i < |rest| ensures rest[i] == segs[i + 1] { }
      }
      assert p[1..] == RenderAll(rest);
      RenderStable(rest);
      var tail := Segments(p[1..]);
      if IsDirection(p[0]) {
        RenderedDirection(segs);
        RunifySingle(p[0]);
        RenderAllCons(Moves([p[0]]), tail);
      } else {
        RenderAllCons(Other(p[0]), tail);
      }
      assert [p[0]] + p[1..] == p;
    }
  }

  /** Only a bare one-letter run renders to a direction, and what follows it
      is never read as a direction. */
  lemma RenderedDirection(segs: seq<Segment>)
    requires WellFormed(segs) && |segs| > 0
    requires IsDirection(Render(segs[0]))
    ensures segs[0].Moves? && |Render(segs[0])| == 1
    ensures |segs| > 1 ==> !IsDirection(Render(segs[1]))
  {
    RenderShape(segs[0]);
    if |segs| > 1 {
      assert !(segs[0].Moves? && segs[1].Moves?);
    }
  }

  /** A rendered segment is a direction only when it is a bare one-letter run. */
  lemma RenderShape(s: Segment)
    requires s.Other? ==> !IsDirection(s.token)
    ensures IsDirection(Render(s)) ==> s.Moves? && |Render(s)| == 1
  {
    match s
    case Other(_) =>
    case Moves(d) =>
      if |RunifyDirs(d)| != 1 && |d| > 0 {
        assert RunifyDirs(d) == "run " + RunBody(d);
      }
  }

  /** `assemble` is idempotent: compressing its own output changes nothing. */
  lemma AssembleIdempotent(x: seq<string>)
    ensures Assemble([Assemble(x)]) == Assemble(x)
  {
    var t := Flatten(x);
    var segs := Segments(t);
    var p := RenderAll(segs);
    AssembleSpec(x);
    var a := Assemble(x);
    assert Flatten([a]) == Split(a, ';') by {
      assert [a][..0] == [];
    }
    forall i | 0 <= i < |p| ensures ';' !in p[i] {
      if segs[i].Moves? {
        RunifyNoSemicolon(segs[i].dirs);
      } else {
        TokenOfSegments(segs, t, i);
      }
    }
    if |p| == 0 {
      assert a == "";
      assert Split("", ';') == [""];
      AssembleSpec([a]);
      assert !IsDirection("");
      assert Segments([""]) == [Other("")];
    } else {
      SplitJoin(p, ';');
      AssembleSpec([a]);
      RenderStable(segs);
    }
  }

  /** An `Other` segment's token is one of the tokens it was read from. */
  lemma {:induction false} TokenOfSegments(segs: seq<Segment>, t: seq<string>, i: nat)
    requires Tokens(segs) == t
    requires i < |segs| && segs[i].Other?
    ensures segs[i].token in t
  {
    if i == 0 {
      assert t == [segs[0].token] + Tokens(segs[1..]);
    } else {
      match segs[0]
      case Moves(d) =>
        TokenOfSegments(segs[1..], Tokens(segs[1..]), i - 1);
      case Other(x) =>
        TokenOfSegments(segs[1..], Tokens(segs[1..]), i - 1);
    }
  }
}

=== FILE: exit_edit.dfy ===
/** Editing exits from the current room: `Mapper.getRoomByDirection`,
    `Mapper.exitLen` with its inner `do`, `inc`/`dec` and `Mapper.addExitData`
    of modules/mapper.py.

    The current room is a parameter.  The log line for an unknown direction
    is output only; the redraw that `exitLen` ends with is not part of this
    module. */
module ExitEdit {
  import opened Wrappers
  import opened AssocList
  import opened Strings
  import opened Store

  /** `getRoomByDirection`: the target of the lower-cased label among the exits
      of `here`; None when there is no such label (or `here` is unknown). */
  function GetRoomByDirection(m: MapStore, here: string, direction: string): (r: Option<string>)
    ensures r.Some? <==> Has(GetRoomExits(m, here), Lower(direction))
    ensures r.Some? ==> Walk(m, here, [Lower(direction)], false) == r
  {
    match Get(GetRoomExits(m, here), Lower(direction))
    case None => None
    case Some(e) => Some(e.tgt)
  }

  /** The length `do` starts from: a missing `len` reads as 1. */
  function LenOf(data: ExitData): int
  {
    if Has(data, "len") then Get(data, "len").value else 1
  }

  /** The length after `do`: the sum, raised to 1 when it falls below. */
  function NewLen(data: ExitData, increment: int): (n: int)
    ensures n >= 1 && n >= LenOf(data) + increment
    ensures n == 1 || n == LenOf(data) + increment
  {
    var sum := LenOf(data) + increment;
    if sum <= 1 then 1 else sum
  }

  /** The bag `do` writes back: `len` set to the new length, nothing else
      touched. */
  function LenBag(data: ExitData, increment: int): (r: ExitData)
    ensures Get(r, "len") == Some(NewLen(data, increment))
    ensures forall k :: k != "len" ==> Get(r, k) == Get(data, k)
  {
    Put(data, "len", NewLen(data, increment))
  }

  /** The position of the first exit whose target is `there`. */
  function FirstTo(exits: AList<Exit>, there: string): (r: Option<nat>)
    ensures r.Some? ==> r.value < |exits| && exits[r.value].1.tgt == there
    ensures r.Some? ==> forall j :: 0 <= j < r.value ==> exits[j].1.tgt != there
    ensures r.None? ==> forall j :: 0 <= j < |exits| ==> exits[j].1.tgt != there
  {
    if |exits| == 0 then None
    else if exits[0].1.tgt == there then Some(0)
    else
      match FirstTo(exits[1..], there)
      case None => None
      case Some(i) => Some(i + 1)
  }

  /** `do(here, there)`: the first exit of `here` leading to `there` gets its
      length adjusted; when no exit leads there the map is unchanged. */
  function LenDo(m: MapStore, here: string, there: string, increment: int): (r: MapStore)
  {
    var exits := GetRoomExits(m, here);
    match FirstTo(exits, there)
    case None => m
    case Some(i) =>
      assert Has(exits, exits[i].0);
      var dir := exits[i].0;
      SetExitData(m, here, dir, LenBag(GetExitData(m, here, dir).value, increment)).value
  }

  /** What `do` changes: only the data bag of the first exit of `here` that
      leads to `there` (through its label), whose `len` becomes the new
      length; every other label and every other room reads as before. */
  lemma LenDoEffect(m: MapStore, here: string, there: string, increment: int)
    ensures var exits := GetRoomExits(m, here);
      FirstTo(exits, there).None? ==> LenDo(m, here, there, increment) == m
    ensures var exits := GetRoomExits(m, here); var r := LenDo(m, here, there, increment);
      FirstTo(exits, there).Some? ==>
        var dir := exits[FirstTo(exits, there).value].0;
        && Known(m, here)
        && GetExitData(r, here, dir) == Ok(LenBag(GetExitData(m, here, dir).value, increment))
        && Get(GetExitData(r, here, dir).value, "len").value >= 1
        && (forall d :: d != dir ==> Get(RoomOf(r, here).exits, d) == Get(exits, d))
        && (forall k :: k != here ==> Get(r.rooms, k) == Get(m.rooms, k))
        && RoomIds(r) == RoomIds(m)
  {
    var exits := GetRoomExits(m, here);
    if FirstTo(exits, there).Some? {
      var i := FirstTo(exits, there).value;
      assert Has(exits, exits[i].0);
    }
  }

  /** What `exitLen` leaves behind: the map, and the exception it raised. */
  datatype Edited = Edited(m: MapStore, fault: Option<Fault>)

  /** `do(None, here)`, the second call for an unknown direction.  The exits
      and the exit data are read for the id `str(None)`, but `setExitData`
      indexes the rooms with None itself and raises KeyError(None).  `do` has
      by then changed the bag it read in place, which is the stored bag when
      the exit had one. */
  function LenDoNone(m: MapStore, here: string, increment: int): (r: Edited)
  {
    var exits := GetRoomExits(m, "None");
    match FirstTo(exits, here)
    case None => Edited(m, None)
    case Some(i) =>
      if ExitAt(exits, i).data.Some? then Edited(LenDo(m, "None", here, increment), Some(KeyErrorNone))
      else Edited(m, Some(KeyErrorNone))
  }

  /** `exitLen(direction, increment)`: `do(here, there)` then `do(there, here)`,
      where `there` is the room the direction leads to.  For an unknown
      direction `there` is None: no target equals None, so the first call does
      nothing, and the second is `LenDoNone`. */
  function ExitLen(m: MapStore, here: string, direction: string, increment: int): (r: Edited)
    ensures RoomIds(r.m) == RoomIds(m)
    ensures r.fault.Some? <==> GetRoomByDirection(m, here, direction).None? && FirstTo(GetRoomExits(m, "None"), here).Some?
    ensures r.fault.Some? ==> r.fault.value == KeyErrorNone
    ensures GetRoomByDirection(m, here, direction).None? ==> forall k :: k != "None" ==> Get(r.m.rooms, k) == Get(m.rooms, k)
  {
    match GetRoomByDirection(m, here, direction)
    case None =>
      LenDoEffect(m, "None", here, increment);
      LenDoNone(m, here, increment)
    case Some(there) =>
      LenDoEffect(m, here, there, increment);
      var m1 := LenDo(m, here, there, increment);
      LenDoEffect(m1, there, here, increment);
      Edited(LenDo(m1, there, here, increment), None)
  }

  /** Only the room itself and the room the direction leads to change. */
  lemma ExitLenFrame(m: MapStore, here: string, direction: string, increment: int, k: string)
    requires k != here
    requires GetRoomByDirection(m, here, direction).Some? ==> k != GetRoomByDirection(m, here, direction).value
    requires GetRoomByDirection(m, here, direction).None? ==> k != "None"
    ensures Get(ExitLen(m, here, direction, increment).m.rooms, k) == Get(m.rooms, k)
  {
    match GetRoomByDirection(m, here, direction)
    case None =>
      LenDoEffect(m, "None", here, increment);
    case Some(there) =>
      LenDoEffect(m, here, there, increment);
      LenDoEffect(LenDo(m, here, there, increment), there, here, increment);
  }

  /** `do(from, to)` took effect in `r`: the first exit of `from` that leads
      to `to` has the bag it had in `m`, with `len` adjusted. */
  ghost predicate Adjusted(m: MapStore, r: MapStore, from: string, to: string, increment: int)
  {
    var exits := GetRoomExits(m, from);
    && FirstTo(exits, to).Some?
    && var dir := exits[FirstTo(exits, to).value].0;
      && GetExitData(m, from, dir).Ok?
      && GetExitData(r, from, dir) == Ok(LenBag(GetExitData(m, from, dir).value, increment))
  }

  /** Between two distinct rooms `exitLen` adjusts the exit the direction
      names (or the first one leading to the same room) and the first exit
      leading back, when there is one; nothing is raised. */
  lemma ExitLenBoth(m: MapStore, here: string, direction: string, increment: int)
    ensures var t := GetRoomByDirection(m, here, direction); var r := ExitLen(m, here, direction, increment);
      t.Some? && t.value != here ==>
        && r.fault.None?
        && Adjusted(m, r.m, here, t.value, increment)
        && (FirstTo(GetRoomExits(m, t.value), here).Some? ==> Adjusted(m, r.m, t.value, here, increment))
  {
    var t := GetRoomByDirection(m, here, direction);
    if t.Some? && t.value != here {
      var there := t.value;
      var exits := GetRoomExits(m, here);
      var e := Get(exits, Lower(direction)).value;
      var i0 := IndexOf(exits, Lower(direction));
      assert exits[i0].1.tgt == there;
      assert FirstTo(exits, there).Some?;
      LenDoEffect(m, here, there, increment);
      var m1 := LenDo(m, here, there, increment);
      assert Get(m1.rooms, there) == Get(m.rooms, there);
      LenDoEffect(m1, there, here, increment);
      var m2 := LenDo(m1, there, here, increment);
      assert Get(m2.rooms, here) == Get(m1.rooms, here);
    }
  }

  /** `inc`: lengthen by two. */
  function Inc(m: MapStore, here: string, direction: string): (r: Edited)
    ensures RoomIds(r.m) == RoomIds(m)
    ensures r.fault.Some? <==> GetRoomByDirection(m, here, direction).None? && FirstTo(GetRoomExits(m, "None"), here).Some?
    ensures r.fault.Some? ==> r.fault.value == KeyErrorNone
    ensures var t := GetRoomByDirection(m, here, direction);
      t.Some? && t.value != here ==>
        && Adjusted(m, r.m, here, t.value, 2)
        && (FirstTo(GetRoomExits(m, t.value), here).Some? ==> Adjusted(m, r.m, t.value, here, 2))
  {
    ExitLenBoth(m, here, direction, 2);
    ExitLen(m, here, direction, 2)
  }

  /** `dec`: shorten by two. */
  function Dec(m: MapStore, here: string, direction: string): (r: Edited)
    ensures RoomIds(r.m) == RoomIds(m)
    ensures r.fault.Some? <==> GetRoomByDirection(m, here, direction).None? && FirstTo(GetRoomExits(m, "None"), here).Some?
    ensures r.fault.Some? ==> r.fault.value == KeyErrorNone
    ensures var t := GetRoomByDirection(m, here, direction);
      t.Some? && t.value != here ==>
        && Adjusted(m, r.m, here, t.value, -2)
        && (FirstTo(GetRoomExits(m, t.value), here).Some? ==> Adjusted(m, r.m, t.value, here, -2))
  {
    ExitLenBoth(m, here, direction, -2);
    ExitLen(m, here, direction, -2)
  }

  /** Shortening undoes lengthening: after `inc` and `dec` a bag reads the
      length it had, or 1 when it had none; every other key is untouched. */
  lemma IncDecLen(data: ExitData)
    requires LenOf(data) >= 1
    ensures Get(LenBag(LenBag(data, 2), -2), "len") == Some(LenOf(data))
    ensures forall k :: k != "len" ==> Get(LenBag(LenBag(data, 2), -2), k) == Get(data, k)
  {
    assert Has(LenBag(data, 2), "len");
  }

  /** `addExitData(source, target, data)`: the exit's bag updated with `data`
      (later entries win); KeyError when the room or the label is missing. */
  function AddExitData(m: MapStore, source: string, target: string, data: ExitData): (r: Result<MapStore, Fault>)
    ensures r.Ok? <==> Known(m, source) && Has(RoomOf(m, source).exits, target)
    ensures r.Err? ==> r.error == (if Known(m, source) then KeyError(target) else KeyError(source))
    ensures r.Ok? ==> forall k :: k != source ==> Get(r.value.rooms, k) == Get(m.rooms, k)
    ensures r.Ok? ==> Known(r.value, source) && forall d :: d != target ==> Get(RoomOf(r.value, source).exits, d) == Get(RoomOf(m, source).exits, d)
  {
    match GetExitData(m, source, target)
    case Err(f) => Err(f)
    case Ok(exd) => SetExitData(m, source, target, Update(exd, data))
  }

  /** After `addExitData` the bag reads every key of `data` with its last value
      there and every other key as before; the target is kept. */
  lemma AddExitDataReads(m: MapStore, source: string, target: string, data: ExitData)
    requires AddExitData(m, source, target, data).Ok?
    ensures var r := AddExitData(m, source, target, data).value;
      && GetExitData(r, source, target).Ok?
      && Get(RoomOf(r, source).exits, target).value.tgt == Get(RoomOf(m, source).exits, target).value.tgt
      && forall k :: Get(GetExitData(r, source, target).value, k) ==
           if Has(data, k) then Some(data[LastIndexOf(data, k)].1) else Get(GetExitData(m, source, target).value, k)
  {
  }
}

=== FILE: explore.dfy ===
/** `Mapper.unmapped` of modules/mapper.py: a breadth-first search from the
    current room that lists the rooms still worth walking to.

    Locked exits are never followed.  A target with an empty data bag is
    unexplored: it is listed (or, with `one`, returned at once).  With
    `unvisited`, a target not visited today in the start zone is listed;
    every other target in the start zone (any zone without `inArea`) is
    enqueued once.  The answer keeps the first occurrence of every id.

    The current room and the "visited today" set are parameters. */
module Explore {
  import opened Wrappers
  import opened AssocList
  import opened Store
  import opened Observe

  /** The arguments of a search: the visited-today set, the three flags, and
      the zone of the start room. */
  datatype Ask = Ask(seen: set<VisitId>, unvisited: bool, inArea: bool, one: bool, area: string)

  /** `not rdata`: a room with no data bag, or never stored. */
  predicate Unexplored(m: MapStore, t: string)
  {
    GetRoomData(m, t) == []
  }

  /** `sameZone`: without `inArea` every room, with it the rooms of the start
      zone. */
  predicate SameZone(m: MapStore, ask: Ask, t: string)
  {
    !ask.inArea || Get(GetRoomData(m, t), "zone") == Some(ask.area)
  }

  /** A known room the search lists rather than enters. */
  predicate Listable(m: MapStore, ask: Ask, t: string)
  {
    !Unexplored(m, t) && SameZone(m, ask, t) && ask.unvisited && !VisitedToday(ask.seen, t)
  }

  /** A known room the search enters. */
  predicate Through(m: MapStore, ask: Ask, t: string)
  {
    !Unexplored(m, t) && SameZone(m, ask, t) && !(ask.unvisited && !VisitedToday(ask.seen, t))
  }

  /** A walk through open exits every room of which (after the first) the
      search enters. */
  predicate ThroughWalk(m: MapStore, ask: Ask, from: string, labels: seq<string>)
    decreases |labels|
  {
    if |labels| == 0 then true
    else
      match Get(GetRoomExits(m, from), labels[0])
      case None => false
      case Some(e) => !Locked(e) && Through(m, ask, e.tgt) && ThroughWalk(m, ask, e.tgt, labels[1..])
  }

  /** A room one open exit past a walk through rooms the search enters: the
      rooms whose data bags the search reads. */
  ghost predicate Beyond(m: MapStore, ask: Ask, from: string, t: string)
  {
    exists labels, d :: ThroughWalk(m, ask, from, labels) && Walk(m, from, labels + [d], true) == Some(t)
  }

  /** A walk through entered rooms, extended by an open exit to a room the
      search enters, is still one. */
  lemma {:induction false} ThroughSnoc(m: MapStore, ask: Ask, from: string, labels: seq<string>, d: string)
    requires ThroughWalk(m, ask, from, labels) && Walk(m, from, labels, true).Some?
    requires var ex := GetRoomExits(m, Walk(m, from, labels, true).value);
      Get(ex, d).Some? && !Locked(Get(ex, d).value) && Through(m, ask, Get(ex, d).value.tgt)
    ensures ThroughWalk(m, ask, from, labels + [d])
    decreases |labels|
  {
    if |labels| == 0 {
      assert labels + [d] == [d];
    } else {
      var e := Get(GetRoomExits(m, from), labels[0]).value;
      assert (labels + [d])[1..] == labels[1..] + [d];
      ThroughSnoc(m, ask, e.tgt, labels[1..], d);
    }
  }

  predicate NoDup(s: seq<string>)
  {
    forall i, j :: 0 <= i < j < |s| ==> s[i] != s[j]
  }

  // ---------------------------------------------------------------------------
  // `list(dict.fromkeys(out))`

  /** The position of the first occurrence of `t` in `s`. */
  function FirstIndex(s: seq<string>, t: string): (i: nat)
    requires t in s
    ensures i < |s| && s[i] == t
    ensures forall k :: 0 <= k < i ==> s[k] != t
  {
    if s[0] == t then 0 else 1 + FirstIndex(s[1..], t)
  }

  /** The ids of `s` in order of first occurrence, skipping those in `skip`. */
  function DedupeFrom(s: seq<string>, skip: set<string>): (r: seq<string>)
    ensures NoDup(r)
    ensures forall t :: t in r <==> t in s && t !in skip
    ensures forall i, j :: 0 <= i < j < |r| ==> FirstIndex(s, r[i]) < FirstIndex(s, r[j])
    decreases |s|
  {
    if |s| == 0 then []
    else if s[0] in skip then DedupeFrom(s[1..], skip)
    else [s[0]] + DedupeFrom(s[1..], skip + {s[0]})
  }

  /** `list(dict.fromkeys(s))`: every id once, in order of first occurrence. */
  function Dedupe(s: seq<string>): (r: seq<string>)
    ensures NoDup(r)
    ensures forall t :: t in r <==> t in s
    ensures forall i, j :: 0 <= i < j < |r| ==> FirstIndex(s, r[i]) < FirstIndex(s, r[j])
  {
    DedupeFrom(s, {})
  }

  /** A list without repeats is its own dedupe. */
  lemma {:induction false} DedupeFromNoDup(s: seq<string>, skip: set<string>)
    requires NoDup(s)
    requires forall i :: 0 <= i < |s| ==> s[i] !in skip
    ensures DedupeFrom(s, skip) == s
    decreases |s|
  {
    if |s| > 0 {
      assert forall i :: 0 <= i < |s[1..]| ==> s[1..][i] == s[i + 1];
      DedupeFromNoDup(s[1..], skip + {s[0]});
    }
  }

  /** Deduplicating twice is deduplicating once. */
  lemma DedupeIdempotent(s: seq<string>)
    ensures Dedupe(Dedupe(s)) == Dedupe(s)
  {
    DedupeFromNoDup(Dedupe(s), {});
  }

  // ---------------------------------------------------------------------------
  // the search state

  /** The search state: the answer so far, the expanded rooms (`visited`), the
      queue and the set of queued ids (`roomq_check`). */
  datatype Scan = Scan(out: seq<string>, visited: set<string>, q: seq<string>, check: set<string>)

  /** What the search has done about a target of an open exit: an unexplored
      or listable one is listed, one the search enters is expanded or queued,
      and with `inArea` a known one had a zone to read. */
  ghost predicate Settled(m: MapStore, ask: Ask, st: Scan, t: string)
  {
    && (Unexplored(m, t) ==> t in st.out)
    && (Listable(m, ask, t) ==> t in st.out)
    && (Through(m, ask, t) ==> t in st.visited || t in st.check)
    && (ask.inArea ==> Unexplored(m, t) || Has(GetRoomData(m, t), "zone"))
  }

  /** The first `j` exits of `v` are settled (locked ones need nothing). */
  ghost predicate Handled(m: MapStore, ask: Ask, st: Scan, v: string, j: int)
  {
    forall i :: 0 <= i < j && i < |GetRoomExits(m, v)| && !Locked(ExitAt(GetRoomExits(m, v), i)) ==>
      Settled(m, ask, st, ExitAt(GetRoomExits(m, v), i).tgt)
  }

  /** Every exit of every room in `done` is settled. */
  ghost predicate Closed(m: MapStore, ask: Ask, st: Scan, done: set<string>)
  {
    forall v :: v in done ==> Handled(m, ask, st, v, |GetRoomExits(m, v)|)
  }

  /** The answer and the entered rooms only grow. */
  ghost predicate Grows(st: Scan, st': Scan)
  {
    && (forall t :: t in st.out ==> t in st'.out)
    && (forall t :: t in st.visited || t in st.check ==> t in st'.visited || t in st'.check)
  }

  lemma ClosedGrows(m: MapStore, ask: Ask, st: Scan, st': Scan, done: set<string>)
    requires Closed(m, ask, st, done) && Grows(st, st')
    ensures Closed(m, ask, st', done)
  {
    forall v | v in done ensures Handled(m, ask, st', v, |GetRoomExits(m, v)|) {
      HandledGrows(m, ask, st, st', v, |GetRoomExits(m, v)|);
    }
  }

  lemma HandledGrows(m: MapStore, ask: Ask, st: Scan, st': Scan, v: string, j: int)
    requires Handled(m, ask, st, v, j) && Grows(st, st')
    ensures Handled(m, ask, st', v, j)
  {
    forall i | 0 <= i < j && i < |GetRoomExits(m, v)| && !Locked(ExitAt(GetRoomExits(m, v), i))
      ensures Settled(m, ask, st', ExitAt(GetRoomExits(m, v), i).tgt)
    {
      var t := ExitAt(GetRoomExits(m, v), i).tgt;
      assert Settled(m, ask, st, t);
    }
  }

  /** Every recorded path is a walk through entered rooms to the room it is
      recorded for. */
  ghost predicate ThroughPaths(m: MapStore, ask: Ask, start: string, paths: map<string, seq<string>>)
  {
    forall k :: k in paths ==> ThroughWalk(m, ask, start, paths[k]) && Walk(m, start, paths[k], true) == Some(k)
  }

  /** What is listed lies one open exit past an entered room, is unexplored or
      listable, and is never unexplored with `one`. */
  ghost predicate OutSound(m: MapStore, ask: Ask, start: string, out: seq<string>)
  {
    forall i :: 0 <= i < |out| ==>
      && Beyond(m, ask, start, out[i])
      && (Unexplored(m, out[i]) || Listable(m, ask, out[i]))
      && !(ask.one && Unexplored(m, out[i]))
  }

  /** The queue holds each id once, exactly the ids of `roomq_check`, all of
      them stored rooms. */
  ghost predicate QueueSound(m: MapStore, st: Scan)
  {
    && NoDup(st.q)
    && (forall i :: 0 <= i < |st.q| ==> st.q[i] in st.check)
    && (forall c :: c in st.check ==> c in st.q && Known(m, c))
  }

  /** The invariant of the outer loop: `done` are the rooms whose exits were
      all read; every other entered room is still queued. */
  ghost predicate Searching(m: MapStore, ask: Ask, start: string, st: Scan, done: set<string>, paths: map<string, seq<string>>)
  {
    && start in st.visited
    && done <= st.visited
    && (forall v :: v in st.visited ==> v in done || v in st.check)
    && (forall c :: c in st.check ==> c !in done)
    && QueueSound(m, st)
    && ThroughPaths(m, ask, start, paths)
    && (forall v :: v in st.visited || v in st.check ==> v in paths)
    && OutSound(m, ask, start, st.out)
    && Closed(m, ask, st, done)
  }

  /** The rooms entered or queued. */
  function Entered(st: Scan): set<string>
  {
    st.visited + st.check
  }

  // ---------------------------------------------------------------------------
  // what the search answers

  /** Every room an open walk through entered rooms leads to, one open step
      further, that is unexplored or listable, is in `out`. */
  ghost predicate FoundAll(m: MapStore, ask: Ask, start: string, out: seq<string>)
  {
    forall labels, d :: ThroughWalk(m, ask, start, labels) && Walk(m, start, labels + [d], true).Some? ==>
      (Unexplored(m, Walk(m, start, labels + [d], true).value) || Listable(m, ask, Walk(m, start, labels + [d], true).value))
      ==> Walk(m, start, labels + [d], true).value in out
  }

  /** With `inArea`, every known room one open step beyond a walk through
      entered rooms has a zone: the search read each of them without a
      KeyError. */
  ghost predicate ZonesRead(m: MapStore, ask: Ask, start: string)
  {
    forall labels, d :: ThroughWalk(m, ask, start, labels) && Walk(m, start, labels + [d], true).Some? ==>
      Unexplored(m, Walk(m, start, labels + [d], true).value) || Has(GetRoomData(m, Walk(m, start, labels + [d], true).value), "zone")
  }

  /** A sound answer: each id one open exit past a room the search enters,
      and unexplored or listable. */
  ghost predicate Sound(m: MapStore, ask: Ask, start: string, out: seq<string>)
  {
    forall i :: 0 <= i < |out| ==> Beyond(m, ask, start, out[i]) && (Unexplored(m, out[i]) || Listable(m, ask, out[i]))
  }

  /** A successful answer: without repeats and sound; without `one` it
      holds every unexplored or listable room in reach; with `one` it is a
      single unexplored room, or only listable rooms when no unexplored room
      is in reach.  Unless it is that single early room, the whole search ran,
      so with `inArea` no room it read lacked a zone. */
  ghost predicate Answer(m: MapStore, ask: Ask, start: string, out: seq<string>)
  {
    && NoDup(out)
    && Sound(m, ask, start, out)
    && (!ask.one ==> FoundAll(m, ask, start, out) && (ask.inArea ==> ZonesRead(m, ask, start)))
    && (ask.one ==> (|out| == 1 && Unexplored(m, out[0]))
                    || (&& FoundAll(m, ask, start, out) && (forall i :: 0 <= i < |out| ==> !Unexplored(m, out[i]))
                        && (ask.inArea ==> ZonesRead(m, ask, start))))
  }

  /** `unmapped(unvisited, inArea, one)` from `start`: KeyError('zone') when
      the start room has no zone, or (with `inArea`) when a known room one
      open exit past an entered room has none; otherwise an answer as above. */
  method Unmapped(m: MapStore, start: string, seen: set<VisitId>, unvisited: bool, inArea: bool, one: bool)
    returns (r: Result<seq<string>, Fault>)
    ensures !Has(GetRoomData(m, start), "zone") ==> r == Err(KeyError("zone"))
    ensures r.Err? ==> r.error == KeyError("zone")
    ensures r.Err? ==> (|| !Has(GetRoomData(m, start), "zone")
                        || (inArea && !ZonesRead(m, Ask(seen, unvisited, inArea, one, Get(GetRoomData(m, start), "zone").value), start)))
    ensures r.Ok? ==> (Has(GetRoomData(m, start), "zone")
      && Answer(m, Ask(seen, unvisited, inArea, one, Get(GetRoomData(m, start), "zone").value), start, r.value))
  {
    var data := GetRoomData(m, start);
    if !Has(data, "zone") {
      return Err(KeyError("zone"));
    }
    r := Search(m, Ask(seen, unvisited, inArea, one, Get(data, "zone").value), start);
  }

  /** The search proper, from a start room with a zone. */
  method Search(m: MapStore, ask: Ask, start: string) returns (r: Result<seq<string>, Fault>)
    requires Has(GetRoomData(m, start), "zone")
    ensures r.Err? ==> r.error == KeyError("zone") && ask.inArea && !ZonesRead(m, ask, start)
    ensures r.Ok? ==> Answer(m, ask, start, r.value)
  {
    var st := Scan([], {start}, [start], {start});
    ghost var done: set<string> := {};
    ghost var paths: map<string, seq<string>> := map[start := []];
    Start(m, ask, start);
    while |st.q| > 0
      invariant Searching(m, ask, start, st, done, paths)
      decreases |RoomIds(m) - Entered(st)|, |st.q|
    {
      var answer;
      st, done, paths, answer := Expand(m, ask, start, st, done, paths);
      if answer.Some? {
        Early(m, ask, start, answer.value);
        return answer.value;
      }
    }
    Finished(m, ask, start, st, done, paths);
    r := Ok(Dedupe(st.out));
  }

  /** The state before the loop: the start room visited and queued. */
  lemma Start(m: MapStore, ask: Ask, start: string)
    requires Has(GetRoomData(m, start), "zone")
    ensures Searching(m, ask, start, Scan([], {start}, [start], {start}), {}, map[start := []])
  {
    HasKeys(GetRoomData(m, start), "zone");
  }

  /** An early answer of the search is KeyError('zone') for a room the search
      reads without a zone, or an answer. */
  lemma Early(m: MapStore, ask: Ask, start: string, r: Result<seq<string>, Fault>)
    requires Answered(m, ask, start, r)
    ensures r.Err? ==> r.error == KeyError("zone") && ask.inArea && !ZonesRead(m, ask, start)
    ensures r.Ok? ==> Answer(m, ask, start, r.value)
  {
  }

  /** When the queue runs dry, the answer after dedupe is sound and complete. */
  lemma Finished(m: MapStore, ask: Ask, start: string, st: Scan, done: set<string>, paths: map<string, seq<string>>)
    requires Searching(m, ask, start, st, done, paths) && |st.q| == 0
    ensures Answer(m, ask, start, Dedupe(st.out))
  {
    DedupeSound(m, ask, start, st.out);
    assert st.visited == done;
    Complete(m, ask, start, st, done);
  }

  /** The dedupe of a sound list is sound. */
  lemma DedupeSound(m: MapStore, ask: Ask, start: string, out: seq<string>)
    requires OutSound(m, ask, start, out)
    ensures OutSound(m, ask, start, Dedupe(out))
  {
    var r := Dedupe(out);
    forall i | 0 <= i < |r|
      ensures Beyond(m, ask, start, r[i]) && (Unexplored(m, r[i]) || Listable(m, ask, r[i])) && !(ask.one && Unexplored(m, r[i]))
    {
      assert r[i] in out;
      var k :| 0 <= k < |out| && out[k] == r[i];
    }
  }

  /** Once every entered room is expanded, every room one open exit past a
      walk through entered rooms is settled. */
  lemma Complete(m: MapStore, ask: Ask, start: string, st: Scan, done: set<string>)
    requires Closed(m, ask, st, done) && start in done && st.check == {}
    requires forall v :: v in st.visited ==> v in done
    ensures FoundAll(m, ask, start, st.out) && FoundAll(m, ask, start, Dedupe(st.out))
    ensures ask.inArea ==> ZonesRead(m, ask, start)
  {
    var out := Dedupe(st.out);
    forall labels, d | ThroughWalk(m, ask, start, labels) && Walk(m, start, labels + [d], true).Some?
      ensures (Unexplored(m, Walk(m, start, labels + [d], true).value) || Listable(m, ask, Walk(m, start, labels + [d], true).value))
        ==> Walk(m, start, labels + [d], true).value in st.out && Walk(m, start, labels + [d], true).value in out
      ensures ask.inArea ==> Unexplored(m, Walk(m, start, labels + [d], true).value)
                             || Has(GetRoomData(m, Walk(m, start, labels + [d], true).value), "zone")
    {
      StepOut(m, ask, st, done, start, labels, d);
    }
  }

  /** Walking through entered rooms from an expanded room ends in an expanded
      room, whose open exits are settled. */
  lemma StepOut(m: MapStore, ask: Ask, st: Scan, done: set<string>, start: string, labels: seq<string>, d: string)
    requires Closed(m, ask, st, done) && start in done && st.check == {}
    requires (forall v :: v in st.visited ==> v in done)
    requires ThroughWalk(m, ask, start, labels) && Walk(m, start, labels + [d], true).Some?
    ensures var t := Walk(m, start, labels + [d], true).value;
      && ((Unexplored(m, t) || Listable(m, ask, t)) ==> t in st.out)
      && (ask.inArea ==> Unexplored(m, t) || Has(GetRoomData(m, t), "zone"))
  {
    StaysDone(m, ask, st, done, start, labels);
    var v := Walk(m, start, labels, true).value;
    WalkSnoc(m, start, labels, d, true);
    var ex := GetRoomExits(m, v);
    var i := IndexOf(ex, d);
    assert ExitAt(ex, i) == Get(ex, d).value;
    assert Handled(m, ask, st, v, |ex|);
  }

  lemma {:induction false} StaysDone(m: MapStore, ask: Ask, st: Scan, done: set<string>, from: string, labels: seq<string>)
    requires Closed(m, ask, st, done) && from in done && st.check == {}
    requires (forall v :: v in st.visited ==> v in done)
    requires ThroughWalk(m, ask, from, labels)
    ensures Walk(m, from, labels, true).Some? && Walk(m, from, labels, true).value in done
    decreases |labels|
  {
    if |labels| > 0 {
      var ex := GetRoomExits(m, from);
      var e := Get(ex, labels[0]).value;
      var i := IndexOf(ex, labels[0]);
      assert ExitAt(ex, i) == e;
      assert Handled(m, ask, st, from, |ex|);
      assert Settled(m, ask, st, e.tgt);
      StaysDone(m, ask, st, done, e.tgt, labels[1..]);
    }
  }

  // ---------------------------------------------------------------------------
  // one turn of the outer loop

  /** An early answer: KeyError('zone') for a known room without a zone one
      open exit past an entered room (only with `inArea`), or with `one` the
      first unexplored room met, which lies one open exit past an entered
      room. */
  ghost predicate Answered(m: MapStore, ask: Ask, start: string, r: Result<seq<string>, Fault>)
  {
    && (r.Err? ==> r.error == KeyError("zone") && ask.inArea && !ZonesRead(m, ask, start))
    && (r.Ok? ==> ask.one && |r.value| == 1 && Unexplored(m, r.value[0]) && Beyond(m, ask, start, r.value[0]))
  }

  /** The invariant of the inner loop over the exits of `room`, popped from
      the state `st0`, apart from the exits read so far: `visited` is as at
      the pop, and whatever was queued since is a stored room entered for the
      first time. */
  ghost predicate ScanFrame(m: MapStore, ask: Ask, start: string, room: string, st: Scan, done: set<string>,
                            paths: map<string, seq<string>>, st0: Scan)
  {
    && room in st.visited && room !in done
    && start in st.visited
    && done <= st.visited
    && (forall v :: v in st.visited ==> v in done || v in st.check || v == room)
    && (forall c :: c in st.check ==> c !in done && c != room)
    && QueueSound(m, st)
    && ThroughPaths(m, ask, start, paths)
    && (forall v :: v in st.visited || v in st.check ==> v in paths)
    && OutSound(m, ask, start, st.out)
    && Closed(m, ask, st, done)
    && st.visited == st0.visited
    && st0.check <= st.check
    && (st.check == st0.check ==> |st.q| == |st0.q|)
    && (forall c :: c in st.check && c !in st0.check ==> c !in st0.visited)
  }

  /** The invariant of the inner loop: the first `j` exits are settled. */
  ghost predicate Scanning(m: MapStore, ask: Ask, start: string, room: string, j: int, st: Scan, done: set<string>,
                           paths: map<string, seq<string>>, st0: Scan)
  {
    && 0 <= j <= |GetRoomExits(m, room)|
    && ScanFrame(m, ask, start, room, st, done, paths, st0)
    && Handled(m, ask, st, room, j)
  }

  /** One turn of the outer loop: pop the head of the queue, mark it visited
      and read its exits in order. */
  method Expand(m: MapStore, ask: Ask, start: string, st: Scan, ghost done: set<string>, ghost paths: map<string, seq<string>>)
    returns (st': Scan, ghost done': set<string>, ghost paths': map<string, seq<string>>, answer: Option<Result<seq<string>, Fault>>)
    requires |st.q| > 0 && Searching(m, ask, start, st, done, paths)
    ensures answer.Some? ==> Answered(m, ask, start, answer.value)
    ensures answer.None? ==> Searching(m, ask, start, st', done', paths')
    ensures answer.None? ==>
      || |RoomIds(m) - Entered(st')| < |RoomIds(m) - Entered(st)|
      || (Entered(st') == Entered(st) && |st'.q| < |st.q|)
  {
    var room := st.q[0];
    var popped := Scan(st.out, st.visited + {room}, st.q[1..], st.check - {room});
    Pop(m, ask, start, st, done, paths);
    var exits := GetRoomExits(m, room);
    var cur := popped;
    ghost var ps := paths;
    var j := 0;
    while j < |exits|
      invariant j <= |exits|
      invariant Scanning(m, ask, start, room, j, cur, done, ps, popped)
    {
      cur, ps, answer := ScanOne(m, ask, start, room, j, cur, done, ps, popped);
      if answer.Some? {
        return cur, done, ps, answer;
      }
      j := j + 1;
    }
    RoomDone(m, ask, start, st, cur, done, ps);
    return cur, done + {room}, ps, None;
  }

  /** Popping the head starts the inner loop. */
  lemma Pop(m: MapStore, ask: Ask, start: string, st: Scan, done: set<string>, paths: map<string, seq<string>>)
    requires |st.q| > 0 && Searching(m, ask, start, st, done, paths)
    ensures var room := st.q[0]; var popped := Scan(st.out, st.visited + {room}, st.q[1..], st.check - {room});
      && Scanning(m, ask, start, room, 0, popped, done, paths, popped)
      && Entered(popped) == Entered(st) && room in st.check
  {
    var room := st.q[0];
    var popped := Scan(st.out, st.visited + {room}, st.q[1..], st.check - {room});
    assert room in st.check;
    assert Grows(st, popped);
    ClosedGrows(m, ask, st, popped, done);
    PopQueue(m, st);
    assert Entered(popped) == Entered(st);
  }

  /** The queue without its head still lists exactly the checked rooms. */
  lemma PopQueue(m: MapStore, st: Scan)
    requires |st.q| > 0 && QueueSound(m, st)
    ensures QueueSound(m, Scan(st.out, st.visited + {st.q[0]}, st.q[1..], st.check - {st.q[0]}))
  {
    var room := st.q[0];
    var popped := Scan(st.out, st.visited + {room}, st.q[1..], st.check - {room});
    forall i | 0 <= i < |popped.q| ensures popped.q[i] in popped.check {
      assert popped.q[i] == st.q[i + 1];
    }
    forall c | c in popped.check ensures c in popped.q && Known(m, c) {
      var i :| 0 <= i < |st.q| && st.q[i] == c;
      assert popped.q[i - 1] == c;
    }
  }

  /** When all exits are read, the popped room joins the expanded ones and
      the loop measure has dropped. */
  lemma RoomDone(m: MapStore, ask: Ask, start: string, st: Scan, cur: Scan, done: set<string>, paths: map<string, seq<string>>)
    requires |st.q| > 0
    requires var room := st.q[0]; var popped := Scan(st.out, st.visited + {room}, st.q[1..], st.check - {room});
      && Scanning(m, ask, start, room, |GetRoomExits(m, room)|, cur, done, paths, popped)
      && Entered(popped) == Entered(st) && room in st.check
    ensures Searching(m, ask, start, cur, done + {st.q[0]}, paths)
    ensures || |RoomIds(m) - Entered(cur)| < |RoomIds(m) - Entered(st)|
            || (Entered(cur) == Entered(st) && |cur.q| < |st.q|)
  {
    var room := st.q[0];
    var popped := Scan(st.out, st.visited + {room}, st.q[1..], st.check - {room});
    ScanDone(m, ask, start, room, cur, done, paths, popped);
    assert forall c :: c in cur.check ==> Known(m, c);
    Progress(m, st, popped, cur);
  }

  /** When all exits are read, the popped room joins the expanded ones. */
  lemma ScanDone(m: MapStore, ask: Ask, start: string, room: string, st: Scan, done: set<string>, paths: map<string, seq<string>>, st0: Scan)
    requires Scanning(m, ask, start, room, |GetRoomExits(m, room)|, st, done, paths, st0)
    ensures Searching(m, ask, start, st, done + {room}, paths)
  {
    assert ScanFrame(m, ask, start, room, st, done, paths, st0);
    assert Closed(m, ask, st, done + {room}) by {
      forall v | v in done + {room} ensures Handled(m, ask, st, v, |GetRoomExits(m, v)|) {
        if v != room {
          assert v in done;
        }
      }
    }
  }

  /** The loop measure drops: either a stored room was queued for the first
      time, or nothing was queued and the queue is one shorter. */
  lemma Progress(m: MapStore, st: Scan, st0: Scan, st1: Scan)
    requires |st.q| > 0 && st.q[0] in st.check
    requires st0 == Scan(st.out, st.visited + {st.q[0]}, st.q[1..], st.check - {st.q[0]})
    requires st1.visited == st0.visited && st0.check <= st1.check
    requires st1.check == st0.check ==> |st1.q| == |st0.q|
    requires forall c :: c in st1.check && c !in st0.check ==> c !in st0.visited && Known(m, c)
    ensures || |RoomIds(m) - Entered(st1)| < |RoomIds(m) - Entered(st)|
            || (Entered(st1) == Entered(st) && |st1.q| < |st.q|)
  {
    assert Entered(st0) == Entered(st);
    if st1.check != st0.check {
      var c :| c in st1.check && c !in st0.check;
      HasKeys(m.rooms, c);
      assert RoomIds(m) - Entered(st1) <= (RoomIds(m) - Entered(st)) - {c};
      SubsetCard(RoomIds(m) - Entered(st1), (RoomIds(m) - Entered(st)) - {c});
    }
  }

  lemma SubsetCard(a: set<string>, b: set<string>)
    requires a <= b
    ensures |a| <= |b|
  {
    assert b == a + (b - a);
  }

  // ---------------------------------------------------------------------------
  // one exit

  /** What the inner loop does with one exit. */
  datatype Outcome = Lock | Found | ZoneFault | List | Enqueue | Pass

  /** The branches of the inner loop for the `j`-th exit of `room`, in the
      order the code tests them. */
  function Classify(m: MapStore, ask: Ask, room: string, j: int, st: Scan): (o: Outcome)
    requires 0 <= j < |GetRoomExits(m, room)|
    ensures var e := ExitAt(GetRoomExits(m, room), j); var tgt := e.tgt;
      && (o == Lock <==> Locked(e))
      && (o == Found <==> !Locked(e) && Unexplored(m, tgt))
      && (o == ZoneFault <==> !Locked(e) && !Unexplored(m, tgt) && ask.inArea && !Has(GetRoomData(m, tgt), "zone"))
      && (o == List <==> !Locked(e) && Listable(m, ask, tgt))
      && (o == Enqueue <==> !Locked(e) && Through(m, ask, tgt) && tgt !in st.visited && tgt !in st.check)
      && (o == Pass ==>
            && !Unexplored(m, tgt) && !Listable(m, ask, tgt) && (Through(m, ask, tgt) ==> tgt in st.visited || tgt in st.check)
            && (ask.inArea ==> Has(GetRoomData(m, tgt), "zone")))
  {
    var exits := GetRoomExits(m, room);
    var tgt := ExitAt(exits, j).tgt;
    var edata := GetExitData(m, room, exits[j].0).value;
    var rdata := GetRoomData(m, tgt);
    if Has(edata, "lock") then Lock
    else if |rdata| == 0 then Found
    else if ask.inArea && !Has(rdata, "zone") then ZoneFault
    else
      var sameZone := !ask.inArea || Get(rdata, "zone").value == ask.area;
      if ask.unvisited && !VisitedToday(ask.seen, tgt) && sameZone then List
      else if tgt !in st.visited && sameZone && tgt !in st.check then Enqueue
      else Pass
  }

  /** The body of the inner loop for the `j`-th exit of `room`.  Only a
      queued target gets a recorded path: it is entered. */
  method ScanOne(m: MapStore, ask: Ask, start: string, room: string, j: int, st: Scan, ghost done: set<string>,
                 ghost paths: map<string, seq<string>>, ghost st0: Scan)
    returns (st': Scan, ghost paths': map<string, seq<string>>, answer: Option<Result<seq<string>, Fault>>)
    requires Scanning(m, ask, start, room, j, st, done, paths, st0) && j < |GetRoomExits(m, room)|
    ensures answer.Some? ==> Answered(m, ask, start, answer.value)
    ensures answer.None? ==> Scanning(m, ask, start, room, j + 1, st', done, paths', st0)
  {
    var exits := GetRoomExits(m, room);
    var tgt := ExitAt(exits, j).tgt;
    st', paths', answer := st, paths, None;
    match Classify(m, ask, room, j, st)
    case Lock =>
      SkipLocked(m, ask, start, room, j, st, done, paths, st0);
    case Found =>
      Extend(m, ask, start, room, j, st, done, paths, st0);
      if ask.one {
        answer := Some(Ok([tgt]));
      } else {
        st' := st.(out := st.out + [tgt]);
        Listed(m, ask, start, room, j, st, done, paths, st0);
      }
    case ZoneFault =>
      Extend(m, ask, start, room, j, st, done, paths, st0);
      ghost var labels := paths[room];
      assert ThroughWalk(m, ask, start, labels) && Walk(m, start, labels + [exits[j].0], true) == Some(tgt);
      answer := Some(Err(KeyError("zone")));
    case List =>
      st' := st.(out := st.out + [tgt]);
      Listed(m, ask, start, room, j, st, done, paths, st0);
    case Enqueue =>
      st' := st.(q := st.q + [tgt], check := st.check + {tgt});
      paths' := paths[tgt := paths[room] + [exits[j].0]];
      Queued(m, ask, start, room, j, st, done, paths, st0);
    case Pass =>
      Skipped(m, ask, start, room, j, st, done, paths, st0);
  }

  /** A locked exit needs nothing. */
  lemma SkipLocked(m: MapStore, ask: Ask, start: string, room: string, j: int, st: Scan, done: set<string>,
                   paths: map<string, seq<string>>, st0: Scan)
    requires Scanning(m, ask, start, room, j, st, done, paths, st0) && j < |GetRoomExits(m, room)|
    requires Locked(ExitAt(GetRoomExits(m, room), j))
    ensures Scanning(m, ask, start, room, j + 1, st, done, paths, st0)
  {
    HandledNext(m, ask, st, room, j);
  }

  /** The `j`-th exit settled (or locked) extends the handled prefix. */
  lemma HandledNext(m: MapStore, ask: Ask, st: Scan, v: string, j: int)
    requires 0 <= j < |GetRoomExits(m, v)| && Handled(m, ask, st, v, j)
    requires !Locked(ExitAt(GetRoomExits(m, v), j)) ==> Settled(m, ask, st, ExitAt(GetRoomExits(m, v), j).tgt)
    ensures Handled(m, ask, st, v, j + 1)
  {
    forall i | 0 <= i < j + 1 && i < |GetRoomExits(m, v)| && !Locked(ExitAt(GetRoomExits(m, v), i))
      ensures Settled(m, ask, st, ExitAt(GetRoomExits(m, v), i).tgt)
    {
      if i < j {
      }
    }
  }

  /** The target of an open exit of `room` lies one step past the path
      recorded for `room`. */
  lemma Extend(m: MapStore, ask: Ask, start: string, room: string, j: int, st: Scan, done: set<string>,
               paths: map<string, seq<string>>, st0: Scan)
    requires Scanning(m, ask, start, room, j, st, done, paths, st0) && j < |GetRoomExits(m, room)|
    requires !Locked(ExitAt(GetRoomExits(m, room), j))
    ensures var ex := GetRoomExits(m, room); var tgt := ExitAt(ex, j).tgt;
      && room in paths && ThroughWalk(m, ask, start, paths[room])
      && Walk(m, start, paths[room] + [ex[j].0], true) == Some(tgt)
      && Beyond(m, ask, start, tgt)
      && Known(m, room)
  {
    var ex := GetRoomExits(m, room);
    assert Walk(m, start, paths[room], true) == Some(room);
    WalkSnoc(m, start, paths[room], ex[j].0, true);
  }

  /** The common part of the exit outcomes: the state `st2` grew from `st`
      by at most the target, which is settled in it. */
  lemma Settle(m: MapStore, ask: Ask, start: string, room: string, j: int, st: Scan, st2: Scan, done: set<string>,
               paths: map<string, seq<string>>, paths2: map<string, seq<string>>, st0: Scan)
    requires Scanning(m, ask, start, room, j, st, done, paths, st0) && j < |GetRoomExits(m, room)|
    requires var ex := GetRoomExits(m, room); var tgt := ExitAt(ex, j).tgt;
      && !Locked(ExitAt(ex, j))
      && ThroughPaths(m, ask, start, paths2)
      && (forall v :: v in st2.visited || v in st2.check ==> v in paths2)
      && Settled(m, ask, st2, tgt)
      && (forall c :: c in st2.check ==> c in st.check || c == tgt)
    requires Grows(st, st2) && st2.visited == st.visited
    requires QueueSound(m, st2) && OutSound(m, ask, start, st2.out)
    requires st.check <= st2.check && (st2.check == st.check ==> |st2.q| == |st.q|)
    requires forall c :: c in st2.check && c !in st.check ==> c !in st0.visited
    ensures Scanning(m, ask, start, room, j + 1, st2, done, paths2, st0)
  {
    ClosedGrows(m, ask, st, st2, done);
    HandledGrows(m, ask, st, st2, room, j);
    assert ScanFrame(m, ask, start, room, st2, done, paths2, st0);
    HandledNext(m, ask, st2, room, j);
  }

  /** Listing the target of an open exit. */
  lemma Listed(m: MapStore, ask: Ask, start: string, room: string, j: int, st: Scan, done: set<string>,
               paths: map<string, seq<string>>, st0: Scan)
    requires Scanning(m, ask, start, room, j, st, done, paths, st0) && j < |GetRoomExits(m, room)|
    requires !Locked(ExitAt(GetRoomExits(m, room), j))
    requires var tgt := ExitAt(GetRoomExits(m, room), j).tgt;
      (Unexplored(m, tgt) && !ask.one) || Listable(m, ask, tgt)
    ensures var tgt := ExitAt(GetRoomExits(m, room), j).tgt;
      Scanning(m, ask, start, room, j + 1, st.(out := st.out + [tgt]), done, paths, st0)
  {
    var tgt := ExitAt(GetRoomExits(m, room), j).tgt;
    Extend(m, ask, start, room, j, st, done, paths, st0);
    var st' := st.(out := st.out + [tgt]);
    assert Grows(st, st');
    OutSnoc(m, ask, start, st.out, tgt);
    Settle(m, ask, start, room, j, st, st', done, paths, paths, st0);
  }

  /** Listing one more room that lies past an entered room and is worth
      listing keeps the answer sound. */
  lemma OutSnoc(m: MapStore, ask: Ask, start: string, out: seq<string>, t: string)
    requires OutSound(m, ask, start, out)
    requires Beyond(m, ask, start, t) && (Unexplored(m, t) || Listable(m, ask, t)) && !(ask.one && Unexplored(m, t))
    ensures OutSound(m, ask, start, out + [t])
  {
    forall i | 0 <= i < |out| ensures (out + [t])[i] == out[i] {
    }
  }

  /** Queueing the target of an open exit, entered for the first time: its
      path is the popped room's path and the exit. */
  lemma Queued(m: MapStore, ask: Ask, start: string, room: string, j: int, st: Scan, done: set<string>,
               paths: map<string, seq<string>>, st0: Scan)
    requires Scanning(m, ask, start, room, j, st, done, paths, st0) && j < |GetRoomExits(m, room)|
    requires !Locked(ExitAt(GetRoomExits(m, room), j))
    requires var tgt := ExitAt(GetRoomExits(m, room), j).tgt;
      Through(m, ask, tgt) && tgt !in st.visited && tgt !in st.check
    ensures var ex := GetRoomExits(m, room); var tgt := ExitAt(ex, j).tgt;
      Scanning(m, ask, start, room, j + 1, st.(q := st.q + [tgt], check := st.check + {tgt}), done, paths[tgt := paths[room] + [ex[j].0]], st0)
  {
    var ex := GetRoomExits(m, room);
    var tgt := ExitAt(ex, j).tgt;
    Extend(m, ask, start, room, j, st, done, paths, st0);
    var st' := st.(q := st.q + [tgt], check := st.check + {tgt});
    var paths' := paths[tgt := paths[room] + [ex[j].0]];
    PathsGrow(m, ask, start, paths, room, ex[j].0, tgt);
    assert Known(m, tgt);
    assert Grows(st, st');
    QueueAppend(m, st, tgt);
    Settle(m, ask, start, room, j, st, st', done, paths, paths', st0);
  }

  /** Recording for a target the path of an entered room and the open exit
      to it keeps every recorded path a walk through entered rooms. */
  lemma PathsGrow(m: MapStore, ask: Ask, start: string, paths: map<string, seq<string>>, room: string, d: string, tgt: string)
    requires ThroughPaths(m, ask, start, paths) && room in paths
    requires Get(GetRoomExits(m, room), d).Some? && Get(GetRoomExits(m, room), d).value.tgt == tgt
    requires !Locked(Get(GetRoomExits(m, room), d).value) && Through(m, ask, tgt)
    ensures ThroughPaths(m, ask, start, paths[tgt := paths[room] + [d]])
  {
    WalkSnoc(m, start, paths[room], d, true);
    ThroughSnoc(m, ask, start, paths[room], d);
  }

  /** Appending a stored room not yet queued keeps the queue sound. */
  lemma QueueAppend(m: MapStore, st: Scan, t: string)
    requires QueueSound(m, st) && t !in st.check && Known(m, t)
    ensures QueueSound(m, st.(q := st.q + [t], check := st.check + {t}))
  {
    var st' := st.(q := st.q + [t], check := st.check + {t});
    assert st'.q[|st.q|] == t;
    forall c | c in st'.check ensures c in st'.q {
      if c != t {
        var i :| 0 <= i < |st.q| && st.q[i] == c;
        assert st'.q[i] == c;
      }
    }
    assert forall i :: 0 <= i < |st.q| ==> st'.q[i] == st.q[i];
  }

  /** Passing over the target of an open exit that is neither listed nor new. */
  lemma Skipped(m: MapStore, ask: Ask, start: string, room: string, j: int, st: Scan, done: set<string>,
                paths: map<string, seq<string>>, st0: Scan)
    requires Scanning(m, ask, start, room, j, st, done, paths, st0) && j < |GetRoomExits(m, room)|
    requires !Locked(ExitAt(GetRoomExits(m, room), j))
    requires var tgt := ExitAt(GetRoomExits(m, room), j).tgt;
      && !Unexplored(m, tgt) && !Listable(m, ask, tgt) && (Through(m, ask, tgt) ==> tgt in st.visited || tgt in st.check)
      && (ask.inArea ==> Has(GetRoomData(m, tgt), "zone"))
    ensures Scanning(m, ask, start, room, j + 1, st, done, paths, st0)
  {
    Settle(m, ask, start, room, j, st, st, done, paths, paths, st0);
  }
}

=== FILE: observe.dfy ===
/** The `room.info` branch of `Mapper.handleGmcp` in modules/mapper.py: the
    merge of one observed room into the store.

    The handler records the room number in the "visited today" set, takes the
    stored exits of the room (a fresh empty dict for a room never seen), adds
    every reported direction that is missing (lower-cased, target converted
    with `str`), runs a stub check on every target, adds a door-alias label
    `open <door> <dir>;<dir>` for every doored direction, and finally stores
    the room with its name, `{zone, terrain}` and the merged exits.

    Two details of the code as written are kept:
    - the stub check calls `getRoomName`, which raises KeyError for an id that
      was never stored, so the handler fails on the first target it has not
      seen before instead of inserting a stub for it;
    - the "visited today" set receives the integer room number, while
      `unmapped` asks it about string ids.
    `ObserveFixed` is the evidently intended merge, with both corrected. */
module Observe {
  import opened Wrappers
  import opened AssocList
  import opened Strings
  import opened Store

  /** The fields of a `room.info` report the handler reads.  `exits` maps a
      reported direction to an integer room number, `exitKw` a direction to the
      name of its door. */
  datatype Info = Info(num: int, name: string, zone: string, terrain: string,
                       exits: seq<(string, int)>, exitKw: Option<seq<(string, string)>>)

  /** A member of the "visited today" set: Python keeps ints and strings apart. */
  datatype VisitId = Num(n: int) | Key(s: string)

  /** The test `unmapped` applies to a string room id. */
  predicate VisitedToday(seen: set<VisitId>, id: string)
  {
    Key(id) in seen
  }

  // ---------------------------------------------------------------------------
  // the visited-today set

  /** `visited.add(id)` with the integer `num`, as written: no string id becomes
      visited, so `unmapped` never sees the room as visited. */
  function RecordVisit(seen: set<VisitId>, num: int): (r: set<VisitId>)
    ensures Num(num) in r && seen <= r
    ensures forall id :: VisitedToday(r, id) <==> VisitedToday(seen, id)
  {
    seen + {Num(num)}
  }

  /** The evidently intended record: the room's string id becomes visited and
      no other id changes. */
  function RecordVisitKey(seen: set<VisitId>, num: int): (r: set<VisitId>)
    ensures VisitedToday(r, IntToString(num)) && seen <= r
    ensures forall id :: id != IntToString(num) ==> (VisitedToday(r, id) <==> VisitedToday(seen, id))
  {
    seen + {Key(IntToString(num))}
  }

  // ---------------------------------------------------------------------------
  // merging the reported exits

  /** `if dir not in exits: exits[dir] = {'tgt': tgt}`. */
  function AddLabel(exits: AList<Exit>, dir: string, tgt: string): (r: AList<Exit>)
    ensures |exits| <= |r| && r[..|exits|] == exits
    ensures Has(r, dir)
    ensures Has(exits, dir) ==> r == exits
    ensures !Has(exits, dir) ==> r == exits + [(dir, Exit(tgt, None))] && Get(r, dir) == Some(Exit(tgt, None))
  {
    if Has(exits, dir) then exits
    else
      var r := Put(exits, dir, Exit(tgt, None));
      assert r[..|exits|] == exits;
      r
  }

  /** Adding a label leaves every other label's presence as it was. */
  lemma AddLabelOthers(exits: AList<Exit>, dir: string, tgt: string, d: string)
    requires d != dir
    ensures Has(AddLabel(exits, dir, tgt), d) <==> Has(exits, d)
  {
    if !Has(exits, dir) {
      KeysSnoc(exits, dir, Exit(tgt, None));
      HasKeys(exits, d);
      HasKeys(AddLabel(exits, dir, tgt), d);
    }
  }

  /** Python truthiness of a room name: None and "" are false. */
  predicate Falsy(name: Option<string>)
  {
    name.None? || name.value == ""
  }

  /** The handler's working state: the store, the exits being merged, and
      whether that exits dict is still the one stored in the room (a known
      room hands out its own dict, so merged labels show in the store at
      once). */
  datatype Merge = Merge(m: MapStore, exits: AList<Exit>, shared: bool)

  /** The failure of the handler: the exception and the store it leaves. */
  datatype Raised = Raised(fault: Fault, m: MapStore)

  /** The store as the handler leaves it when it raises: a shared exits dict
      has already received the merged labels. */
  function Spill(st: Merge, id: string): (r: MapStore)
    requires st.shared ==> Known(st.m, id)
  {
    if st.shared then
      var room := RoomOf(st.m, id);
      AddRoom(st.m, id, room.name, room.data, st.exits)
    else st.m
  }

  /** The spilled store keeps the room ids and every other room; a shared
      room now holds the merged exits. */
  lemma SpillFacts(st: Merge, id: string)
    requires st.shared ==> Known(st.m, id)
    ensures RoomIds(Spill(st, id)) == RoomIds(st.m)
    ensures forall k :: k != id ==> Get(Spill(st, id).rooms, k) == Get(st.m.rooms, k)
    ensures st.shared ==> Known(Spill(st, id), id) && RoomOf(Spill(st, id), id).exits == st.exits
  {
  }

  /** One report of the loop over `value['exits']` for a target that is
      stored: the label is added when missing, and a target with a falsy name
      is re-stored as an empty stub (which ends the sharing when it is the
      room itself). */
  function Step(st: Merge, id: string, report: (string, int)): (r: Merge)
    requires st.shared ==> Known(st.m, id)
    requires Known(st.m, IntToString(report.1))
    ensures r.shared ==> Known(r.m, id)
    ensures RoomIds(r.m) == RoomIds(st.m)
    ensures r.exits == AddLabel(st.exits, Lower(report.0), IntToString(report.1))
  {
    var tgt := IntToString(report.1);
    var exits := AddLabel(st.exits, Lower(report.0), tgt);
    if Falsy(RoomOf(st.m, tgt).name) then
      HasKeys(st.m.rooms, tgt);
      Merge(AddRoom(st.m, tgt, None, [], []), exits, st.shared && tgt != id)
    else st.(exits := exits)
  }

  /** The loop over `value['exits']`, as written: the stub check reads the
      name of every target, which raises KeyError for one that was never
      stored. */
  function MergeExits(st: Merge, id: string, reported: seq<(string, int)>): (r: Result<Merge, Raised>)
    requires st.shared ==> Known(st.m, id)
    ensures r.Ok? && r.value.shared ==> Known(r.value.m, id)
    decreases |reported|
  {
    if |reported| == 0 then Ok(st)
    else
      var tgt := IntToString(reported[0].1);
      match GetRoomName(st.m, tgt)
      case Err(f) => Err(Raised(f, Spill(st.(exits := AddLabel(st.exits, Lower(reported[0].0), tgt)), id)))
      case Ok(_) => MergeExits(Step(st, id, reported[0]), id, reported[1..])
  }

  /** The merge keeps the room ids of the store, whether it succeeds or not. */
  lemma {:induction false} MergeIds(st: Merge, id: string, reported: seq<(string, int)>)
    requires st.shared ==> Known(st.m, id)
    ensures var r := MergeExits(st, id, reported);
      RoomIds(if r.Ok? then r.value.m else r.error.m) == RoomIds(st.m)
    decreases |reported|
  {
    if |reported| > 0 {
      if Known(st.m, IntToString(reported[0].1)) {
        MergeIds(Step(st, id, reported[0]), id, reported[1..]);
      }
    }
  }

  /** The merge succeeds only when every reported target was already stored;
      otherwise it raises KeyError for the first one that was not. */
  lemma {:induction false} MergeNeedsKnown(st: Merge, id: string, reported: seq<(string, int)>)
    requires st.shared ==> Known(st.m, id)
    ensures var r := MergeExits(st, id, reported);
      r.Ok? <==> forall i :: 0 <= i < |reported| ==> Known(st.m, IntToString(reported[i].1))
    ensures var r := MergeExits(st, id, reported);
      r.Err? ==> exists i :: 0 <= i < |reported| && !Known(st.m, IntToString(reported[i].1)) && r.error.fault == KeyError(IntToString(reported[i].1))
    decreases |reported|, 1
  {
    if |reported| > 0 && Known(st.m, IntToString(reported[0].1)) {
      MergeNeedsKnownLater(st, id, reported);
    }
  }

  lemma {:induction false} MergeNeedsKnownLater(st: Merge, id: string, reported: seq<(string, int)>)
    requires st.shared ==> Known(st.m, id)
    requires |reported| > 0 && Known(st.m, IntToString(reported[0].1))
    ensures var r := MergeExits(st, id, reported);
      r.Ok? <==> forall i :: 0 <= i < |reported| ==> Known(st.m, IntToString(reported[i].1))
    ensures var r := MergeExits(st, id, reported);
      r.Err? ==> exists i :: 0 <= i < |reported| && !Known(st.m, IntToString(reported[i].1)) && r.error.fault == KeyError(IntToString(reported[i].1))
    decreases |reported|, 0
  {
    var next := Step(st, id, reported[0]);
    MergeNeedsKnown(next, id, reported[1..]);
    forall k ensures Known(next.m, k) <==> Known(st.m, k) {
      HasKeys(next.m.rooms, k);
      HasKeys(st.m.rooms, k);
    }
    assert forall i :: 1 <= i < |reported| ==> reported[1..][i - 1] == reported[i];
  }

  /** A successful merge extends the exits: every recorded exit keeps its
      label, its target and its position. */
  lemma {:induction false} MergeExtends(st: Merge, id: string, reported: seq<(string, int)>)
    requires st.shared ==> Known(st.m, id)
    requires MergeExits(st, id, reported).Ok?
    ensures var r := MergeExits(st, id, reported).value;
      |st.exits| <= |r.exits| && r.exits[..|st.exits|] == st.exits
    decreases |reported|
  {
    if |reported| > 0 {
      var next := Step(st, id, reported[0]);
      MergeExtends(next, id, reported[1..]);
      var r := MergeExits(st, id, reported).value;
      assert r.exits[..|st.exits|] == r.exits[..|next.exits|][..|st.exits|];
    }
  }

  /** A successful merge of a non-empty report went through its first step. */
  lemma MergeUnfold(st: Merge, id: string, reported: seq<(string, int)>)
    requires st.shared ==> Known(st.m, id)
    requires MergeExits(st, id, reported).Ok? && |reported| > 0
    ensures Known(st.m, IntToString(reported[0].1))
    ensures MergeExits(Step(st, id, reported[0]), id, reported[1..]) == MergeExits(st, id, reported)
  {
    assert GetRoomName(st.m, IntToString(reported[0].1)).Ok?;
  }

  /** The label of the first report survives the rest of the merge with what
      the first step gave it. */
  lemma MergeHead(st: Merge, id: string, reported: seq<(string, int)>)
    requires st.shared ==> Known(st.m, id)
    requires MergeExits(st, id, reported).Ok? && |reported| > 0
    ensures var d := Lower(reported[0].0); var r := MergeExits(st, id, reported).value;
      Has(r.exits, d) && Get(r.exits, d) == Get(Step(st, id, reported[0]).exits, d)
  {
    MergeUnfold(st, id, reported);
    var next := Step(st, id, reported[0]);
    MergeExtends(next, id, reported[1..]);
    GetPrefix(next.exits, MergeExits(st, id, reported).value.exits, Lower(reported[0].0));
  }

  /** After a successful merge every reported direction, lower-cased, is a
      label. */
  lemma MergeAdds(st: Merge, id: string, reported: seq<(string, int)>, i: int, r: Merge)
    requires st.shared ==> Known(st.m, id)
    requires MergeExits(st, id, reported) == Ok(r)
    requires 0 <= i < |reported|
    ensures Has(r.exits, Lower(reported[i].0))
  {
    var d := Lower(reported[i].0);
    if Has(st.exits, d) {
      MergeExtends(st, id, reported);
      GetPrefix(st.exits, r.exits, d);
    } else {
      MergeNew(st, id, reported, d, r);
      FirstTargetSome(reported, i);
    }
  }

  /** The `i`-th report is the first of its direction, lower-cased. */
  predicate FirstOf(reported: seq<(string, int)>, i: int)
    requires 0 <= i < |reported|
  {
    Lower(reported[i].0) !in Dirs(reported[..i])
  }

  /** The reported directions, lower-cased. */
  function Dirs(reported: seq<(string, int)>): set<string>
    decreases |reported|
  {
    if |reported| == 0 then {} else {Lower(reported[0].0)} + Dirs(reported[1..])
  }

  /** The exit a new label `d` gets from the reports: the target of the first
      report of that direction, none when it is never reported. */
  function FirstTarget(reported: seq<(string, int)>, d: string): Option<Exit>
    decreases |reported|
  {
    if |reported| == 0 then None
    else if Lower(reported[0].0) == d then Some(Exit(IntToString(reported[0].1), None))
    else FirstTarget(reported[1..], d)
  }

  /** A label that was not recorded reads, after a successful merge, the exit
      of the first report of its direction, and is still missing when no
      report names it. */
  lemma {:induction false} MergeNew(st: Merge, id: string, reported: seq<(string, int)>, d: string, r: Merge)
    requires st.shared ==> Known(st.m, id)
    requires MergeExits(st, id, reported) == Ok(r)
    requires !Has(st.exits, d)
    ensures Get(r.exits, d) == FirstTarget(reported, d)
    decreases |reported|, 1
  {
    if |reported| > 0 {
      if Lower(reported[0].0) == d {
        MergeHead(st, id, reported);
      } else {
        MergeNewLater(st, id, reported, d, r);
      }
    }
  }

  lemma {:induction false} MergeNewLater(st: Merge, id: string, reported: seq<(string, int)>, d: string, r: Merge)
    requires st.shared ==> Known(st.m, id)
    requires MergeExits(st, id, reported) == Ok(r)
    requires !Has(st.exits, d)
    requires |reported| > 0 && Lower(reported[0].0) != d
    ensures Get(r.exits, d) == FirstTarget(reported, d)
    decreases |reported|, 0
  {
    MergeUnfold(st, id, reported);
    AddLabelOthers(st.exits, Lower(reported[0].0), IntToString(reported[0].1), d);
    MergeNew(Step(st, id, reported[0]), id, reported[1..], d, r);
  }

  /** The first report of a direction is the one `FirstTarget` finds. */
  lemma {:induction false} FirstTargetOf(reported: seq<(string, int)>, i: int)
    requires 0 <= i < |reported| && FirstOf(reported, i)
    ensures FirstTarget(reported, Lower(reported[i].0)) == Some(Exit(IntToString(reported[i].1), None))
    decreases i
  {
    if i > 0 {
      assert reported[1..][i - 1] == reported[i];
      assert reported[..i][1..] == reported[1..][..i - 1];
      assert Dirs(reported[..i]) == {Lower(reported[0].0)} + Dirs(reported[1..][..i - 1]);
      FirstTargetOf(reported[1..], i - 1);
    }
  }

  /** Every reported direction has a first report. */
  lemma {:induction false} FirstTargetSome(reported: seq<(string, int)>, i: int)
    requires 0 <= i < |reported|
    ensures FirstTarget(reported, Lower(reported[i].0)).Some?
    decreases i
  {
    if i > 0 && Lower(reported[0].0) != Lower(reported[i].0) {
      assert reported[1..][i - 1] == reported[i];
      FirstTargetSome(reported[1..], i - 1);
    }
  }

  /** A direction that was not a label and is reported for the first time
      gets the target of that report. */
  lemma MergeAddsNew(st: Merge, id: string, reported: seq<(string, int)>, i: int, r: Merge)
    requires st.shared ==> Known(st.m, id)
    requires MergeExits(st, id, reported) == Ok(r)
    requires 0 <= i < |reported|
    requires !Has(st.exits, Lower(reported[i].0))
    requires FirstOf(reported, i)
    ensures Get(r.exits, Lower(reported[i].0)) == Some(Exit(IntToString(reported[i].1), None))
  {
    MergeNew(st, id, reported, Lower(reported[i].0), r);
    FirstTargetOf(reported, i);
  }

  /** Nothing but recorded labels and reported directions ends up a label. */
  lemma {:induction false} MergeLabels(st: Merge, id: string, reported: seq<(string, int)>, d: string)
    requires st.shared ==> Known(st.m, id)
    requires MergeExits(st, id, reported).Ok?
    requires Has(MergeExits(st, id, reported).value.exits, d)
    ensures Has(st.exits, d) || exists i :: 0 <= i < |reported| && Lower(reported[i].0) == d
    decreases |reported|
  {
    if |reported| > 0 {
      MergeUnfold(st, id, reported);
      MergeLabels(Step(st, id, reported[0]), id, reported[1..], d);
      LabelsStep(st, id, reported, d);
    }
  }

  /** One step of `MergeLabels`: a label after the first step was a label
      before it or is the first reported direction. */
  lemma LabelsStep(st: Merge, id: string, reported: seq<(string, int)>, d: string)
    requires st.shared ==> Known(st.m, id)
    requires |reported| > 0 && Known(st.m, IntToString(reported[0].1))
    requires Has(Step(st, id, reported[0]).exits, d) || exists i :: 0 <= i < |reported[1..]| && Lower(reported[1..][i].0) == d
    ensures Has(st.exits, d) || exists i :: 0 <= i < |reported| && Lower(reported[i].0) == d
  {
    if d == Lower(reported[0].0) {
      assert Lower(reported[0].0) == d;
    } else if Has(Step(st, id, reported[0]).exits, d) {
      AddLabelOthers(st.exits, Lower(reported[0].0), IntToString(reported[0].1), d);
    } else {
      var i :| 0 <= i < |reported[1..]| && Lower(reported[1..][i].0) == d;
      assert Lower(reported[i + 1].0) == d;
    }
  }

  /** A successful merge leaves every room with a truthy name as it was. */
  lemma {:induction false} MergeKeepsNamed(st: Merge, id: string, reported: seq<(string, int)>, k: string)
    requires st.shared ==> Known(st.m, id)
    requires MergeExits(st, id, reported).Ok?
    requires Known(st.m, k) && !Falsy(RoomOf(st.m, k).name)
    ensures Get(MergeExits(st, id, reported).value.m.rooms, k) == Get(st.m.rooms, k)
    decreases |reported|
  {
    if |reported| > 0 {
      var next := Step(st, id, reported[0]);
      assert Get(next.m.rooms, k) == Get(st.m.rooms, k);
      MergeKeepsNamed(next, id, reported[1..], k);
    }
  }

  // ---------------------------------------------------------------------------
  // door aliases

  /** The label `'open {door} {direction};{direction}'`. */
  function AliasLabel(door: string, dir: string): string
  {
    "open " + door + " " + dir + ";" + dir
  }

  /** A label some doored direction of the report gives an alias. */
  predicate IsAlias(kw: seq<(string, string)>, d: string)
  {
    exists i :: 0 <= i < |kw| && AliasLabel(kw[i].1, kw[i].0) == d
  }

  /** The loop over `value['exit_kw']`: each alias label is assigned (a copy of)
      the exit of the lower-cased direction, which must be a label already;
      otherwise KeyError, with the exits as far as they were merged. */
  function AddDoors(exits: AList<Exit>, kw: seq<(string, string)>): (r: Result<AList<Exit>, (Fault, AList<Exit>)>)
    decreases |kw|
  {
    if |kw| == 0 then Ok(exits)
    else
      match Get(exits, Lower(kw[0].0))
      case None => Err((KeyError(Lower(kw[0].0)), exits))
      case Some(e) => AddDoors(Put(exits, AliasLabel(kw[0].1, kw[0].0), e), kw[1..])
  }

  /** The door loop succeeds when every doored direction is a label, and it
      raises only for a doored direction that is not one. */
  lemma {:induction false} DoorsFault(exits: AList<Exit>, kw: seq<(string, string)>)
    ensures (forall i :: 0 <= i < |kw| ==> Has(exits, Lower(kw[i].0))) ==> AddDoors(exits, kw).Ok?
    ensures AddDoors(exits, kw).Err? ==>
      exists i :: 0 <= i < |kw| && !Has(exits, Lower(kw[i].0)) && AddDoors(exits, kw).error.0 == KeyError(Lower(kw[i].0))
    decreases |kw|
  {
    if |kw| > 0 && Has(exits, Lower(kw[0].0)) {
      var next := Put(exits, AliasLabel(kw[0].1, kw[0].0), Get(exits, Lower(kw[0].0)).value);
      DoorsFault(next, kw[1..]);
      forall d | Has(exits, d) ensures Has(next, d) {
        if d != AliasLabel(kw[0].1, kw[0].0) {
          assert Get(next, d) == Get(exits, d);
        }
      }
      if AddDoors(exits, kw).Err? {
        var i :| 0 <= i < |kw[1..]| && !Has(next, Lower(kw[1..][i].0)) && AddDoors(next, kw[1..]).error.0 == KeyError(Lower(kw[1..][i].0));
        assert kw[1..][i] == kw[i + 1];
      }
    }
  }

  /** After the door loop every alias label exists, and every other label
      reads as before. */
  lemma {:induction false} DoorsKeep(exits: AList<Exit>, kw: seq<(string, string)>, d: string)
    requires AddDoors(exits, kw).Ok?
    ensures IsAlias(kw, d) ==> Has(AddDoors(exits, kw).value, d)
    ensures !IsAlias(kw, d) ==> Get(AddDoors(exits, kw).value, d) == Get(exits, d)
    decreases |kw|
  {
    if |kw| > 0 {
      var a := AliasLabel(kw[0].1, kw[0].0);
      var next := Put(exits, a, Get(exits, Lower(kw[0].0)).value);
      DoorsKeep(next, kw[1..], d);
      if IsAlias(kw, d) && d != a {
        var i :| 0 <= i < |kw| && AliasLabel(kw[i].1, kw[i].0) == d;
        assert kw[1..][i - 1] == kw[i];
      }
      if IsAlias(kw[1..], d) {
        var i :| 0 <= i < |kw[1..]| && AliasLabel(kw[1..][i].1, kw[1..][i].0) == d;
        assert kw[i + 1] == kw[1..][i];
      }
      if d == a {
        assert AliasLabel(kw[0].1, kw[0].0) == d;
        if !IsAlias(kw[1..], d) {
          assert Get(next, d).Some?;
        }
      }
    }
  }

  /** When no alias label repeats or names a doored direction, each alias
      reads exactly the exit of its direction: same target, same data. */
  lemma {:induction false} DoorsTarget(exits: AList<Exit>, kw: seq<(string, string)>, i: int)
    requires AddDoors(exits, kw).Ok?
    requires 0 <= i < |kw|
    requires forall j :: 0 <= j < |kw| && j != i ==> AliasLabel(kw[j].1, kw[j].0) != AliasLabel(kw[i].1, kw[i].0)
    requires forall j :: 0 <= j < |kw| ==> AliasLabel(kw[j].1, kw[j].0) != Lower(kw[i].0)
    ensures Get(AddDoors(exits, kw).value, AliasLabel(kw[i].1, kw[i].0)) == Get(exits, Lower(kw[i].0))
    decreases |kw|
  {
    var a := AliasLabel(kw[0].1, kw[0].0);
    var next := Put(exits, a, Get(exits, Lower(kw[0].0)).value);
    if i == 0 {
      DoorsKeep(next, kw[1..], a);
    } else {
      assert kw[1..][i - 1] == kw[i];
      forall j | 0 <= j < |kw[1..]| && j != i - 1
        ensures AliasLabel(kw[1..][j].1, kw[1..][j].0) != AliasLabel(kw[1..][i - 1].1, kw[1..][i - 1].0)
      {
        assert kw[1..][j] == kw[j + 1];
      }
      forall j | 0 <= j < |kw[1..]|
        ensures AliasLabel(kw[1..][j].1, kw[1..][j].0) != Lower(kw[1..][i - 1].0)
      {
        assert kw[1..][j] == kw[j + 1];
      }
      DoorsTarget(next, kw[1..], i - 1);
      assert Get(next, Lower(kw[i].0)) == Get(exits, Lower(kw[i].0));
    }
  }

  // ---------------------------------------------------------------------------
  // the handler

  /** What the handler leaves behind: the store, the visited-today set, and
      the exception when it raised. */
  datatype Observed = Observed(m: MapStore, seen: set<VisitId>, fault: Option<Fault>)

  /** The `{zone, terrain}` data bag of a reported room. */
  function InfoData(info: Info): RoomData
  {
    [("zone", info.zone), ("terrain", info.terrain)]
  }

  /** The door-alias step of the handler: none when the report has no
      `exit_kw`. */
  function Doors(exits: AList<Exit>, info: Info): Result<AList<Exit>, (Fault, AList<Exit>)>
  {
    if info.exitKw.Some? then AddDoors(exits, info.exitKw.value) else Ok(exits)
  }

  /** The exits loop of the handler, started from the stored exits of the
      room (shared with the store when the room is known). */
  function Merged(m: MapStore, info: Info): Result<Merge, Raised>
  {
    var id := IntToString(info.num);
    MergeExits(Merge(m, GetRoomExits(m, id), Known(m, id)), id, info.exits)
  }

  /** The `room.info` branch as written. */
  function Observe(m: MapStore, seen: set<VisitId>, info: Info): (r: Observed)
    ensures r.seen == RecordVisit(seen, info.num)
  {
    var id := IntToString(info.num);
    match Merged(m, info)
    case Err(x) => Observed(x.m, RecordVisit(seen, info.num), Some(x.fault))
    case Ok(st) =>
      match Doors(st.exits, info)
      case Err(x) => Observed(Spill(st.(exits := x.1), id), RecordVisit(seen, info.num), Some(x.0))
      case Ok(exits) => Observed(AddRoom(st.m, id, Some(info.name), InfoData(info), exits), RecordVisit(seen, info.num), None)
  }

  /** The handler fails exactly when a reported target was never stored or a
      doored direction is not a label; it only ever raises KeyError, and the
      store keeps its set of room ids when it does. */
  lemma ObserveFaults(m: MapStore, seen: set<VisitId>, info: Info)
    ensures var r := Observe(m, seen, info);
      r.fault.Some? <==>
        || (exists i :: 0 <= i < |info.exits| && !Known(m, IntToString(info.exits[i].1)))
        || (Merged(m, info).Ok? && Doors(Merged(m, info).value.exits, info).Err?)
    ensures var r := Observe(m, seen, info);
      r.fault.Some? ==> r.fault.value.KeyError? && RoomIds(r.m) == RoomIds(m)
  {
    var id := IntToString(info.num);
    var st := Merge(m, GetRoomExits(m, id), Known(m, id));
    MergeNeedsKnown(st, id, info.exits);
    MergeIds(st, id, info.exits);
    var mr := MergeExits(st, id, info.exits);
    assert Merged(m, info) == mr;
    if mr.Ok? {
      ObserveDoors(m, seen, info, mr.value);
    }
  }

  /** The door step of the handler after a successful merge: it fails exactly
      when a doored direction is not a label, with KeyError, and the store
      it leaves keeps the room ids of the merged store. */
  lemma ObserveDoors(m: MapStore, seen: set<VisitId>, info: Info, st: Merge)
    requires Merged(m, info) == Ok(st)
    ensures var r := Observe(m, seen, info);
      && (r.fault.Some? <==> Doors(st.exits, info).Err?)
      && (r.fault.Some? ==> r.fault.value.KeyError? && RoomIds(r.m) == RoomIds(st.m))
  {
    var id := IntToString(info.num);
    if info.exitKw.Some? {
      DoorsFault(st.exits, info.exitKw.value);
      match AddDoors(st.exits, info.exitKw.value)
      case Err(x) => SpillFacts(st.(exits := x.1), id);
      case Ok(_) =>
    }
  }

  /** A report naming a room that was never stored makes the handler fail:
      the stub is never inserted. */
  lemma ObserveNeedsKnown(m: MapStore, seen: set<VisitId>, info: Info)
    ensures Observe(m, seen, info).fault.None? ==>
      forall i :: 0 <= i < |info.exits| ==> Known(m, IntToString(info.exits[i].1))
  {
    MergeNeedsKnown(Merge(m, GetRoomExits(m, IntToString(info.num)), Known(m, IntToString(info.num))), IntToString(info.num), info.exits);
  }

  /** After a successful merge the room is stored under `str(num)` with the
      reported name and `{zone, terrain}`; every exit it had keeps its label
      and (unless an alias label takes it over) its target; every reported
      direction, lower-cased, is a label; every alias label is a label. */
  lemma ObserveStores(m: MapStore, seen: set<VisitId>, info: Info)
    requires Observe(m, seen, info).fault.None?
    ensures var r := Observe(m, seen, info).m; var id := IntToString(info.num);
      && Known(r, id) && RoomOf(r, id).name == Some(info.name) && RoomOf(r, id).data == InfoData(info)
      && RoomIds(r) == RoomIds(m) + {id}
      && (forall i :: 0 <= i < |info.exits| ==> Has(RoomOf(r, id).exits, Lower(info.exits[i].0)))
      && (forall d :: Has(GetRoomExits(m, id), d) ==> Has(RoomOf(r, id).exits, d))
      && (forall d :: Has(GetRoomExits(m, id), d) && !(info.exitKw.Some? && IsAlias(info.exitKw.value, d)) ==>
            Get(RoomOf(r, id).exits, d) == Get(GetRoomExits(m, id), d))
      && (info.exitKw.Some? ==> forall d :: IsAlias(info.exitKw.value, d) ==> Has(RoomOf(r, id).exits, d))
  {
    var id := IntToString(info.num);
    var st0 := Merge(m, GetRoomExits(m, id), Known(m, id));
    var st := MergeExits(st0, id, info.exits).value;
    MergeIds(st0, id, info.exits);
    MergeExtends(st0, id, info.exits);
    var exits := Doors(st.exits, info).value;
    forall i | 0 <= i < |info.exits| ensures Has(exits, Lower(info.exits[i].0)) {
      MergeAdds(st0, id, info.exits, i, st);
      if info.exitKw.Some? {
        DoorsKeep(st.exits, info.exitKw.value, Lower(info.exits[i].0));
      }
    }
    forall d | Has(st0.exits, d) ensures Has(exits, d) {
      GetPrefix(st0.exits, st.exits, d);
      if info.exitKw.Some? {
        DoorsKeep(st.exits, info.exitKw.value, d);
      }
    }
    forall d | Has(st0.exits, d) && !(info.exitKw.Some? && IsAlias(info.exitKw.value, d))
      ensures Get(exits, d) == Get(st0.exits, d)
    {
      GetPrefix(st0.exits, st.exits, d);
      if info.exitKw.Some? {
        DoorsKeep(st.exits, info.exitKw.value, d);
      }
    }
    if info.exitKw.Some? {
      forall d | IsAlias(info.exitKw.value, d) ensures Has(exits, d) {
        DoorsKeep(st.exits, info.exitKw.value, d);
      }
    }
  }

  /** A successful merge touches no other room with a truthy name. */
  lemma ObserveFrame(m: MapStore, seen: set<VisitId>, info: Info, k: string)
    requires Observe(m, seen, info).fault.None?
    requires k != IntToString(info.num) && Known(m, k) && !Falsy(RoomOf(m, k).name)
    ensures Get(Observe(m, seen, info).m.rooms, k) == Get(m.rooms, k)
  {
    var id := IntToString(info.num);
    MergeKeepsNamed(Merge(m, GetRoomExits(m, id), Known(m, id)), id, info.exits, k);
  }

  // ---------------------------------------------------------------------------
  // the evidently intended handler

  /** The loop over `value['exits']` with the stub check the comment
      describes: a target that was never stored gets an empty stub. */
  function MergeExitsFixed(m: MapStore, exits: AList<Exit>, reported: seq<(string, int)>): (r: (MapStore, AList<Exit>))
    decreases |reported|
  {
    if |reported| == 0 then (m, exits)
    else
      var tgt := IntToString(reported[0].1);
      var m' := if Known(m, tgt) then m else AddRoom(m, tgt, None, [], []);
      MergeExitsFixed(m', AddLabel(exits, Lower(reported[0].0), tgt), reported[1..])
  }

  /** The corrected merge stores every reported target and leaves every room
      that was stored before as it was. */
  lemma {:induction false} MergeFixedStubs(m: MapStore, exits: AList<Exit>, reported: seq<(string, int)>)
    ensures var r := MergeExitsFixed(m, exits, reported).0;
      forall i :: 0 <= i < |reported| ==> Known(r, IntToString(reported[i].1))
    ensures var r := MergeExitsFixed(m, exits, reported).0;
      forall k :: Known(m, k) ==> Get(r.rooms, k) == Get(m.rooms, k)
    decreases |reported|
  {
    if |reported| > 0 {
      var tgt := IntToString(reported[0].1);
      var m' := if Known(m, tgt) then m else AddRoom(m, tgt, None, [], []);
      assert Known(m', tgt);
      MergeFixedStubs(m', AddLabel(exits, Lower(reported[0].0), tgt), reported[1..]);
      var r := MergeExitsFixed(m, exits, reported).0;
      assert Get(r.rooms, tgt) == Get(m'.rooms, tgt);
      forall i | 1 <= i < |reported| ensures Known(r, IntToString(reported[i].1)) {
        assert reported[1..][i - 1] == reported[i];
      }
    }
  }

  /** The `room.info` branch with both corrections: stubs for targets never
      seen, and the string id recorded as visited. */
  function ObserveFixed(m: MapStore, seen: set<VisitId>, info: Info): (r: Observed)
  {
    var id := IntToString(info.num);
    var seen' := RecordVisitKey(seen, info.num);
    var (m', merged) := MergeExitsFixed(m, GetRoomExits(m, id), info.exits);
    match Doors(merged, info)
    case Err(x) => Observed(if Known(m, id) then AddRoom(m', id, RoomOf(m, id).name, RoomOf(m, id).data, x.1) else m', seen', Some(x.0))
    case Ok(exits) => Observed(AddRoom(m', id, Some(info.name), InfoData(info), exits), seen', None)
  }

  /** What the comment in the handler intends: once a room is observed, every
      room it reports an exit to is stored, and the room counts as visited. */
  lemma ObserveFixedStubs(m: MapStore, seen: set<VisitId>, info: Info)
    ensures var r := ObserveFixed(m, seen, info);
      && VisitedToday(r.seen, IntToString(info.num))
      && forall i :: 0 <= i < |info.exits| ==> Known(r.m, IntToString(info.exits[i].1))
  {
    var id := IntToString(info.num);
    MergeFixedStubs(m, GetRoomExits(m, id), info.exits);
    var m' := MergeExitsFixed(m, GetRoomExits(m, id), info.exits).0;
    var r := ObserveFixed(m, seen, info);
    forall i | 0 <= i < |info.exits| ensures Known(r.m, IntToString(info.exits[i].1)) {
      HasKeys(m'.rooms, IntToString(info.exits[i].1));
      HasKeys(r.m.rooms, IntToString(info.exits[i].1));
    }
  }

  /** The first report of a new room, into an empty map: room 1 with an exit
      north to room 2.  As written the handler raises KeyError('2') and
      room 1 is not stored; the corrected handler stores room 2 as a stub. */
  lemma FirstReport()
    ensures var info := Info(1, "Church Entry", "13", "Temperate Building", [("n", 2)], None);
      && Observe(Fresh(), {}, info).fault == Some(KeyError("2"))
      && !VisitedToday(Observe(Fresh(), {}, info).seen, "1")
      && !Known(Observe(Fresh(), {}, info).m, "1")
      && ObserveFixed(Fresh(), {}, info).fault.None?
      && Known(ObserveFixed(Fresh(), {}, info).m, "2")
  {
    var info := Info(1, "Church Entry", "13", "Temperate Building", [("n", 2)], None);
    assert IntToString(2) == "2";
    assert IntToString(1) == "1";
    ObserveFixedStubs(Fresh(), {}, info);
  }
}

=== FILE: pathfinder.dfy ===
/** `Map.findPath` of modules/mapper.py: a breadth-first search over exit
    labels from one room to another.

    The queue may hold a room several times; a room is expanded only the first
    time it is dequeued.  Every enqueue overwrites the recorded path of the
    target, so the answer is a valid walk but not necessarily a shortest one.
    Reading the exits of a room that was never stored raises KeyError. */
module PathFinder {
  import opened Wrappers
  import opened AssocList
  import opened Store

  /** Every recorded path leads from `here` to the room it is recorded for. */
  ghost predicate PathsSound(m: MapStore, here: string, paths: map<string, seq<string>>)
  {
    forall k :: k in paths ==> Walk(m, here, paths[k], false) == Some(k)
  }

  /** The target the source reads for a key: `ex[label]['tgt']`. */
  function Target(ex: AList<Exit>, key: string): string
    requires Has(ex, key)
  {
    Get(ex, key).value.tgt
  }

  /** Every exit of an expanded room leads into `done` or into the queue. */
  ghost predicate Closed(m: MapStore, done: set<string>, q: seq<string>)
  {
    forall v, d :: v in done && Has(GetRoomExits(m, v), d) ==>
      Target(GetRoomExits(m, v), d) in done || Target(GetRoomExits(m, v), d) in q
  }

  /** The loop invariant of `findPath`: recorded paths are walks, queued rooms
      have a path, `here` is expanded or queued, `there` is not yet expanded,
      expanded rooms are stored, and their exits lead into the expanded set or
      the queue. */
  ghost predicate Frontier(m: MapStore, here: string, there: string, visited: set<string>, paths: map<string, seq<string>>, q: seq<string>)
  {
    && PathsSound(m, here, paths)
    && (forall i :: 0 <= i < |q| ==> q[i] in paths)
    && (here in visited || here in q)
    && there !in visited
    && (forall v :: v in visited ==> Known(m, v))
    && Closed(m, visited, q)
  }

  /** `t` is queued with a walk of at most `n` labels. */
  ghost predicate QueuedWithin(q: seq<string>, gq: seq<seq<string>>, t: string, n: int)
  {
    exists i :: 0 <= i < |q| && i < |gq| && q[i] == t && |gq[i]| <= n
  }

  /** Every entry `q[i]` is reached from `here` along the walk `gq[i]` it was
      queued with. */
  ghost predicate QueuedAlong(m: MapStore, here: string, q: seq<string>, gq: seq<seq<string>>)
  {
    && |gq| == |q|
    && (forall i :: 0 <= i < |q| ==> Walk(m, here, gq[i], false) == Some(q[i]))
  }

  /** The lengths of those walks are `lvl` or `lvl + 1` and never decrease
      along the queue. */
  ghost predicate Banded(gq: seq<seq<string>>, lvl: nat)
  {
    && (forall i :: 0 <= i < |gq| ==> lvl <= |gq[i]| <= lvl + 1)
    && (forall i, j :: 0 <= i < j < |gq| ==> |gq[i]| <= |gq[j]|)
  }

  /** Every room a walk of at most `lvl` labels reaches is expanded, or queued
      along a walk no longer than that one. */
  ghost predicate Covered(m: MapStore, here: string, visited: set<string>, q: seq<string>, gq: seq<seq<string>>, lvl: nat)
  {
    forall labels :: |labels| <= lvl && Walk(m, here, labels, false).Some? ==>
      Walk(m, here, labels, false).value in visited || QueuedWithin(q, gq, Walk(m, here, labels, false).value, |labels|)
  }

  /** The breadth-first levels of the queue, at level `lvl`. */
  ghost predicate Levels(m: MapStore, here: string, visited: set<string>, q: seq<string>, gq: seq<seq<string>>, lvl: nat)
  {
    QueuedAlong(m, here, q, gq) && Banded(gq, lvl) && Covered(m, here, visited, q, gq, lvl)
  }

  /** No walk from `here` reaches `there` in fewer than `n` labels. */
  ghost predicate NoShorter(m: MapStore, here: string, there: string, n: int)
  {
    forall lt :: Walk(m, here, lt, false) == Some(there) ==> n <= |lt|
  }

  /** The state of the search: expanded rooms, recorded paths, the queue. */
  datatype Search = Search(visited: set<string>, paths: map<string, seq<string>>, q: seq<string>)

  /** What `findPath` may answer: a walk to `there`, None only when no walk
      reaches `there`, a KeyError only for a never-stored id that a walk
      reaches no longer than every walk to `there`.  Whatever it answers
      without an error, the rooms it had to read were stored: all rooms in
      reach for None, and for a path `there` itself and every room a walk
      shorter than every walk to `there` reaches. */
  ghost predicate Answers(m: MapStore, here: string, there: string, r: Result<Option<seq<string>>, Fault>)
  {
    && (r.Ok? && r.value.Some? ==> Walk(m, here, r.value.value, false) == Some(there))
    && (r.Ok? && r.value.Some? ==> Known(m, there))
    && (r.Ok? && r.value.Some? ==> forall lk :: Walk(m, here, lk, false).Some? && NoShorter(m, here, there, |lk| + 1) ==>
                                      Known(m, Walk(m, here, lk, false).value))
    && (r.Ok? && r.value.None? ==> forall labels :: Walk(m, here, labels, false) != Some(there))
    && (r.Ok? && r.value.None? ==> forall lk :: Walk(m, here, lk, false).Some? ==> Known(m, Walk(m, here, lk, false).value))
    && (r.Err? ==> r.error.KeyError? && !Known(m, r.error.key))
    && (r.Err? ==> exists lk :: Walk(m, here, lk, false) == Some(r.error.key) && NoShorter(m, here, there, |lk|))
  }

  /** `findPath(here, there)`: Ok(Some(labels)) with a walk from `here` to
      `there`; Ok(None) when the search runs dry, and then no walk reaches
      `there`; Err(KeyError(id)) when it dequeues a room id that was never
      stored, which it does only at a level where `there` was not met yet. */
  method FindPath(m: MapStore, here: string, there: string) returns (r: Result<Option<seq<string>>, Fault>)
    ensures r.Ok? && r.value.Some? ==> Walk(m, here, r.value.value, false) == Some(there)
    ensures r.Ok? && r.value.None? ==> forall labels :: Walk(m, here, labels, false) != Some(there)
    ensures r.Ok? && r.value.None? ==> forall lk :: Walk(m, here, lk, false).Some? ==> Known(m, Walk(m, here, lk, false).value)
    ensures r.Ok? && r.value.Some? ==> Known(m, there)
    ensures r.Ok? && r.value.Some? ==>
      forall lk :: Walk(m, here, lk, false).Some? && (forall lt :: Walk(m, here, lt, false) == Some(there) ==> |lk| < |lt|) ==>
        Known(m, Walk(m, here, lk, false).value)
    ensures r.Err? ==> r.error.KeyError? && !Known(m, r.error.key)
    ensures r.Err? ==> exists lk :: Walk(m, here, lk, false) == Some(r.error.key)
                                  && forall lt :: Walk(m, here, lt, false) == Some(there) ==> |lk| <= |lt|
  {
    var s := Search({}, map[here := []], [here]);
    ghost var gq: seq<seq<string>> := [[]];
    ghost var lvl: nat := 0;
    LevelsStart(m, here);
    while |s.q| > 0
      invariant Frontier(m, here, there, s.visited, s.paths, s.q)
      invariant Levels(m, here, s.visited, s.q, gq, lvl)
      decreases |RoomIds(m) - s.visited|, |s.q|
    {
      var done;
      s, gq, lvl, done := Dequeue(m, here, there, s, gq, lvl);
      if done.Some? {
        return done.value;
      }
    }
    FrontierExhausted(m, here, there, s.visited, s.paths);
    r := Ok(None);
  }

  /** One turn of the outer loop: move to the next level when the head was
      queued one level up, then pop the head. */
  method Dequeue(m: MapStore, here: string, there: string, s: Search, ghost gq: seq<seq<string>>, ghost lvl: nat)
    returns (s': Search, ghost gq': seq<seq<string>>, ghost lvl': nat, done: Option<Result<Option<seq<string>>, Fault>>)
    requires |s.q| > 0 && Frontier(m, here, there, s.visited, s.paths, s.q) && Levels(m, here, s.visited, s.q, gq, lvl)
    ensures done.Some? ==> Answers(m, here, there, done.value)
    ensures done.None? ==> Frontier(m, here, there, s'.visited, s'.paths, s'.q) && Levels(m, here, s'.visited, s'.q, gq', lvl')
    ensures done.None? ==>
      || |RoomIds(m) - s'.visited| < |RoomIds(m) - s.visited|
      || (s'.visited == s.visited && |s'.q| < |s.q|)
  {
    lvl' := lvl;
    if |gq[0]| == lvl + 1 {
      LevelsNext(m, here, s.visited, s.q, gq, lvl);
      lvl' := lvl + 1;
    }
    s', gq', done := Pop(m, here, there, s, gq, lvl');
  }

  /** Pop the head of the queue, queued at the current level; expand it if
      it was not expanded yet, answering when it is `there` or unknown. */
  method Pop(m: MapStore, here: string, there: string, s: Search, ghost gq: seq<seq<string>>, ghost lvl: nat)
    returns (s': Search, ghost gq': seq<seq<string>>, done: Option<Result<Option<seq<string>>, Fault>>)
    requires |s.q| > 0 && Frontier(m, here, there, s.visited, s.paths, s.q)
    requires Levels(m, here, s.visited, s.q, gq, lvl) && |gq[0]| == lvl
    ensures done.Some? ==> Answers(m, here, there, done.value)
    ensures done.None? ==> Frontier(m, here, there, s'.visited, s'.paths, s'.q) && Levels(m, here, s'.visited, s'.q, gq', lvl)
    ensures done.None? ==>
      || |RoomIds(m) - s'.visited| < |RoomIds(m) - s.visited|
      || (s'.visited == s.visited && |s'.q| < |s.q|)
  {
    var room := s.q[0];
    if room in s.visited {
      FrontierSkip(m, here, there, s.visited, s.paths, s.q);
      LevelsSkip(m, here, s.visited, s.q, gq, lvl);
      assert s.visited + {room} == s.visited;
      return Search(s.visited, s.paths, s.q[1..]), gq[1..], None;
    }
    s', gq', done := Visit(m, here, there, s, gq, lvl);
  }

  /** The head of the queue was not expanded yet: answer when it is unknown
      or `there`, otherwise expand it. */
  method Visit(m: MapStore, here: string, there: string, s: Search, ghost gq: seq<seq<string>>, ghost lvl: nat)
    returns (s': Search, ghost gq': seq<seq<string>>, done: Option<Result<Option<seq<string>>, Fault>>)
    requires |s.q| > 0 && Frontier(m, here, there, s.visited, s.paths, s.q) && s.q[0] !in s.visited
    requires Levels(m, here, s.visited, s.q, gq, lvl) && |gq[0]| == lvl
    ensures done.Some? ==> Answers(m, here, there, done.value)
    ensures done.None? ==> Frontier(m, here, there, s'.visited, s'.paths, s'.q) && Levels(m, here, s'.visited, s'.q, gq', lvl)
    ensures done.None? ==> |RoomIds(m) - s'.visited| < |RoomIds(m) - s.visited|
  {
    var room := s.q[0];
    if !Known(m, room) {
      AnswerUnknown(m, here, there, s.visited, s.q, gq, lvl);
      return s, gq, Some(Err(KeyError(room)));
    }
    var paths, q := EnqueueExits(m, here, room, s.paths, s.q[1..]);
    if room == there {
      AnswerFound(m, here, there, paths, s.visited, s.q, gq, lvl);
      return s, gq, Some(Ok(Some(paths[there])));
    }
    var ex := RoomOf(m, room).exits;
    gq' := gq[1..] + Extended(gq[0], ex);
    assert ExpandedQueue(m, s.q, gq, q, gq');
    Expanded(m, here, there, s, gq, lvl, paths, q, gq');
    return Search(s.visited + {room}, paths, q), gq', None;
  }

  /** Expanding a stored head other than `there` keeps both invariants and
      leaves fewer rooms to expand. */
  lemma Expanded(m: MapStore, here: string, there: string, s: Search, gq: seq<seq<string>>, lvl: nat,
                 paths: map<string, seq<string>>, q: seq<string>, gq': seq<seq<string>>)
    requires |s.q| > 0 && Frontier(m, here, there, s.visited, s.paths, s.q) && s.q[0] !in s.visited
    requires Levels(m, here, s.visited, s.q, gq, lvl) && |gq[0]| == lvl
    requires Known(m, s.q[0]) && s.q[0] != there
    requires PathsSound(m, here, paths)
    requires forall i :: 0 <= i < |q| ==> q[i] in paths
    requires forall d :: Has(RoomOf(m, s.q[0]).exits, d) ==> Target(RoomOf(m, s.q[0]).exits, d) in q
    requires ExpandedQueue(m, s.q, gq, q, gq')
    ensures Frontier(m, here, there, s.visited + {s.q[0]}, paths, q) && Levels(m, here, s.visited + {s.q[0]}, q, gq', lvl)
    ensures |RoomIds(m) - (s.visited + {s.q[0]})| < |RoomIds(m) - s.visited|
  {
    FrontierExpand(m, here, there, s.visited, s.paths, s.q, paths, q);
    LevelsExpand(m, here, s.visited, s.q, gq, lvl, q, gq');
    HasKeys(m.rooms, s.q[0]);
    FewerLeft(RoomIds(m), s.visited, s.q[0]);
  }

  /** Dequeuing a room id that was never stored answers with its KeyError:
      the walk it was queued along is no longer than any walk to `there`,
      which was not expanded yet and is not queued at a lower level. */
  lemma AnswerUnknown(m: MapStore, here: string, there: string, visited: set<string>, q: seq<string>, gq: seq<seq<string>>, lvl: nat)
    requires Levels(m, here, visited, q, gq, lvl) && |q| > 0 && |gq[0]| == lvl && !Known(m, q[0]) && there !in visited
    ensures Answers(m, here, there, Err(KeyError(q[0])))
  {
    assert Walk(m, here, gq[0], false) == Some(q[0]);
    forall lt | Walk(m, here, lt, false) == Some(there) ensures lvl <= |lt| {
    }
  }

  /** The search starts at level 0 with `here` queued along the empty walk. */
  lemma LevelsStart(m: MapStore, here: string)
    ensures Levels(m, here, {}, [here], [[]], 0)
  {
    forall labels | |labels| <= 0 && Walk(m, here, labels, false).Some?
      ensures QueuedWithin([here], [[]], Walk(m, here, labels, false).value, |labels|)
    {
      assert labels == [];
      var gq: seq<seq<string>> := [[]];
      assert [here][0] == here && |gq[0]| <= |labels|;
    }
  }

  /** When the head was queued one level up, every entry was, and the search
      moves to the next level. */
  lemma LevelsNext(m: MapStore, here: string, visited: set<string>, q: seq<string>, gq: seq<seq<string>>, lvl: nat)
    requires Closed(m, visited, q) && Levels(m, here, visited, q, gq, lvl)
    requires |q| > 0 && |gq[0]| == lvl + 1
    ensures Levels(m, here, visited, q, gq, lvl + 1)
  {
    BandedNext(gq, lvl);
    CoveredNext(m, here, visited, q, gq, lvl);
  }

  lemma BandedNext(gq: seq<seq<string>>, lvl: nat)
    requires Banded(gq, lvl) && |gq| > 0 && |gq[0]| == lvl + 1
    ensures forall i :: 0 <= i < |gq| ==> |gq[i]| == lvl + 1
    ensures Banded(gq, lvl + 1)
  {
    forall i | 0 < i < |gq| ensures |gq[i]| == lvl + 1 {
      assert |gq[0]| <= |gq[i]|;
    }
  }

  lemma CoveredNext(m: MapStore, here: string, visited: set<string>, q: seq<string>, gq: seq<seq<string>>, lvl: nat)
    requires Closed(m, visited, q) && |gq| == |q| && Covered(m, here, visited, q, gq, lvl)
    requires forall i :: 0 <= i < |gq| ==> |gq[i]| == lvl + 1
    ensures Covered(m, here, visited, q, gq, lvl + 1)
  {
    forall labels | |labels| <= lvl + 1 && Walk(m, here, labels, false).Some?
      ensures Walk(m, here, labels, false).value in visited || QueuedWithin(q, gq, Walk(m, here, labels, false).value, |labels|)
    {
      if |labels| == lvl + 1 {
        LastStep(m, here, visited, q, gq, lvl, labels);
      }
    }
  }

  /** A walk of exactly `lvl + 1` labels is its first `lvl` labels and one
      step more. */
  lemma LastStep(m: MapStore, here: string, visited: set<string>, q: seq<string>, gq: seq<seq<string>>, lvl: nat,
                 labels: seq<string>)
    requires Closed(m, visited, q) && |gq| == |q|
    requires forall i :: 0 <= i < |gq| ==> |gq[i]| == lvl + 1
    requires |labels| == lvl + 1 && Walk(m, here, labels, false).Some?
    requires Walk(m, here, labels[..lvl], false).Some? ==>
      Walk(m, here, labels[..lvl], false).value in visited || QueuedWithin(q, gq, Walk(m, here, labels[..lvl], false).value, lvl)
    ensures Walk(m, here, labels, false).value in visited || QueuedWithin(q, gq, Walk(m, here, labels, false).value, |labels|)
  {
    var p := labels[..lvl];
    var d := labels[lvl];
    assert labels == p + [d];
    WalkInit(m, here, p, d, false);
    StepUp(m, here, visited, q, gq, lvl, p, d);
  }

  /** A walk of `lvl + 1` labels steps out of the room its first `lvl` labels
      reach; with nothing queued below level `lvl + 1` that room is expanded,
      so the walk ends in an expanded or a queued room. */
  lemma StepUp(m: MapStore, here: string, visited: set<string>, q: seq<string>, gq: seq<seq<string>>, lvl: nat,
               p: seq<string>, d: string)
    requires Closed(m, visited, q) && |gq| == |q|
    requires forall i :: 0 <= i < |q| ==> |gq[i]| == lvl + 1
    requires |p| == lvl && Walk(m, here, p, false).Some? && Walk(m, here, p + [d], false).Some?
    requires Walk(m, here, p, false).value in visited || QueuedWithin(q, gq, Walk(m, here, p, false).value, |p|)
    ensures Walk(m, here, p + [d], false).value in visited || QueuedWithin(q, gq, Walk(m, here, p + [d], false).value, lvl + 1)
  {
    WalkSnoc(m, here, p, d, false);
    var u := Walk(m, here, p, false).value;
    var t := Walk(m, here, p + [d], false).value;
    assert Has(GetRoomExits(m, u), d) && Target(GetRoomExits(m, u), d) == t;
    if t !in visited {
      var i :| 0 <= i < |q| && q[i] == t;
    }
  }

  /** Popping an expanded head keeps the levels. */
  lemma LevelsSkip(m: MapStore, here: string, visited: set<string>, q: seq<string>, gq: seq<seq<string>>, lvl: nat)
    requires Levels(m, here, visited, q, gq, lvl) && |q| > 0 && q[0] in visited
    ensures Levels(m, here, visited, q[1..], gq[1..], lvl)
  {
    assert QueuedAlong(m, here, q[1..], gq[1..]) by {
      forall i | 0 <= i < |q| - 1 ensures Walk(m, here, gq[1..][i], false) == Some(q[1..][i]) {
        assert gq[1..][i] == gq[i + 1] && q[1..][i] == q[i + 1];
      }
    }
    assert Banded(gq[1..], lvl) by {
      assert forall i :: 0 <= i < |gq| - 1 ==> gq[1..][i] == gq[i + 1];
    }
    CoveredSkip(m, here, visited, q, gq, lvl);
  }

  lemma CoveredSkip(m: MapStore, here: string, visited: set<string>, q: seq<string>, gq: seq<seq<string>>, lvl: nat)
    requires Covered(m, here, visited, q, gq, lvl) && |q| > 0 && |gq| == |q| && q[0] in visited
    ensures Covered(m, here, visited, q[1..], gq[1..], lvl)
  {
    forall labels | |labels| <= lvl && Walk(m, here, labels, false).Some?
      ensures Walk(m, here, labels, false).value in visited || QueuedWithin(q[1..], gq[1..], Walk(m, here, labels, false).value, |labels|)
    {
      var t := Walk(m, here, labels, false).value;
      if t !in visited {
        var i :| 0 <= i < |q| && i < |gq| && q[i] == t && |gq[i]| <= |labels|;
        assert q[1..][i - 1] == t && gq[1..][i - 1] == gq[i];
      }
    }
  }

  /** `q'` is `q` followed by the targets of the exits `ex`, in order. */
  predicate Appended(q: seq<string>, q': seq<string>, ex: AList<Exit>)
  {
    && |q'| == |q| + |ex| && q'[..|q|] == q
    && (forall k :: 0 <= k < |ex| ==> Has(ex, ex[k].0) && q'[|q| + k] == Target(ex, ex[k].0))
  }

  /** The walks the targets of `ex` are queued along: `w` and the label. */
  ghost function Extended(w: seq<string>, ex: AList<Exit>): (r: seq<seq<string>>)
    ensures |r| == |ex| && forall k :: 0 <= k < |ex| ==> r[k] == w + [ex[k].0]
  {
    seq(|ex|, k requires 0 <= k < |ex| => w + [ex[k].0])
  }

  /** The queue after expanding its head `q[0]`: the rest, then the targets of
      the head's exits, each queued along the head's walk and the exit's
      label. */
  ghost predicate ExpandedQueue(m: MapStore, q: seq<string>, gq: seq<seq<string>>, q': seq<string>, gq': seq<seq<string>>)
    requires |q| > 0 && |gq| == |q| && Known(m, q[0])
  {
    && Appended(q[1..], q', RoomOf(m, q[0]).exits)
    && gq' == gq[1..] + Extended(gq[0], RoomOf(m, q[0]).exits)
  }

  /** Expanding the head at level `lvl` queues the targets of its exits one
      level up. */
  lemma LevelsExpand(m: MapStore, here: string, visited: set<string>, q: seq<string>, gq: seq<seq<string>>, lvl: nat,
                     q': seq<string>, gq': seq<seq<string>>)
    requires Levels(m, here, visited, q, gq, lvl) && |q| > 0 && |gq[0]| == lvl && Known(m, q[0])
    requires ExpandedQueue(m, q, gq, q', gq')
    ensures Levels(m, here, visited + {q[0]}, q', gq', lvl)
  {
    AlongExpand(m, here, q, gq, q', gq');
    BandedExpand(m, q, gq, lvl, q', gq');
    CoveredExpand(m, here, visited, q, gq, lvl, q', gq');
  }

  lemma AlongExpand(m: MapStore, here: string, q: seq<string>, gq: seq<seq<string>>, q': seq<string>, gq': seq<seq<string>>)
    requires QueuedAlong(m, here, q, gq) && |q| > 0 && Known(m, q[0])
    requires ExpandedQueue(m, q, gq, q', gq')
    ensures QueuedAlong(m, here, q', gq')
  {
    var n := |q[1..]|;
    forall i | 0 <= i < |q'| ensures Walk(m, here, gq'[i], false) == Some(q'[i]) {
      if i < n {
        assert q'[i] == q'[..n][i] == q[i + 1] && gq'[i] == gq[1..][i] == gq[i + 1];
      } else {
        ExpandedEntry(m, here, q, gq, q', gq', i - n);
      }
    }
  }

  lemma BandedExpand(m: MapStore, q: seq<string>, gq: seq<seq<string>>, lvl: nat, q': seq<string>, gq': seq<seq<string>>)
    requires |q| > 0 && |gq| == |q| && Known(m, q[0]) && Banded(gq, lvl) && |gq[0]| == lvl
    requires ExpandedQueue(m, q, gq, q', gq')
    ensures Banded(gq', lvl)
  {
    var ex := RoomOf(m, q[0]).exits;
    var n := |q| - 1;
    forall i | 0 <= i < |gq'|
      ensures (i < n ==> gq'[i] == gq[i + 1]) && (n <= i ==> |gq'[i]| == lvl + 1)
    {
      if n <= i {
        assert gq'[i] == gq[0] + [ex[i - n].0];
      }
    }
    forall i, j | 0 <= i < j < |gq'| ensures |gq'[i]| <= |gq'[j]| {
      if j < n {
        assert |gq[i + 1]| <= |gq[j + 1]|;
      }
    }
  }

  lemma CoveredExpand(m: MapStore, here: string, visited: set<string>, q: seq<string>, gq: seq<seq<string>>, lvl: nat,
                      q': seq<string>, gq': seq<seq<string>>)
    requires Covered(m, here, visited, q, gq, lvl) && |q| > 0 && |gq| == |q| && Known(m, q[0])
    requires ExpandedQueue(m, q, gq, q', gq')
    ensures Covered(m, here, visited + {q[0]}, q', gq', lvl)
  {
    forall labels | |labels| <= lvl && Walk(m, here, labels, false).Some?
      ensures Walk(m, here, labels, false).value in visited + {q[0]} || QueuedWithin(q', gq', Walk(m, here, labels, false).value, |labels|)
    {
      var t := Walk(m, here, labels, false).value;
      if t !in visited && t != q[0] {
        var i :| 0 <= i < |q| && i < |gq| && q[i] == t && |gq[i]| <= |labels|;
        assert q'[i - 1] == q'[..|q[1..]|][i - 1] == q[1..][i - 1];
        assert gq'[i - 1] == gq[1..][i - 1] == gq[i];
      }
    }
  }

  /** The entry queued for the `k`-th exit of the head is reached along the
      head's walk and that exit's label. */
  lemma ExpandedEntry(m: MapStore, here: string, q: seq<string>, gq: seq<seq<string>>, q': seq<string>, gq': seq<seq<string>>, k: nat)
    requires |q| > 0 && |gq| == |q| && Walk(m, here, gq[0], false) == Some(q[0]) && Known(m, q[0])
    requires ExpandedQueue(m, q, gq, q', gq') && k < |RoomOf(m, q[0]).exits|
    ensures Walk(m, here, gq'[|q[1..]| + k], false) == Some(q'[|q[1..]| + k]) && |gq'[|q[1..]| + k]| == |gq[0]| + 1
  {
    var ex := RoomOf(m, q[0]).exits;
    var w := gq[0] + [ex[k].0];
    assert gq'[|gq[1..]| + k] == Extended(gq[0], ex)[k] == w;
    WalkStep(m, here, gq[0], q[0], ex[k].0);
  }

  /** A walk to a stored room, extended by one of its labels, reaches that
      label's target. */
  lemma WalkStep(m: MapStore, here: string, w: seq<string>, room: string, key: string)
    requires Walk(m, here, w, false) == Some(room) && Known(m, room) && Has(RoomOf(m, room).exits, key)
    ensures Walk(m, here, w + [key], false) == Some(Target(RoomOf(m, room).exits, key))
  {
    WalkSnoc(m, here, w, key, false);
  }

  /** Dequeuing a stored `there` answers with its recorded path.  It was
      queued along a walk of `lvl` labels, so every walk shorter than every
      walk to `there` ends below that level, in an expanded room. */
  lemma AnswerFound(m: MapStore, here: string, there: string, paths: map<string, seq<string>>,
                    visited: set<string>, q: seq<string>, gq: seq<seq<string>>, lvl: nat)
    requires PathsSound(m, here, paths) && there in paths && Known(m, there)
    requires Levels(m, here, visited, q, gq, lvl) && |q| > 0 && q[0] == there && |gq[0]| == lvl
    requires forall v :: v in visited ==> Known(m, v)
    ensures Answers(m, here, there, Ok(Some(paths[there])))
  {
    assert Walk(m, here, gq[0], false) == Some(there);
    forall lk | Walk(m, here, lk, false).Some? && NoShorter(m, here, there, |lk| + 1)
      ensures Known(m, Walk(m, here, lk, false).value)
    {
      assert |lk| + 1 <= |gq[0]|;
    }
  }

  lemma FrontierSkip(m: MapStore, here: string, there: string, visited: set<string>, paths: map<string, seq<string>>, q: seq<string>)
    requires Frontier(m, here, there, visited, paths, q) && |q| > 0 && q[0] in visited
    ensures Frontier(m, here, there, visited + {q[0]}, paths, q[1..])
  {
    assert visited + {q[0]} == visited;
    forall v, d | v in visited && Has(GetRoomExits(m, v), d) && Target(GetRoomExits(m, v), d) in q
      ensures Target(GetRoomExits(m, v), d) in visited || Target(GetRoomExits(m, v), d) in q[1..]
    {
      var t := Target(GetRoomExits(m, v), d);
      var i :| 0 <= i < |q| && q[i] == t;
      if i > 0 {
        assert q[1..][i - 1] == t;
      }
    }
    if here !in visited {
      var i :| 0 <= i < |q| && q[i] == here;
      assert q[1..][i - 1] == here;
    }
  }

  lemma FrontierExpand(m: MapStore, here: string, there: string, visited: set<string>, paths: map<string, seq<string>>, q: seq<string>,
                       paths': map<string, seq<string>>, q': seq<string>)
    requires Frontier(m, here, there, visited, paths, q) && |q| > 0
    requires q[0] !in visited && q[0] != there && Known(m, q[0])
    requires PathsSound(m, here, paths')
    requires forall i :: 0 <= i < |q'| ==> q'[i] in paths'
    requires |q'| >= |q| - 1 && q'[..|q| - 1] == q[1..]
    requires forall d :: Has(RoomOf(m, q[0]).exits, d) ==> Target(RoomOf(m, q[0]).exits, d) in q'
    ensures Frontier(m, here, there, visited + {q[0]}, paths', q')
  {
    assert [q[0]] + q[1..] == q;
    ClosedStep(m, visited, q[0], q[1..], q');
    if here !in visited && here != q[0] {
      var i :| 0 <= i < |q| && q[i] == here;
      assert q'[i - 1] == q[1..][i - 1];
    }
  }

  /** A search that ran dry has expanded a closed set holding `here` but not
      `there`, so no walk reaches `there`. */
  lemma FrontierExhausted(m: MapStore, here: string, there: string, visited: set<string>, paths: map<string, seq<string>>)
    requires Frontier(m, here, there, visited, paths, [])
    ensures forall labels :: Walk(m, here, labels, false) != Some(there)
    ensures forall lk :: Walk(m, here, lk, false).Some? ==> Known(m, Walk(m, here, lk, false).value)
  {
    forall labels | Walk(m, here, labels, false).Some?
      ensures Walk(m, here, labels, false).value in visited
    {
      WalkStaysInClosed(m, visited, here, labels, false);
    }
  }

  /** The inner loop of `findPath`: every exit of `room`, in order, records the
      path to its target (through `room`) and enqueues the target. */
  method EnqueueExits(m: MapStore, here: string, room: string, paths: map<string, seq<string>>, q: seq<string>)
    returns (paths': map<string, seq<string>>, q': seq<string>)
    requires Known(m, room) && room in paths
    requires PathsSound(m, here, paths)
    requires forall i :: 0 <= i < |q| ==> q[i] in paths
    ensures PathsSound(m, here, paths')
    ensures paths.Keys <= paths'.Keys
    ensures forall i :: 0 <= i < |q'| ==> q'[i] in paths'
    ensures |q'| >= |q| && q'[..|q|] == q
    ensures forall d :: Has(RoomOf(m, room).exits, d) ==> Target(RoomOf(m, room).exits, d) in q'
    ensures Appended(q, q', RoomOf(m, room).exits)
  {
    var ex := RoomOf(m, room).exits;
    paths', q' := paths, q;
    var j := 0;
    while j < |ex|
      invariant Enqueued(m, here, room, paths, q, j, paths', q')
    {
      paths', q' := EnqueueOne(m, here, room, paths, q, j, paths', q');
      j := j + 1;
    }
    EnqueuedAll(m, here, room, paths, q, paths', q');
    assert forall k :: 0 <= k < |ex| ==> Has(ex, ex[k].0);
  }

  /** The invariant of the inner loop after the first `j` exits of `room`. */
  ghost predicate Enqueued(m: MapStore, here: string, room: string, paths: map<string, seq<string>>, q: seq<string>,
                           j: int, paths': map<string, seq<string>>, q': seq<string>)
  {
    && Known(m, room)
    && 0 <= j <= |RoomOf(m, room).exits|
    && room in paths'
    && PathsSound(m, here, paths')
    && paths.Keys <= paths'.Keys
    && (forall i :: 0 <= i < |q'| ==> q'[i] in paths')
    && |q'| >= |q| && q'[..|q|] == q
    && |q'| == |q| + j
    && (forall i :: 0 <= i < j ==> q'[|q| + i] == Target(RoomOf(m, room).exits, RoomOf(m, room).exits[i].0))
  }

  /** Recording the path through `room` to the target of its `j`-th exit. */
  method EnqueueOne(m: MapStore, here: string, room: string, paths: map<string, seq<string>>, q: seq<string>,
                    j: int, paths': map<string, seq<string>>, q': seq<string>)
    returns (paths'': map<string, seq<string>>, q'': seq<string>)
    requires Enqueued(m, here, room, paths, q, j, paths', q') && j < |RoomOf(m, room).exits|
    ensures Enqueued(m, here, room, paths, q, j + 1, paths'', q'')
  {
    var ex := RoomOf(m, room).exits;
    var key := ex[j].0;
    assert Has(ex, key);
    var tgt := Target(ex, key);
    paths'' := paths'[tgt := paths'[room] + [key]];
    q'' := q' + [tgt];
    RecordThrough(m, here, room, paths', key);
    assert q''[..|q|] == q'[..|q|];
    forall i | 0 <= i < j + 1 ensures q''[|q| + i] == Target(ex, ex[i].0) {
      if i < j {
        assert q''[|q| + i] == q'[|q| + i];
      }
    }
    forall i | 0 <= i < |q''| ensures q''[i] in paths'' {
      if i < |q'| {
        assert q''[i] == q'[i];
      }
    }
  }

  /** The path through `room` and one of its labels is a walk to that label's
      target. */
  lemma RecordThrough(m: MapStore, here: string, room: string, paths: map<string, seq<string>>, key: string)
    requires Known(m, room) && room in paths && PathsSound(m, here, paths) && Has(RoomOf(m, room).exits, key)
    ensures PathsSound(m, here, paths[Target(RoomOf(m, room).exits, key) := paths[room] + [key]])
  {
    WalkSnoc(m, here, paths[room], key, false);
  }

  lemma EnqueuedAll(m: MapStore, here: string, room: string, paths: map<string, seq<string>>, q: seq<string>,
                    paths': map<string, seq<string>>, q': seq<string>)
    requires Known(m, room) && Enqueued(m, here, room, paths, q, |RoomOf(m, room).exits|, paths', q')
    ensures forall d :: Has(RoomOf(m, room).exits, d) ==> Target(RoomOf(m, room).exits, d) in q'
  {
    var ex := RoomOf(m, room).exits;
    forall d | Has(ex, d) ensures Target(ex, d) in q' {
      var i :| 0 <= i < |ex| && ex[i].0 == d;
      assert q'[|q| + i] == Target(ex, d);
    }
  }

  /** Expanding the head of the queue keeps the expanded set closed. */
  lemma ClosedStep(m: MapStore, visited: set<string>, room: string, rest: seq<string>, q: seq<string>)
    requires Known(m, room)
    requires Closed(m, visited, [room] + rest)
    requires |q| >= |rest| && q[..|rest|] == rest
    requires forall d :: Has(RoomOf(m, room).exits, d) ==> Target(RoomOf(m, room).exits, d) in q
    ensures Closed(m, visited + {room}, q)
  {
    forall v, d | v in visited + {room} && Has(GetRoomExits(m, v), d)
      ensures Target(GetRoomExits(m, v), d) in visited + {room} || Target(GetRoomExits(m, v), d) in q
    {
      var t := Target(GetRoomExits(m, v), d);
      if v != room && t != room && t !in visited {
        assert t in [room] + rest;
        var i :| 0 <= i < |[room] + rest| && ([room] + rest)[i] == t;
        assert rest[i - 1] == q[i - 1];
      }
    }
  }
}

=== FILE: renderer.dfy ===
/** `Mapper.draw` of modules/mapper.py: a breadth-first layout of the rooms
    around the current one onto a fixed character grid.

    The terminal size (`columns`, `lines`), the current room and the
    `drawAreas` flag are parameters.  `getRoomCoords` answers (0, 0, 0) for
    every room and the answer is never used, so it does not appear. */
module Renderer {
  import opened Wrappers
  import opened AssocList
  import opened Strings
  import opened Store
  import ExitEdit
  import Observe

  // ---------------------------------------------------------------------------
  // exit labels

  /** The ten labels `adjustExit` knows. */
  datatype Dir = N | W | S | E | D | U | NW | SW | SE | NE

  function Label(dir: Dir): string
  {
    match dir
    case N => "n"
    case W => "w"
    case S => "s"
    case E => "e"
    case D => "d"
    case U => "u"
    case NW => "nw"
    case SW => "sw"
    case SE => "se"
    case NE => "ne"
  }

  /** The direction a label names, if it is one of the ten. */
  function DirOf(d: string): (r: Option<Dir>)
    ensures r.Some? ==> Label(r.value) == d
    ensures r.None? ==> forall dir: Dir :: Label(dir) != d
  {
    if d == "n" then Some(N)
    else if d == "w" then Some(W)
    else if d == "s" then Some(S)
    else if d == "e" then Some(E)
    else if d == "d" then Some(D)
    else if d == "u" then Some(U)
    else if d == "nw" then Some(NW)
    else if d == "sw" then Some(SW)
    else if d == "se" then Some(SE)
    else if d == "ne" then Some(NE)
    else None
  }

  /** The text before the first newline: `.` never matches a newline, so the
      two regular expressions `draw` uses only ever see this part. */
  function FirstLine(d: string): (l: string)
    ensures IsPrefix(l, d) && '\n' !in l
    ensures |l| < |d| ==> d[|l|] == '\n'
    decreases |d|
  {
    if |d| == 0 || d[0] == '\n' then []
    else [d[0]] + FirstLine(d[1..])
  }

  /** `open .+;` matches the first line up to the `;` at `q`, with at least one
      character after it. */
  predicate OpenAt(l: string, q: int)
  {
    IsPrefix("open ", l) && 6 <= q && q + 1 < |l| && l[q] == ';'
  }

  /** The last `;` before position `k`, not before position 6. */
  function LastSemi(l: string, k: int): (r: Option<nat>)
    requires k <= |l|
    ensures r.Some? ==> 6 <= r.value < k && l[r.value] == ';'
    ensures r.Some? ==> forall q :: r.value < q < k ==> l[q] != ';'
    ensures r.None? ==> forall q :: 6 <= q < k ==> l[q] != ';'
    decreases k
  {
    if k <= 6 then None
    else if l[k - 1] == ';' then Some(k - 1)
    else LastSemi(l, k - 1)
  }

  /** Group 1 of `re.match(r'open .+;(.+)', d)`: the greedy `.+` before the
      `;` takes the last possible one, and the group runs to the end of the
      line. */
  function OpenTail(d: string): (r: Option<string>)
    ensures r.Some? ==> 0 < |r.value| < |d|
  {
    var l := FirstLine(d);
    if !IsPrefix("open ", l) || |l| < 2 then None
    else
      match LastSemi(l, |l| - 1)
      case None => None
      case Some(q) => Some(l[q + 1..])
  }

  /** The match exists exactly when some `;` qualifies, and the group starts
      after the last one that does. */
  lemma OpenTailSpec(d: string)
    ensures OpenTail(d).Some? <==> exists q :: OpenAt(FirstLine(d), q)
    ensures OpenTail(d).Some? ==> exists q :: (OpenAt(FirstLine(d), q) && OpenTail(d).value == FirstLine(d)[q + 1..]
      && forall q' :: q < q' ==> !OpenAt(FirstLine(d), q'))
  {
    var l := FirstLine(d);
    if IsPrefix("open ", l) && |l| >= 2 {
      match LastSemi(l, |l| - 1)
      case None =>
      case Some(q) =>
        assert OpenAt(l, q);
    }
  }

  /** The filter on labels: one of the ten, or `re.match(r'open .+;[neswud]+', d)`. */
  predicate Drawable(d: string)
  {
    || DirOf(d).Some?
    || exists q :: 0 <= q < |FirstLine(d)| && OpenAt(FirstLine(d), q) && FirstLine(d)[q + 1] in "neswud"
  }

  /** The direction `adjustExit` ends up with: the tail of a door label is
      resolved again, anything else must be one of the ten. */
  function Resolve(d: string): Option<Dir>
    decreases |d|
  {
    match OpenTail(d)
    case Some(t) => Resolve(t)
    case None => DirOf(d)
  }

  /** The tail of a door label never splits again, so `adjustExit` recurses
      at most once. */
  lemma TailFinal(d: string)
    requires OpenTail(d).Some?
    ensures OpenTail(OpenTail(d).value).None?
    ensures Resolve(d) == DirOf(OpenTail(d).value)
  {
    var l := FirstLine(d);
    var t := OpenTail(d).value;
    OpenTailSpec(d);
    var q :| OpenAt(l, q) && t == l[q + 1..] && forall q' :: q < q' ==> !OpenAt(l, q');
    assert '\n' !in t;
    assert FirstLine(t) == t by {
      FirstLineNoBreak(t);
    }
    forall i | 0 <= i < |t| - 1 ensures t[i] != ';' {
      assert !OpenAt(l, q + 1 + i);
      assert t[i] == l[q + 1 + i];
    }
    TailNoSemi(t);
  }

  /** A line with no `;` before its last character has no door split. */
  lemma TailNoSemi(t: string)
    requires FirstLine(t) == t
    requires forall i :: 0 <= i < |t| - 1 ==> t[i] != ';'
    ensures OpenTail(t).None?
  {
    if |t| >= 2 {
      NoSemi(t, |t| - 1);
    }
  }

  lemma NoSemi(l: string, k: int)
    requires k <= |l| && forall i :: 0 <= i < k ==> l[i] != ';'
    ensures LastSemi(l, k).None?
  {
  }

  lemma {:induction false} FirstLineNoBreak(s: string)
    requires '\n' !in s
    ensures FirstLine(s) == s
    decreases |s|
  {
    if |s| > 0 {
      assert '\n' !in s[1..];
      FirstLineNoBreak(s[1..]);
      assert [s[0]] + s[1..] == s;
    }
  }

  /** The door labels the room-info handler stores, `open <door> <dir>;<dir>`,
      are drawn in their direction (for a door word without `;` or a newline). */
  lemma AliasDrawn(door: string, dir: Dir)
    requires ';' !in door && '\n' !in door
    ensures Resolve(Observe.AliasLabel(door, Label(dir))) == Some(dir)
    ensures Drawable(Observe.AliasLabel(door, Label(dir)))
  {
    var s := Label(dir);
    var a := Observe.AliasLabel(door, s);
    LabelHead(dir);
    var q := AliasSplit(door, s);
    AliasTail(a, q, s);
    assert OpenTail(s).None? by {
      assert !IsPrefix("open ", FirstLine(s));
    }
    assert Resolve(a) == Resolve(s);
    DirLabel(dir);
    assert FirstLine(a)[q + 1] == s[0];
  }

  /** The tail after the last qualifying `;` is what `OpenTail` answers. */
  lemma AliasTail(a: string, q: int, s: string)
    requires FirstLine(a) == a && OpenAt(a, q) && a[q + 1..] == s
    requires forall q' :: q < q' ==> !OpenAt(a, q')
    ensures OpenTail(a) == Some(s)
  {
    NoLaterSemi(a, q);
    OpenTailAt(a, a, q);
  }

  lemma OpenTailAt(d: string, l: string, q: int)
    requires FirstLine(d) == l && OpenAt(l, q) && LastSemi(l, |l| - 1) == Some(q)
    ensures OpenTail(d) == Some(l[q + 1..])
  {
  }

  lemma NoLaterSemi(a: string, q: int)
    requires OpenAt(a, q) && forall q' :: q < q' ==> !OpenAt(a, q')
    ensures LastSemi(a, |a| - 1) == Some(q)
  {
    forall q' | q < q' < |a| - 1 ensures a[q'] != ';' {
      assert !OpenAt(a, q');
    }
    LastSemiAt(a, |a| - 1, q);
  }

  /** The `;` at `q` is the last before `k` when none follows it. */
  lemma LastSemiAt(l: string, k: int, q: int)
    requires k <= |l| && 6 <= q < k && l[q] == ';'
    requires forall q' :: q < q' < k ==> l[q'] != ';'
    ensures LastSemi(l, k) == Some(q)
  {
  }

  lemma DirLabel(dir: Dir)
    ensures DirOf(Label(dir)) == Some(dir)
  {
  }

  lemma LabelHead(dir: Dir)
    ensures 1 <= |Label(dir)| <= 2 && Label(dir)[0] in "neswud"
    ensures ';' !in Label(dir) && '\n' !in Label(dir)
  {
  }

  /** Where an alias label splits: the last `;`, with the direction after it. */
  lemma AliasSplit(door: string, s: string) returns (q: int)
    requires ';' !in door && '\n' !in door && ';' !in s && '\n' !in s && |s| >= 1
    ensures var a := Observe.AliasLabel(door, s);
      && FirstLine(a) == a && OpenAt(a, q) && a[q + 1..] == s
      && forall q' :: q < q' ==> !OpenAt(a, q')
  {
    var a := Observe.AliasLabel(door, s);
    q := 5 + |door| + 1 + |s|;
    assert a == "open " + door + " " + s + ";" + s;
    assert a[q] == ';';
    assert a[q + 1..] == s;
    assert '\n' !in a;
    FirstLineNoBreak(a);
    assert forall i :: q < i < |a| ==> a[i] == s[i - q - 1];
  }

  // ---------------------------------------------------------------------------
  // `adjustExit`

  /** One step along an exit: the new position and the regular, hidden and
      marked glyphs. */
  datatype Adjusted = Adjusted(x: int, y: int, regular: char, hidden: char, marked: char)

  /** The unit step of a direction; `u` and `d` do not move. */
  function Delta(dir: Dir): (int, int)
  {
    match dir
    case N => (0, -1)
    case W => (-1, 0)
    case S => (0, 1)
    case E => (1, 0)
    case D => (0, 0)
    case U => (0, 0)
    case NW => (-1, -1)
    case SW => (-1, 1)
    case SE => (1, 1)
    case NE => (1, -1)
  }

  /** The glyph table of `adjustExit`; `prev` is the cell of the room the exit
      leaves, which only `u` and `d` look at. */
  function Adjust(x: int, y: int, dir: Dir, prev: char): Adjusted
  {
    match dir
    case N => Adjusted(x, y - 1, '│', '↑', '║')
    case W => Adjusted(x - 1, y, '─', '←', '═')
    case S => Adjusted(x, y + 1, '│', '↓', '║')
    case E => Adjusted(x + 1, y, '─', '→', '═')
    case D => if prev == '▲' then Adjusted(x, y, '◆', '◆', '◆') else Adjusted(x, y, '▼', '▼', '▼')
    case U => if prev == '▼' then Adjusted(x, y, '◆', '◆', '◆') else Adjusted(x, y, '▲', '▲', '▲')
    case NW => Adjusted(x - 1, y - 1, '\\', '\\', '\\')
    case SW => Adjusted(x - 1, y + 1, '/', '/', '/')
    case SE => Adjusted(x + 1, y + 1, '\\', '\\', '\\')
    case NE => Adjusted(x + 1, y - 1, '/', '/', '/')
  }

  /** `adjustExit(x, y, d, prev)`: None (the caller's TypeError when it
      unpacks the result) unless the label resolves to a direction; one unit
      step in it otherwise.  `u`/`d` draw ◆ exactly when the opposite arrow is
      already on the room's cell. */
  function AdjustExit(x: int, y: int, d: string, prev: char): (r: Option<Adjusted>)
    ensures r.Some? <==> Resolve(d).Some?
    ensures r.Some? ==> (r.value.x, r.value.y) == (x + Delta(Resolve(d).value).0, y + Delta(Resolve(d).value).1)
    ensures r.Some? && Resolve(d).value == U ==> r.value.regular == r.value.hidden == r.value.marked == (if prev == '▼' then '◆' else '▲')
    ensures r.Some? && Resolve(d).value == D ==> r.value.regular == r.value.hidden == r.value.marked == (if prev == '▲' then '◆' else '▼')
    ensures r.Some? && Resolve(d).value !in {U, D} ==> r.value == Adjust(x, y, Resolve(d).value, ' ')
    decreases |d|
  {
    match OpenTail(d)
    case Some(t) => AdjustExit(x, y, t, prev)
    case None =>
      match DirOf(d)
      case None => None
      case Some(dir) => Some(Adjust(x, y, dir, prev))
  }

  /** A label that resolves steps like its direction. */
  lemma {:induction false} AdjustResolved(x: int, y: int, d: string, prev: char)
    requires Resolve(d).Some?
    ensures AdjustExit(x, y, d, prev) == Some(Adjust(x, y, Resolve(d).value, prev))
    decreases |d|
  {
    if OpenTail(d).Some? {
      AdjustResolved(x, y, OpenTail(d).value, prev);
    }
  }

  /** The glyphs of a direction never include a blank or a newline. */
  lemma GlyphsPrintable(x: int, y: int, dir: Dir, prev: char)
    ensures var a := Adjust(x, y, dir, prev);
      a.regular !in " \n" && a.hidden !in " \n" && a.marked !in " \n"
  {
  }

  /** The first loop over `range(n)`: `n` steps with a blank `prev`. */
  function Travel(x: int, y: int, d: string, n: int): Option<(int, int)>
    decreases if n > 0 then n else 0
  {
    if n <= 0 then Some((x, y))
    else
      match AdjustExit(x, y, d, ' ')
      case None => None
      case Some(a) => Travel(a.x, a.y, d, n - 1)
  }

  /** `k` unit steps from `(x, y)`. */
  function Cell(x: int, y: int, dir: Dir, k: int): (int, int)
  {
    (x + k * Delta(dir).0, y + k * Delta(dir).1)
  }

  lemma CellNext(x: int, y: int, dir: Dir, k: int)
    ensures Cell(x, y, dir, k + 1) == (Cell(x, y, dir, k).0 + Delta(dir).0, Cell(x, y, dir, k).1 + Delta(dir).1)
    ensures Cell(x, y, dir, 0) == (x, y)
  {
    var (dx, dy) := Delta(dir);
    assert (k + 1) * dx == k * dx + dx;
    assert (k + 1) * dy == k * dy + dy;
  }

  /** Only `u` and `d` visit a cell twice. */
  lemma CellInjective(x: int, y: int, dir: Dir, k: int, k': int)
    requires dir !in {U, D} && k != k'
    ensures Cell(x, y, dir, k) != Cell(x, y, dir, k')
  {
    var (dx, dy) := Delta(dir);
    assert dx != 0 || dy != 0;
    if dx != 0 {
      assert dx == 1 || dx == -1;
      assert k * dx != k' * dx;
    } else {
      assert dy == 1 || dy == -1;
      assert k * dy != k' * dy;
    }
  }

  /** Travelling is a straight line: `n` steps land `n` unit steps away; a
      label that resolves to nothing fails on the first step. */
  lemma TravelLine(x: int, y: int, d: string, n: int)
    ensures n >= 1 && Resolve(d).None? ==> Travel(x, y, d, n).None?
    ensures n <= 0 ==> Travel(x, y, d, n) == Some((x, y))
    ensures n >= 1 && Resolve(d).Some? ==> Travel(x, y, d, n) == Some(Cell(x, y, Resolve(d).value, n))
  {
    if n >= 1 && Resolve(d).Some? {
      TravelSome(x, y, d, n);
    }
  }

  lemma {:induction false} TravelSome(x: int, y: int, d: string, n: int)
    requires n >= 1 && Resolve(d).Some?
    ensures Travel(x, y, d, n) == Some(Cell(x, y, Resolve(d).value, n))
    decreases n
  {
    var dir := Resolve(d).value;
    AdjustResolved(x, y, d, ' ');
    AdjustDelta(x, y, dir, ' ');
    var a := Adjust(x, y, dir, ' ');
    if n == 1 {
      CellNext(x, y, dir, 0);
    } else {
      TravelSome(a.x, a.y, d, n - 1);
      CellShift(x, y, dir, n - 1);
    }
  }

  /** Every glyph-table entry moves by the direction's unit step. */
  lemma AdjustDelta(x: int, y: int, dir: Dir, prev: char)
    ensures (Adjust(x, y, dir, prev).x, Adjust(x, y, dir, prev).y) == (x + Delta(dir).0, y + Delta(dir).1)
  {
  }

  lemma CellShift(x: int, y: int, dir: Dir, k: int)
    ensures Cell(x + Delta(dir).0, y + Delta(dir).1, dir, k) == Cell(x, y, dir, k + 1)
  {
    CellNext(x, y, dir, k);
  }

  // ---------------------------------------------------------------------------
  // the grid

  /** What `draw` works with: the map, the current room, the terminal size,
      `self.drawAreas`, and the zone of the current room. */
  datatype Frame = Frame(m: MapStore, current: string, columns: int, lines: int, drawAreas: bool, area: string)

  /** `[[' '] * columns for _ in range(lines - 1)]`: a non-positive count
      gives no rows, or empty rows. */
  function Blank(rows: int, cols: int): (g: seq<seq<char>>)
    ensures |g| == if rows > 0 then rows else 0
    ensures forall y :: 0 <= y < |g| ==> |g[y]| == (if cols > 0 then cols else 0) && IsBlank(g[y])
  {
    seq(if rows > 0 then rows else 0, _ => seq(if cols > 0 then cols else 0, _ => ' '))
  }

  /** `fits(x, y)`: inside the grid; the last terminal line is left for the
      prompt. */
  predicate Fits(f: Frame, x: int, y: int)
  {
    0 <= x < f.columns && 0 <= y < f.lines - 1
  }

  /** The grid has `lines - 1` rows of `columns` cells, none of them a
      newline. */
  ghost predicate Shape(f: Frame, out: seq<seq<char>>)
  {
    && |out| == f.lines - 1
    && (forall y :: 0 <= y < |out| ==> |out[y]| == f.columns)
    && (forall y, x :: 0 <= y < |out| && 0 <= x < |out[y]| ==> out[y][x] != '\n')
  }

  /** `out[y][x] = c`. */
  function Plot(out: seq<seq<char>>, x: int, y: int, c: char): (r: seq<seq<char>>)
    requires 0 <= y < |out| && 0 <= x < |out[y]|
    ensures |r| == |out| && forall y' :: 0 <= y' < |r| ==> |r[y']| == |out[y']|
    ensures r[y][x] == c
    ensures forall y', x' :: 0 <= y' < |r| && 0 <= x' < |r[y']| && (x', y') != (x, y) ==> r[y'][x'] == out[y'][x']
  {
    out[y := out[y][x := c]]
  }

  lemma PlotShape(f: Frame, out: seq<seq<char>>, x: int, y: int, c: char)
    requires Shape(f, out) && Fits(f, x, y) && c != '\n'
    ensures Shape(f, Plot(out, x, y, c))
  {
  }

  // ---------------------------------------------------------------------------
  // one exit

  /** What the exit's target looks like: `mark` (placed at another cell),
      already visited, `exists` (`present`: it has data) and `sameAreas`. */
  datatype Look = Look(mark: bool, seen: bool, present: bool, same: bool)

  /** The glyph an exit cell gets: marked when the target sits elsewhere, the
      line when the cell is free and the target is drawn, hidden otherwise. */
  function Pick(a: Adjusted, look: Look, free: bool): char
  {
    if look.mark then a.marked
    else if free && look.present && look.same then a.regular
    else a.hidden
  }

  /** `free` for the exit cell `c`: the target was visited, or the next
      cell in `dir` is off the grid or blank in `out`. */
  ghost predicate FreeAt(f: Frame, out: seq<seq<char>>, c: (int, int), dir: Dir, seen: bool)
    requires Shape(f, out)
  {
    var (nx, ny) := (c.0 + Delta(dir).0, c.1 + Delta(dir).1);
    seen || !Fits(f, nx, ny) || out[ny][nx] == ' '
  }

  /** A compass direction draws the same three glyphs wherever it is. */
  lemma GlyphsFixed(x: int, y: int, dir: Dir, prev: char)
    requires dir !in {U, D}
    ensures var a := Adjust(x, y, dir, prev); var g := Adjust(0, 0, dir, ' ');
      a.regular == g.regular && a.hidden == g.hidden && a.marked == g.marked
  {
  }

  /** `(cx, cy)` is one of the first `n` cells along the exit. */
  ghost predicate OnLine(x: int, y: int, dir: Dir, n: int, cx: int, cy: int)
  {
    exists k :: 1 <= k <= n && Cell(x, y, dir, k) == (cx, cy)
  }

  /** The second loop of the exit, `for _ in range(exitLen)`: each step
      moves one cell and, when the cell fits, draws the glyph `prev` and the
      cell beyond call for.  Only the cells along the exit change; a compass
      exit leaves each of its fitting cells with the glyph `Pick` chooses,
      where `free` looks at the next cell as it was before the exit (the exit
      never crosses itself); `u`/`d` leave the room's own cell with an arrow,
      or ◆ when a single step met the opposite arrow. */
  method DrawExit(f: Frame, out: seq<seq<char>>, x: int, y: int, d: string, n: int, look: Look)
    returns (out': seq<seq<char>>)
    requires Shape(f, out) && Fits(f, x, y) && (n <= 0 || Resolve(d).Some?)
    ensures Shape(f, out')
    ensures n <= 0 ==> out' == out
    ensures n >= 1 ==> forall cx, cy :: Fits(f, cx, cy) && !OnLine(x, y, Resolve(d).value, n, cx, cy) ==> out'[cy][cx] == out[cy][cx]
    ensures n >= 1 && Resolve(d).value !in {U, D} ==> forall k :: 1 <= k <= n && Fits(f, Cell(x, y, Resolve(d).value, k).0, Cell(x, y, Resolve(d).value, k).1) ==>
      out'[Cell(x, y, Resolve(d).value, k).1][Cell(x, y, Resolve(d).value, k).0]
        == Pick(Adjust(0, 0, Resolve(d).value, ' '), look, FreeAt(f, out, Cell(x, y, Resolve(d).value, k), Resolve(d).value, look.seen))
    ensures n >= 1 && Resolve(d).value == U ==> out'[y][x] == if n == 1 && out[y][x] == '▼' then '◆' else '▲'
    ensures n >= 1 && Resolve(d).value == D ==> out'[y][x] == if n == 1 && out[y][x] == '▲' then '◆' else '▼'
    ensures n >= 1 ==> Drawn(f, out, out', x, y, Resolve(d).value, n, look)
  {
    out' := out;
    if n <= 0 {
      return;
    }
    var dir := Resolve(d).value;
    out' := DrawSteps(f, out, x, y, dir, n, look);
    DrawnEnd(f, out, out', x, y, dir, n, look);
  }

  /** The loop of `DrawExit`, `n` steps in the direction the label resolves to. */
  method DrawSteps(f: Frame, out: seq<seq<char>>, x: int, y: int, dir: Dir, n: int, look: Look)
    returns (out': seq<seq<char>>)
    requires Shape(f, out) && Fits(f, x, y) && n >= 1
    ensures Drawn(f, out, out', x, y, dir, n, look)
  {
    out' := out;
    var ex, ey := x, y;
    CellNext(x, y, dir, 0);
    var i := 0;
    while i < n
      invariant 0 <= i <= n
      invariant (ex, ey) == Cell(x, y, dir, i)
      invariant Drawn(f, out, out', x, y, dir, i, look)
    {
      // `adjustExit(x, y, d, prev)` resolves the label the same way on every
      // call (`AdjustResolved`), so the step is taken in `dir` directly.
      var a := Adjust(ex, ey, dir, out'[y][x]);
      ex, ey := a.x, a.y;
      if Fits(f, ex, ey) {
        var nx := Adjust(ex, ey, dir, ' ');
        var free := (Fits(f, ex, ey) && (!Fits(f, nx.x, nx.y) || out'[nx.y][nx.x] == ' ')) || look.seen;
        if dir !in {U, D} {
          FreeNext(f, out, out', x, y, dir, i, look, a, free);
        }
        DrawnNext(f, out, out', x, y, dir, i, look, a, free);
        out' := Plot(out', ex, ey, Pick(a, look, free));
      } else {
        DrawnNext(f, out, out', x, y, dir, i, look, a, true);
      }
      i := i + 1;
    }
  }

  lemma DrawnEnd(f: Frame, out0: seq<seq<char>>, out: seq<seq<char>>, x: int, y: int, dir: Dir, n: int, look: Look)
    requires Drawn(f, out0, out, x, y, dir, n, look) && n >= 1
    ensures Shape(f, out)
    ensures forall cx, cy :: Fits(f, cx, cy) && !OnLine(x, y, dir, n, cx, cy) ==> out[cy][cx] == out0[cy][cx]
    ensures dir !in {U, D} ==> forall k :: 1 <= k <= n && Fits(f, Cell(x, y, dir, k).0, Cell(x, y, dir, k).1) ==>
      out[Cell(x, y, dir, k).1][Cell(x, y, dir, k).0] == Pick(Adjust(0, 0, dir, ' '), look, FreeAt(f, out0, Cell(x, y, dir, k), dir, look.seen))
    ensures dir == U ==> out[y][x] == if n == 1 && out0[y][x] == '▼' then '◆' else '▲'
    ensures dir == D ==> out[y][x] == if n == 1 && out0[y][x] == '▲' then '◆' else '▼'
  {
  }

  /** `out` is `out0` with the first `i` steps of an exit in `dir` from the
      room at `(x, y)` drawn: the invariant of the loop in `DrawExit`, and
      with `i == exitLen` what one exit does to the grid. */
  ghost predicate Drawn(f: Frame, out0: seq<seq<char>>, out: seq<seq<char>>, x: int, y: int, dir: Dir, i: int, look: Look)
  {
    && Shape(f, out) && Shape(f, out0) && Fits(f, x, y) && 0 <= i
    && Kept(f, out0, out, x, y, dir, i)
    && Lines(f, out0, out, x, y, dir, i, look)
    && Arrows(out0, out, x, y, dir, i)
  }

  /** Off the first `i` cells of the exit nothing changed. */
  ghost predicate Kept(f: Frame, out0: seq<seq<char>>, out: seq<seq<char>>, x: int, y: int, dir: Dir, i: int)
    requires Shape(f, out) && Shape(f, out0)
  {
    forall cx, cy :: Fits(f, cx, cy) && !OnLine(x, y, dir, i, cx, cy) ==> out[cy][cx] == out0[cy][cx]
  }

  /** The fitting cells among the first `i` of a compass exit hold the glyph
      `Pick` chooses, with `free` read from the next cell of `out0`. */
  ghost predicate Lines(f: Frame, out0: seq<seq<char>>, out: seq<seq<char>>, x: int, y: int, dir: Dir, i: int, look: Look)
    requires Shape(f, out) && Shape(f, out0)
  {
    dir !in {U, D} ==> forall k :: 1 <= k <= i && Fits(f, Cell(x, y, dir, k).0, Cell(x, y, dir, k).1) ==>
      out[Cell(x, y, dir, k).1][Cell(x, y, dir, k).0] == Pick(Adjust(0, 0, dir, ' '), look, FreeAt(f, out0, Cell(x, y, dir, k), dir, look.seen))
  }

  /** After `i >= 1` steps of `u`/`d` the room's cell holds the arrow, or ◆
      when one step met the opposite arrow. */
  ghost predicate Arrows(out0: seq<seq<char>>, out: seq<seq<char>>, x: int, y: int, dir: Dir, i: int)
    requires 0 <= y < |out| && 0 <= x < |out[y]| && 0 <= y < |out0| && 0 <= x < |out0[y]|
  {
    && (dir == U && i >= 1 ==> out[y][x] == if i == 1 && out0[y][x] == '▼' then '◆' else '▲')
    && (dir == D && i >= 1 ==> out[y][x] == if i == 1 && out0[y][x] == '▲' then '◆' else '▼')
  }

  /** One step of the loop in `DrawExit`: the next cell along the exit, drawn
      when it fits. */
  lemma DrawnNext(f: Frame, out0: seq<seq<char>>, out: seq<seq<char>>, x: int, y: int, dir: Dir, i: int, look: Look,
                  a: Adjusted, free: bool)
    requires Drawn(f, out0, out, x, y, dir, i, look)
    requires a == Adjust(Cell(x, y, dir, i).0, Cell(x, y, dir, i).1, dir, out[y][x])
    requires Fits(f, a.x, a.y) && dir !in {U, D} ==> free == FreeAt(f, out0, Cell(x, y, dir, i + 1), dir, look.seen)
    ensures (a.x, a.y) == Cell(x, y, dir, i + 1)
    ensures Fits(f, a.x, a.y) ==> Drawn(f, out0, Plot(out, a.x, a.y, Pick(a, look, free)), x, y, dir, i + 1, look)
    ensures !Fits(f, a.x, a.y) ==> Drawn(f, out0, out, x, y, dir, i + 1, look)
  {
    CellNext(x, y, dir, i);
    AdjustDelta(Cell(x, y, dir, i).0, Cell(x, y, dir, i).1, dir, out[y][x]);
    if Fits(f, a.x, a.y) {
      DrawnPlot(f, out0, out, x, y, dir, i, look, a, free);
    } else {
      KeptSkip(f, out0, out, x, y, dir, i);
    }
  }

  lemma DrawnPlot(f: Frame, out0: seq<seq<char>>, out: seq<seq<char>>, x: int, y: int, dir: Dir, i: int, look: Look,
                  a: Adjusted, free: bool)
    requires Drawn(f, out0, out, x, y, dir, i, look)
    requires a == Adjust(Cell(x, y, dir, i).0, Cell(x, y, dir, i).1, dir, out[y][x])
    requires dir !in {U, D} ==> free == FreeAt(f, out0, Cell(x, y, dir, i + 1), dir, look.seen)
    requires (a.x, a.y) == Cell(x, y, dir, i + 1) && Fits(f, a.x, a.y)
    ensures Drawn(f, out0, Plot(out, a.x, a.y, Pick(a, look, free)), x, y, dir, i + 1, look)
  {
    {
      var c := Pick(a, look, free);
      GlyphsPrintable(Cell(x, y, dir, i).0, Cell(x, y, dir, i).1, dir, out[y][x]);
      KeptNext(f, out0, out, x, y, dir, i, c);
      if dir !in {U, D} {
        GlyphsFixed(Cell(x, y, dir, i).0, Cell(x, y, dir, i).1, dir, out[y][x]);
        LinesNext(f, out0, out, x, y, dir, i, look, c);
      } else {
        assert !OnLine(x, y, dir, 0, x, y);
        ArrowsNext(f, out0, out, x, y, dir, i, a, c);
      }
    }
  }

  lemma ArrowsNext(f: Frame, out0: seq<seq<char>>, out: seq<seq<char>>, x: int, y: int, dir: Dir, i: int, a: Adjusted, c: char)
    requires Shape(f, out) && Shape(f, out0) && Fits(f, x, y) && 0 <= i && dir in {U, D}
    requires Arrows(out0, out, x, y, dir, i)
    requires i == 0 ==> out[y][x] == out0[y][x]
    requires a == Adjust(x, y, dir, out[y][x]) && c in {a.regular, a.hidden, a.marked}
    ensures Shape(f, Plot(out, x, y, c)) && Arrows(out0, Plot(out, x, y, c), x, y, dir, i + 1)
  {
    PlotShape(f, out, x, y, c);
  }

  lemma KeptNext(f: Frame, out0: seq<seq<char>>, out: seq<seq<char>>, x: int, y: int, dir: Dir, i: int, c: char)
    requires Shape(f, out) && Shape(f, out0) && Kept(f, out0, out, x, y, dir, i) && c != '\n' && 0 <= i
    requires Fits(f, Cell(x, y, dir, i + 1).0, Cell(x, y, dir, i + 1).1)
    ensures Shape(f, Plot(out, Cell(x, y, dir, i + 1).0, Cell(x, y, dir, i + 1).1, c))
    ensures Kept(f, out0, Plot(out, Cell(x, y, dir, i + 1).0, Cell(x, y, dir, i + 1).1, c), x, y, dir, i + 1)
  {
    var (nx, ny) := Cell(x, y, dir, i + 1);
    var out2 := Plot(out, nx, ny, c);
    PlotShape(f, out, nx, ny, c);
    forall cx, cy | Fits(f, cx, cy) && !OnLine(x, y, dir, i + 1, cx, cy) ensures out2[cy][cx] == out0[cy][cx] {
      assert (cx, cy) != Cell(x, y, dir, i + 1);
      assert !OnLine(x, y, dir, i, cx, cy);
    }
  }

  /** `free` as the loop computes it at step `i + 1` of a compass exit reads
      the next cell as it was before the exit. */
  lemma FreeNext(f: Frame, out0: seq<seq<char>>, out: seq<seq<char>>, x: int, y: int, dir: Dir, i: int, look: Look, a: Adjusted, free: bool)
    requires Drawn(f, out0, out, x, y, dir, i, look) && dir !in {U, D}
    requires a == Adjust(Cell(x, y, dir, i).0, Cell(x, y, dir, i).1, dir, out[y][x]) && Fits(f, a.x, a.y)
    requires var nx := Adjust(a.x, a.y, dir, ' ');
      free == ((Fits(f, a.x, a.y) && (!Fits(f, nx.x, nx.y) || out[nx.y][nx.x] == ' ')) || look.seen)
    ensures free == FreeAt(f, out0, Cell(x, y, dir, i + 1), dir, look.seen)
  {
    CellNext(x, y, dir, i);
    AdjustDelta(Cell(x, y, dir, i).0, Cell(x, y, dir, i).1, dir, out[y][x]);
    var c := Cell(x, y, dir, i + 1);
    AdjustDelta(c.0, c.1, dir, ' ');
    CellNext(x, y, dir, i + 1);
    NextKept(f, out0, out, x, y, dir, i);
  }

  /** The cell a compass exit reaches at step `i + 2` was not drawn by the
      first `i` steps: it holds what it held before the exit. */
  lemma NextKept(f: Frame, out0: seq<seq<char>>, out: seq<seq<char>>, x: int, y: int, dir: Dir, i: int)
    requires Shape(f, out) && Shape(f, out0) && Kept(f, out0, out, x, y, dir, i) && dir !in {U, D}
    ensures var (cx, cy) := Cell(x, y, dir, i + 2);
      Fits(f, cx, cy) ==> out[cy][cx] == out0[cy][cx]
  {
    var (cx, cy) := Cell(x, y, dir, i + 2);
    if Fits(f, cx, cy) {
      forall k | 1 <= k <= i ensures Cell(x, y, dir, k) != (cx, cy) {
        CellInjective(x, y, dir, k, i + 2);
      }
      assert !OnLine(x, y, dir, i, cx, cy);
    }
  }

  lemma KeptSkip(f: Frame, out0: seq<seq<char>>, out: seq<seq<char>>, x: int, y: int, dir: Dir, i: int)
    requires Shape(f, out) && Shape(f, out0) && Kept(f, out0, out, x, y, dir, i)
    ensures Kept(f, out0, out, x, y, dir, i + 1)
  {
    forall cx, cy | Fits(f, cx, cy) && !OnLine(x, y, dir, i + 1, cx, cy) ensures out[cy][cx] == out0[cy][cx] {
      assert !OnLine(x, y, dir, i, cx, cy);
    }
  }

  lemma LinesNext(f: Frame, out0: seq<seq<char>>, out: seq<seq<char>>, x: int, y: int, dir: Dir, i: int, look: Look, c: char)
    requires Shape(f, out) && Shape(f, out0) && Lines(f, out0, out, x, y, dir, i, look) && dir !in {U, D} && c != '\n'
    requires c == Pick(Adjust(0, 0, dir, ' '), look, FreeAt(f, out0, Cell(x, y, dir, i + 1), dir, look.seen))
    requires Fits(f, Cell(x, y, dir, i + 1).0, Cell(x, y, dir, i + 1).1) && 0 <= i
    ensures Shape(f, Plot(out, Cell(x, y, dir, i + 1).0, Cell(x, y, dir, i + 1).1, c))
    ensures Lines(f, out0, Plot(out, Cell(x, y, dir, i + 1).0, Cell(x, y, dir, i + 1).1, c), x, y, dir, i + 1, look)
  {
    var (nx, ny) := Cell(x, y, dir, i + 1);
    var out2 := Plot(out, nx, ny, c);
    PlotShape(f, out, nx, ny, c);
    forall k | 1 <= k <= i + 1 && Fits(f, Cell(x, y, dir, k).0, Cell(x, y, dir, k).1)
      ensures out2[Cell(x, y, dir, k).1][Cell(x, y, dir, k).0] == Pick(Adjust(0, 0, dir, ' '), look, FreeAt(f, out0, Cell(x, y, dir, k), dir, look.seen))
    {
      if k <= i {
        CellInjective(x, y, dir, k, i + 1);
      }
    }
  }

  // ---------------------------------------------------------------------------
  // the layout

  /** A queued room and the cell it is to be drawn at. */
  datatype Entry = Entry(x: int, y: int, room: string)

  /** The state of the layout loop: the grid, the queue, `visited`, and
      `coordCache` in the order the rooms were placed. */
  datatype Layout = Layout(out: seq<seq<char>>, q: seq<Entry>, visited: set<string>, cache: AList<(int, int)>)

  /** `centerX, centerY = (columns-1)//2, (lines-1)//2`: Python's `//` is
      floor division, which Dafny's `/` agrees with for a positive divisor. */
  function CX(f: Frame): int { (f.columns - 1) / 2 }
  function CY(f: Frame): int { (f.lines - 1) / 2 }

  /** `exists`: the target has a data bag. */
  predicate Present(m: MapStore, t: string)
  {
    GetRoomData(m, t) != []
  }

  /** `sameAreas`: every area is drawn, or the target's zone is the current
      room's (a target without a zone has `nextArea = None`). */
  predicate SameAreas(f: Frame, t: string)
  {
    f.drawAreas || Get(GetRoomData(f.m, t), "zone") == Some(f.area)
  }

  /** The `j`-th exit of `v` is one `draw` may enqueue `t` through: a drawn
      label other than `u`/`d` leading to `t`. */
  predicate Follows(m: MapStore, v: string, j: int, t: string)
    requires 0 <= j < |GetRoomExits(m, v)|
  {
    var d := GetRoomExits(m, v)[j].0;
    Drawable(d) && d != "u" && d != "d" && ExitAt(GetRoomExits(m, v), j).tgt == t
  }

  ghost predicate Feeds(m: MapStore, v: string, t: string)
  {
    exists j :: 0 <= j < |GetRoomExits(m, v)| && Follows(m, v, j, t)
  }

  /** The rooms placed so far: each once, each on the grid, the current room
      first at the centre, and every later one present, in the drawn areas
      and reached through an exit of a room placed before it. */
  ghost predicate Placed(f: Frame, cache: AList<(int, int)>)
  {
    && Distinct(cache)
    && AllFit(f, cache)
    && (|cache| > 0 ==> cache[0] == (f.current, (CX(f), CY(f))))
    && Chained(f, cache)
  }

  /** No room is placed twice. */
  predicate Distinct(cache: AList<(int, int)>)
  {
    forall i, k :: 0 <= i < k < |cache| ==> cache[i].0 != cache[k].0
  }

  /** Every placed room is on the grid. */
  predicate AllFit(f: Frame, cache: AList<(int, int)>)
  {
    forall i :: 0 <= i < |cache| ==> Fits(f, cache[i].1.0, cache[i].1.1)
  }

  /** Every room placed after the first is present, in the drawn areas, and
      reached through an exit of a room placed before it. */
  ghost predicate Chained(f: Frame, cache: AList<(int, int)>)
  {
    forall i :: 0 < i < |cache| ==>
      Present(f.m, cache[i].0) && SameAreas(f, cache[i].0) && exists k :: 0 <= k < i && Feeds(f.m, cache[k].0, cache[i].0)
  }

  /** What every turn keeps: the grid's shape, the placed rooms, `visited` as
      the keys of `coordCache`, and queue entries on the grid naming stored
      rooms. */
  ghost predicate Core(f: Frame, st: Layout)
  {
    && Shape(f, st.out)
    && Placed(f, st.cache)
    && st.visited == Keys(st.cache)
    && st.visited <= RoomIds(f.m)
    && (forall i :: 0 <= i < |st.q| ==> Fits(f, st.q[i].x, st.q[i].y) && Known(f.m, st.q[i].room))
  }

  /** Every queued room is present, in the drawn areas, and reached through
      an exit of a placed room. */
  ghost predicate Fed(f: Frame, st: Layout)
  {
    forall i :: 0 <= i < |st.q| ==>
      Present(f.m, st.q[i].room) && SameAreas(f, st.q[i].room) && exists k :: 0 <= k < |st.cache| && Feeds(f.m, st.cache[k].0, st.q[i].room)
  }

  /** The invariant of the outer loop: before the first room is placed the
      queue holds the current room at the centre. */
  ghost predicate Laying(f: Frame, st: Layout)
  {
    && Core(f, st)
    && (|st.cache| == 0 ==> st.q == [Entry(CX(f), CY(f), f.current)])
    && (|st.cache| > 0 ==> Fed(f, st))
  }

  /** The invariant of the loop over the exits of `room`, placed last at
      `(x, y)`. */
  ghost predicate Placing(f: Frame, st: Layout, room: string, x: int, y: int, j: int)
  {
    && Core(f, st)
    && Fed(f, st)
    && |st.cache| > 0 && st.cache[|st.cache| - 1] == (room, (x, y))
    && 0 <= j <= |GetRoomExits(f.m, room)|
  }

  /** A room with a drawn label that names no direction: `adjustExit`
      answers None and unpacking it raises TypeError. */
  ghost predicate Faulty(m: MapStore, v: string)
  {
    exists j :: 0 <= j < |GetRoomExits(m, v)| && Drawable(GetRoomExits(m, v)[j].0) && Resolve(GetRoomExits(m, v)[j].0).None?
  }

  /** Among the first `j` exits of `v`, every drawn label whose exit has a
      length of at least 0 (so that `adjustExit` is called on it) names a
      direction. */
  ghost predicate Resolved(f: Frame, v: string, j: int)
  {
    forall i :: 0 <= i < j && i < |GetRoomExits(f.m, v)| && Drawable(GetRoomExits(f.m, v)[i].0) && ExitLenFor(f, v, i) >= 0 ==>
      Resolve(GetRoomExits(f.m, v)[i].0).Some?
  }

  /** Every exit of every placed room passed `Resolved`: no TypeError so far. */
  ghost predicate AllResolved(f: Frame, cache: AList<(int, int)>)
  {
    forall i :: 0 <= i < |cache| ==> Resolved(f, cache[i].0, |GetRoomExits(f.m, cache[i].0)|)
  }

  /** How the exit to `t`, whose target cell is `(tx, ty)`, is drawn: marked
      when `t` was placed at another cell, seen when it was placed at all,
      and whether `t` is present and in the drawn areas. */
  function LookFor(f: Frame, st: Layout, t: string, tx: int, ty: int): Look
  {
    Look(t in st.visited && Get(st.cache, t) != Some((tx, ty)), t in st.visited, Present(f.m, t), SameAreas(f, t))
  }

  /** `exitLen`: 1 unless the target is present and in the drawn areas, then
      `getExitLen(room, d)` (a missing `len` reads as 1). */
  function ExitLenFor(f: Frame, room: string, j: int): (n: int)
    requires 0 <= j < |GetRoomExits(f.m, room)|
    ensures var t := ExitAt(GetRoomExits(f.m, room), j).tgt;
      !(Present(f.m, t) && SameAreas(f, t)) ==> n == 1
  {
    var exits := GetRoomExits(f.m, room);
    var t := ExitAt(exits, j).tgt;
    if !Present(f.m, t) || !SameAreas(f, t) then 1
    else ExitEdit.LenOf(GetExitData(f.m, room, exits[j].0).value)
  }

  /** The target cell of the exit: `exitLen + 1` steps along it. */
  function Target(f: Frame, room: string, x: int, y: int, j: int): Option<(int, int)>
    requires 0 <= j < |GetRoomExits(f.m, room)|
  {
    Travel(x, y, GetRoomExits(f.m, room)[j].0, ExitLenFor(f, room, j) + 1)
  }

  /** The `visit` test after the exit is drawn on `out`. */
  predicate Visit(f: Frame, room: string, x: int, y: int, j: int, visited: set<string>, out: seq<seq<char>>)
    requires 0 <= j < |GetRoomExits(f.m, room)|
  {
    var d := GetRoomExits(f.m, room)[j].0;
    var t := ExitAt(GetRoomExits(f.m, room), j).tgt;
    && Present(f.m, t) && t !in visited && SameAreas(f, t) && d != "u" && d != "d"
    && Target(f, room, x, y, j).Some?
    && Fits(f, Target(f, room, x, y, j).value.0, Target(f, room, x, y, j).value.1)
    && 0 <= Target(f, room, x, y, j).value.1 < |out| && 0 <= Target(f, room, x, y, j).value.0 < |out[Target(f, room, x, y, j).value.1]|
    && out[Target(f, room, x, y, j).value.1][Target(f, room, x, y, j).value.0] == ' '
  }

  /** One exit of the room being placed.  A label `draw` does not draw changes
      nothing.  A drawn label that names no direction raises TypeError when
      the exit has a length of at least 0.  Otherwise the exit is drawn and
      its target is enqueued at the target cell exactly when the `visit` test
      passes on the grid after drawing; `visited` and `coordCache` do not
      change. */
  method ExitStep(f: Frame, st: Layout, room: string, x: int, y: int, j: int) returns (st': Layout, fault: Option<Fault>)
    requires Placing(f, st, room, x, y, j) && j < |GetRoomExits(f.m, room)|
    ensures !Drawable(GetRoomExits(f.m, room)[j].0) ==> st' == st && fault.None?
    ensures fault.Some? <==> Drawable(GetRoomExits(f.m, room)[j].0) && Target(f, room, x, y, j).None?
    ensures fault.Some? ==> fault.value == TypeError && Resolve(GetRoomExits(f.m, room)[j].0).None? && ExitLenFor(f, room, j) >= 0
    ensures fault.None? && Drawable(GetRoomExits(f.m, room)[j].0) && ExitLenFor(f, room, j) >= 0 ==> Resolve(GetRoomExits(f.m, room)[j].0).Some?
    ensures fault.None? && Drawable(GetRoomExits(f.m, room)[j].0) && ExitLenFor(f, room, j) <= 0 ==> st'.out == st.out
    ensures fault.None? && Drawable(GetRoomExits(f.m, room)[j].0) && ExitLenFor(f, room, j) >= 1 && Resolve(GetRoomExits(f.m, room)[j].0).Some? ==>
      Drawn(f, st.out, st'.out, x, y, Resolve(GetRoomExits(f.m, room)[j].0).value, ExitLenFor(f, room, j),
        LookFor(f, st, ExitAt(GetRoomExits(f.m, room), j).tgt, Target(f, room, x, y, j).value.0, Target(f, room, x, y, j).value.1))
    ensures fault.None? ==> Placing(f, st', room, x, y, j + 1)
    ensures fault.None? ==> st'.visited == st.visited && st'.cache == st.cache
    ensures fault.None? && Drawable(GetRoomExits(f.m, room)[j].0) ==>
      if Visit(f, room, x, y, j, st.visited, st'.out)
      then st'.q == st.q + [Entry(Target(f, room, x, y, j).value.0, Target(f, room, x, y, j).value.1, ExitAt(GetRoomExits(f.m, room), j).tgt)]
      else st'.q == st.q
  {
    if !Drawable(GetRoomExits(f.m, room)[j].0) {
      SkipExit(f, st, room, x, y, j);
      return st, None;
    }
    var target := Target(f, room, x, y, j);
    if target.None? {
      NoTarget(x, y, GetRoomExits(f.m, room)[j].0, ExitLenFor(f, room, j));
      return st, Some(TypeError);
    }
    TravelLine(x, y, GetRoomExits(f.m, room)[j].0, ExitLenFor(f, room, j) + 1);
    st' := DrawAt(f, st, room, x, y, j, target.value.0, target.value.1);
    fault := None;
  }

  /** An exit with no target cell names no direction. */
  lemma NoTarget(x: int, y: int, d: string, n: int)
    requires Travel(x, y, d, n + 1).None?
    ensures Resolve(d).None? && n >= 0
  {
    TravelLine(x, y, d, n + 1);
  }

  /** A drawn label with a target cell: the exit is drawn and the target is
      enqueued there when the `visit` test passes. */
  method DrawAt(f: Frame, st: Layout, room: string, x: int, y: int, j: int, tx: int, ty: int) returns (st': Layout)
    requires Placing(f, st, room, x, y, j) && j < |GetRoomExits(f.m, room)| && Drawable(GetRoomExits(f.m, room)[j].0)
    requires Target(f, room, x, y, j) == Some((tx, ty))
    ensures Placing(f, st', room, x, y, j + 1)
    ensures st'.visited == st.visited && st'.cache == st.cache
    ensures ExitLenFor(f, room, j) <= 0 ==> st'.out == st.out
    ensures ExitLenFor(f, room, j) >= 1 && Resolve(GetRoomExits(f.m, room)[j].0).Some? ==>
      Drawn(f, st.out, st'.out, x, y, Resolve(GetRoomExits(f.m, room)[j].0).value, ExitLenFor(f, room, j),
        LookFor(f, st, ExitAt(GetRoomExits(f.m, room), j).tgt, tx, ty))
    ensures if Visit(f, room, x, y, j, st.visited, st'.out)
      then st'.q == st.q + [Entry(tx, ty, ExitAt(GetRoomExits(f.m, room), j).tgt)]
      else st'.q == st.q
  {
    var exits := GetRoomExits(f.m, room);
    var d := exits[j].0;
    var tgt := ExitAt(exits, j).tgt;
    var present := Present(f.m, tgt);
    var same := SameAreas(f, tgt);
    var n := ExitLenFor(f, room, j);
    TravelLine(x, y, d, n + 1);
    HasKeys(st.cache, tgt);
    var mark := tgt in st.visited && Get(st.cache, tgt).value != (tx, ty);
    PlacedFits(f, st, room, x, y, j);
    var out := DrawExit(f, st.out, x, y, d, n, Look(mark, tgt in st.visited, present, same));
    var visit := present && tgt !in st.visited && same && d != "u" && d != "d" && Fits(f, tx, ty) && out[ty][tx] == ' ';
    VisitAt(f, room, x, y, j, st.visited, out, tx, ty);
    if visit {
      st' := Layout(out, st.q + [Entry(tx, ty, tgt)], st.visited, st.cache);
      Enqueue(f, st, out, room, x, y, j, tx, ty);
    } else {
      st' := st.(out := out);
      Redrawn(f, st, out, room, x, y, j);
    }
  }

  /** The `visit` test at a known target cell. */
  lemma VisitAt(f: Frame, room: string, x: int, y: int, j: int, visited: set<string>, out: seq<seq<char>>, tx: int, ty: int)
    requires 0 <= j < |GetRoomExits(f.m, room)| && Shape(f, out)
    requires Target(f, room, x, y, j) == Some((tx, ty))
    ensures var d := GetRoomExits(f.m, room)[j].0; var t := ExitAt(GetRoomExits(f.m, room), j).tgt;
      Visit(f, room, x, y, j, visited, out) <==>
        Present(f.m, t) && t !in visited && SameAreas(f, t) && d != "u" && d != "d" && Fits(f, tx, ty) && out[ty][tx] == ' '
  {
  }

  lemma PlacedFits(f: Frame, st: Layout, room: string, x: int, y: int, j: int)
    requires Placing(f, st, room, x, y, j)
    ensures Fits(f, x, y) && Known(f.m, room)
  {
    var i := |st.cache| - 1;
    assert st.cache[i].0 in Keys(st.cache);
  }

  lemma SkipExit(f: Frame, st: Layout, room: string, x: int, y: int, j: int)
    requires Placing(f, st, room, x, y, j) && j < |GetRoomExits(f.m, room)|
    ensures Placing(f, st, room, x, y, j + 1)
  {
  }

  lemma Redrawn(f: Frame, st: Layout, out: seq<seq<char>>, room: string, x: int, y: int, j: int)
    requires Placing(f, st, room, x, y, j) && j < |GetRoomExits(f.m, room)| && Shape(f, out)
    ensures Placing(f, st.(out := out), room, x, y, j + 1)
  {
    var st' := st.(out := out);
    assert Fed(f, st') by {
      forall i | 0 <= i < |st'.q| ensures exists k :: 0 <= k < |st'.cache| && Feeds(f.m, st'.cache[k].0, st'.q[i].room) {
        var k :| 0 <= k < |st.cache| && Feeds(f.m, st.cache[k].0, st.q[i].room);
      }
    }
  }

  lemma Enqueue(f: Frame, st: Layout, out: seq<seq<char>>, room: string, x: int, y: int, j: int, tx: int, ty: int)
    requires Placing(f, st, room, x, y, j) && j < |GetRoomExits(f.m, room)| && Shape(f, out)
    requires var d := GetRoomExits(f.m, room)[j].0; var t := ExitAt(GetRoomExits(f.m, room), j).tgt;
      Drawable(d) && d != "u" && d != "d" && Present(f.m, t) && SameAreas(f, t) && Fits(f, tx, ty)
    ensures Placing(f, Layout(out, st.q + [Entry(tx, ty, ExitAt(GetRoomExits(f.m, room), j).tgt)], st.visited, st.cache), room, x, y, j + 1)
  {
    var t := ExitAt(GetRoomExits(f.m, room), j).tgt;
    var last := |st.cache| - 1;
    assert Follows(f.m, room, j, t);
    assert Feeds(f.m, st.cache[last].0, t);
    var e := Entry(tx, ty, t);
    CoreAppend(f, st, out, e);
    FedAppend(f, st, out, e, last);
  }

  lemma CoreAppend(f: Frame, st: Layout, out: seq<seq<char>>, e: Entry)
    requires Core(f, st) && Shape(f, out) && Fits(f, e.x, e.y) && Present(f.m, e.room)
    ensures Core(f, Layout(out, st.q + [e], st.visited, st.cache))
  {
    var st' := Layout(out, st.q + [e], st.visited, st.cache);
    forall i | 0 <= i < |st'.q| ensures Fits(f, st'.q[i].x, st'.q[i].y) && Known(f.m, st'.q[i].room) {
      if i < |st.q| {
        assert st'.q[i] == st.q[i];
      }
    }
  }

  lemma FedAppend(f: Frame, st: Layout, out: seq<seq<char>>, e: Entry, k: int)
    requires Fed(f, st) && Present(f.m, e.room) && SameAreas(f, e.room)
    requires 0 <= k < |st.cache| && Feeds(f.m, st.cache[k].0, e.room)
    ensures Fed(f, Layout(out, st.q + [e], st.visited, st.cache))
  {
    var st' := Layout(out, st.q + [e], st.visited, st.cache);
    forall i | 0 <= i < |st'.q|
      ensures Present(f.m, st'.q[i].room) && SameAreas(f, st'.q[i].room)
        && exists k :: 0 <= k < |st'.cache| && Feeds(f.m, st'.cache[k].0, st'.q[i].room)
    {
      if i < |st.q| {
        assert st'.q[i] == st.q[i];
      }
    }
  }

  // ---------------------------------------------------------------------------
  // one turn of the layout loop

  /** One turn: pop the head of the queue; a room already visited is
      dropped, otherwise it is drawn as █ at its cell, recorded in
      `coordCache`, and its exits are drawn in order.  A TypeError names a
      placed room with a drawn label that resolves to no direction. */
  method Turn(f: Frame, st: Layout) returns (st': Layout, fault: Option<Fault>)
    requires |st.q| > 0 && Laying(f, st) && AllResolved(f, st.cache)
    ensures fault.Some? ==> fault.value == TypeError && exists i :: 0 <= i < |st'.cache| && Faulty(f.m, st'.cache[i].0)
    ensures fault.Some? <==> !AllResolved(f, st'.cache)
    ensures fault.Some? ==> Placed(f, st'.cache)
    ensures fault.None? ==> Laying(f, st')
    ensures st.q[0].room in st.visited ==> fault.None? && st' == st.(q := st.q[1..])
    ensures st.q[0].room !in st.visited ==>
      && st'.visited == st.visited + {st.q[0].room}
      && st'.cache == st.cache + [(st.q[0].room, (st.q[0].x, st.q[0].y))]
    ensures fault.None? ==>
      || |RoomIds(f.m) - st'.visited| < |RoomIds(f.m) - st.visited|
      || (st'.visited == st.visited && |st'.q| < |st.q|)
  {
    var e := st.q[0];
    if e.room in st.visited {
      st' := st.(q := st.q[1..]);
      Drop(f, st);
      return st', None;
    }
    var placed := Layout(Plot(st.out, e.x, e.y, '█'), st.q[1..], st.visited + {e.room}, st.cache + [(e.room, (e.x, e.y))]);
    Place(f, st);
    st', fault := PlaceExits(f, placed, e.room, e.x, e.y);
    ResolvedSnoc(f, st.cache, e.room, (e.x, e.y));
    if fault.None? {
      ExitsDone(f, st', e.room, e.x, e.y);
      FewerLeft(RoomIds(f.m), st.visited, e.room);
    }
  }

  /** The loop over the exits of the room just placed. */
  method PlaceExits(f: Frame, st: Layout, room: string, x: int, y: int) returns (st': Layout, fault: Option<Fault>)
    requires Placing(f, st, room, x, y, 0)
    ensures fault.Some? ==> fault.value == TypeError && exists i :: 0 <= i < |st'.cache| && Faulty(f.m, st'.cache[i].0)
    ensures fault.Some? <==> !Resolved(f, room, |GetRoomExits(f.m, room)|)
    ensures fault.None? ==> Placing(f, st', room, x, y, |GetRoomExits(f.m, room)|)
    ensures st'.visited == st.visited && st'.cache == st.cache
  {
    var exits := GetRoomExits(f.m, room);
    st', fault := st, None;
    var j := 0;
    while j < |exits|
      invariant Placing(f, st', room, x, y, j)
      invariant st'.visited == st.visited && st'.cache == st.cache && fault.None?
      invariant Resolved(f, room, j)
    {
      var next;
      next, fault := ExitStep(f, st', room, x, y, j);
      if fault.Some? {
        FaultyLast(f.m, st'.cache, room, j);
        return;
      }
      ResolvedNext(f, room, j);
      st' := next;
      j := j + 1;
    }
  }

  lemma ResolvedNext(f: Frame, room: string, j: int)
    requires Resolved(f, room, j) && 0 <= j < |GetRoomExits(f.m, room)|
    requires Drawable(GetRoomExits(f.m, room)[j].0) && ExitLenFor(f, room, j) >= 0 ==> Resolve(GetRoomExits(f.m, room)[j].0).Some?
    ensures Resolved(f, room, j + 1)
  {
  }

  lemma ResolvedSnoc(f: Frame, cache: AList<(int, int)>, room: string, at: (int, int))
    requires AllResolved(f, cache)
    ensures AllResolved(f, cache + [(room, at)]) <==> Resolved(f, room, |GetRoomExits(f.m, room)|)
  {
    var c := cache + [(room, at)];
    assert c[|cache|].0 == room;
    if Resolved(f, room, |GetRoomExits(f.m, room)|) {
      forall i | 0 <= i < |c| ensures Resolved(f, c[i].0, |GetRoomExits(f.m, c[i].0)|) {
        if i < |cache| {
          assert c[i] == cache[i];
        }
      }
    }
  }

  lemma FaultyLast(m: MapStore, cache: AList<(int, int)>, room: string, j: int)
    requires |cache| > 0 && cache[|cache| - 1].0 == room && 0 <= j < |GetRoomExits(m, room)|
    requires Drawable(GetRoomExits(m, room)[j].0) && Resolve(GetRoomExits(m, room)[j].0).None?
    ensures exists i :: 0 <= i < |cache| && Faulty(m, cache[i].0)
  {
    assert Faulty(m, cache[|cache| - 1].0);
  }

  /** A room popped a second time is dropped. */
  lemma Drop(f: Frame, st: Layout)
    requires |st.q| > 0 && Laying(f, st) && st.q[0].room in st.visited
    ensures Laying(f, st.(q := st.q[1..]))
  {
    assert |st.cache| > 0;
    CoreTail(f, st, st.out, st.visited, st.cache);
    FedTail(f, st, st.out, st.visited, st.cache);
  }

  /** The queue without its head, on a grid of the same shape and with the
      cache grown at the end. */
  lemma CoreTail(f: Frame, st: Layout, out: seq<seq<char>>, visited: set<string>, cache: AList<(int, int)>)
    requires |st.q| > 0 && Shape(f, out) && Placed(f, cache) && visited == Keys(cache) && visited <= RoomIds(f.m)
    requires forall i :: 0 <= i < |st.q| ==> Fits(f, st.q[i].x, st.q[i].y) && Known(f.m, st.q[i].room)
    ensures Core(f, Layout(out, st.q[1..], visited, cache))
  {
    assert forall i :: 0 <= i < |st.q| - 1 ==> st.q[1..][i] == st.q[i + 1];
  }

  lemma FedTail(f: Frame, st: Layout, out: seq<seq<char>>, visited: set<string>, cache: AList<(int, int)>)
    requires |st.q| > 0 && Fed(f, st) && |st.cache| <= |cache| && cache[..|st.cache|] == st.cache
    ensures Fed(f, Layout(out, st.q[1..], visited, cache))
  {
    var st' := Layout(out, st.q[1..], visited, cache);
    forall i | 0 <= i < |st'.q|
      ensures Present(f.m, st'.q[i].room) && SameAreas(f, st'.q[i].room)
        && exists k :: 0 <= k < |st'.cache| && Feeds(f.m, st'.cache[k].0, st'.q[i].room)
    {
      assert st'.q[i] == st.q[i + 1];
      var k :| 0 <= k < |st.cache| && Feeds(f.m, st.cache[k].0, st.q[i + 1].room);
      assert cache[k] == st.cache[k];
    }
  }

  /** Placing the head of the queue starts the loop over its exits. */
  lemma Place(f: Frame, st: Layout)
    requires |st.q| > 0 && Laying(f, st) && st.q[0].room !in st.visited
    ensures var e := st.q[0];
      Placing(f, Layout(Plot(st.out, e.x, e.y, '█'), st.q[1..], st.visited + {e.room}, st.cache + [(e.room, (e.x, e.y))]),
              e.room, e.x, e.y, 0)
    ensures st.q[0].room in RoomIds(f.m)
  {
    if |st.cache| == 0 {
      PlaceStart(f, st);
    } else {
      PlaceNext(f, st);
    }
  }

  lemma PlaceStart(f: Frame, st: Layout)
    requires |st.q| > 0 && Laying(f, st) && st.q[0].room !in st.visited && |st.cache| == 0
    ensures var e := st.q[0];
      Placing(f, Layout(Plot(st.out, e.x, e.y, '█'), st.q[1..], st.visited + {e.room}, st.cache + [(e.room, (e.x, e.y))]),
              e.room, e.x, e.y, 0)
    ensures st.q[0].room in RoomIds(f.m)
  {
    var e := st.q[0];
    HasKeys(f.m.rooms, e.room);
    PlotShape(f, st.out, e.x, e.y, '█');
    KeysSnoc(st.cache, e.room, (e.x, e.y));
    PlacedFirst(f, e);
    assert st.q[1..] == [];
    CoreTail(f, st, Plot(st.out, e.x, e.y, '█'), st.visited + {e.room}, st.cache + [(e.room, (e.x, e.y))]);
  }

  lemma PlaceNext(f: Frame, st: Layout)
    requires |st.q| > 0 && Laying(f, st) && st.q[0].room !in st.visited && |st.cache| > 0
    ensures var e := st.q[0];
      Placing(f, Layout(Plot(st.out, e.x, e.y, '█'), st.q[1..], st.visited + {e.room}, st.cache + [(e.room, (e.x, e.y))]),
              e.room, e.x, e.y, 0)
    ensures st.q[0].room in RoomIds(f.m)
  {
    var e := st.q[0];
    var cache := st.cache + [(e.room, (e.x, e.y))];
    var out := Plot(st.out, e.x, e.y, '█');
    HasKeys(f.m.rooms, e.room);
    PlotShape(f, st.out, e.x, e.y, '█');
    HasKeys(st.cache, e.room);
    KeysSnoc(st.cache, e.room, (e.x, e.y));
    var k :| 0 <= k < |st.cache| && Feeds(f.m, st.cache[k].0, e.room);
    PlacedSnoc(f, st.cache, e, k);
    FedTail(f, st, out, st.visited + {e.room}, cache);
    CoreTail(f, st, out, st.visited + {e.room}, cache);
  }

  /** The current room placed first, at the centre. */
  lemma PlacedFirst(f: Frame, e: Entry)
    requires e == Entry(CX(f), CY(f), f.current) && Fits(f, e.x, e.y)
    ensures Placed(f, [(e.room, (e.x, e.y))])
  {
  }

  /** A room reached from a placed one, appended to the coordinate cache. */
  lemma PlacedSnoc(f: Frame, cache: AList<(int, int)>, e: Entry, k: int)
    requires Placed(f, cache) && !Has(cache, e.room) && Fits(f, e.x, e.y)
    requires Present(f.m, e.room) && SameAreas(f, e.room)
    requires 0 <= k < |cache| && Feeds(f.m, cache[k].0, e.room)
    ensures Placed(f, cache + [(e.room, (e.x, e.y))])
  {
    HasKeys(cache, e.room);
    DistinctSnoc(cache, e.room, (e.x, e.y));
    AllFitSnoc(f, cache, (e.room, (e.x, e.y)));
    ChainedSnoc(f, cache, e.room, (e.x, e.y), k);
  }

  lemma DistinctSnoc(cache: AList<(int, int)>, room: string, at: (int, int))
    requires Distinct(cache) && room !in Keys(cache)
    ensures Distinct(cache + [(room, at)])
  {
    var cache' := cache + [(room, at)];
    forall i, k' | 0 <= i < k' < |cache'| ensures cache'[i].0 != cache'[k'].0 {
      if k' == |cache| {
        assert cache'[i] == cache[i];
        assert cache[i].0 in Keys(cache);
      } else {
        assert cache'[i] == cache[i] && cache'[k'] == cache[k'];
      }
    }
  }

  lemma AllFitSnoc(f: Frame, cache: AList<(int, int)>, p: (string, (int, int)))
    requires AllFit(f, cache) && Fits(f, p.1.0, p.1.1)
    ensures AllFit(f, cache + [p])
  {
    var cache' := cache + [p];
    forall i | 0 <= i < |cache'| ensures Fits(f, cache'[i].1.0, cache'[i].1.1) {
      if i < |cache| {
        assert cache'[i] == cache[i];
      }
    }
  }

  lemma ChainedSnoc(f: Frame, cache: AList<(int, int)>, room: string, at: (int, int), k: int)
    requires Chained(f, cache) && Present(f.m, room) && SameAreas(f, room)
    requires 0 <= k < |cache| && Feeds(f.m, cache[k].0, room)
    ensures Chained(f, cache + [(room, at)])
  {
    var cache' := cache + [(room, at)];
    var n := |cache|;
    forall i | 0 < i < |cache'|
      ensures Present(f.m, cache'[i].0) && SameAreas(f, cache'[i].0) && exists k' :: 0 <= k' < i && Feeds(f.m, cache'[k'].0, cache'[i].0)
    {
      if i < n {
        assert cache'[i] == cache[i];
        var k' :| 0 <= k' < i && Feeds(f.m, cache[k'].0, cache[i].0);
        assert cache'[k'] == cache[k'];
      } else {
        assert cache'[k] == cache[k];
      }
    }
  }

  /** After the last exit the state satisfies the outer invariant, and a new
      room was visited. */
  lemma ExitsDone(f: Frame, st: Layout, room: string, x: int, y: int)
    requires Placing(f, st, room, x, y, |GetRoomExits(f.m, room)|)
    ensures Laying(f, st)
  {
  }

  // ---------------------------------------------------------------------------
  // the finished picture

  /** The centre's final glyph: the hollow form of the ▼, ▲ or ◆ the current
      room's own `d`/`u` exits left there, ░ otherwise. */
  function StartGlyph(c: char): (s: char)
    ensures s in "░▿▵◇"
    ensures s == '░' <==> c !in "▼▲◆"
  {
    if c == '▼' then '▿'
    else if c == '▲' then '▵'
    else if c == '◆' then '◇'
    else '░'
  }

  /** The rows with something besides blanks (`l.strip(' ')` is not empty). */
  function Shown(grid: seq<seq<char>>): (r: seq<string>)
    ensures forall i :: 0 <= i < |r| ==> !IsBlank(r[i]) && r[i] in grid
  {
    if |grid| == 0 then []
    else (if IsBlank(grid[0]) then [] else [grid[0]]) + Shown(grid[1..])
  }

  /** The string `draw` returns: `outstr += l + '\n'` for each such row. */
  function Render(grid: seq<seq<char>>): string
  {
    if |grid| == 0 then ""
    else (if IsBlank(grid[0]) then "" else grid[0] + "\n") + Render(grid[1..])
  }

  /** The output is the shown rows joined by newlines, with a final newline. */
  lemma {:induction false} RenderJoin(grid: seq<seq<char>>)
    ensures Render(grid) == Join(Shown(grid) + [""], '\n')
    decreases |grid|
  {
    if |grid| > 0 {
      RenderJoin(grid[1..]);
      var rest := Shown(grid[1..]) + [""];
      if IsBlank(grid[0]) {
        assert Shown(grid) == Shown(grid[1..]);
      } else {
        JoinCons(grid[0], rest);
        assert Shown(grid) + [""] == [grid[0]] + rest;
      }
    }
  }

  lemma JoinCons(p: string, rest: seq<string>)
    requires |rest| >= 1
    ensures Join([p] + rest, '\n') == p + "\n" + Join(rest, '\n')
  {
    assert ([p] + rest)[1..] == rest;
  }

  /** Splitting the output on newlines gives back exactly the shown rows,
      followed by the empty piece after the last newline. */
  lemma RenderLines(grid: seq<seq<char>>)
    requires forall y :: 0 <= y < |grid| ==> '\n' !in grid[y]
    ensures Split(Render(grid), '\n') == Shown(grid) + [""]
  {
    RenderJoin(grid);
    var ps := Shown(grid) + [""];
    forall i | 0 <= i < |ps| ensures '\n' !in ps[i] {
      if i < |Shown(grid)| {
        assert ps[i] in grid;
      }
    }
    SplitJoin(ps, '\n');
  }

  /** A grid with a row that is not blank draws to a non-empty string ending
      in a newline. */
  lemma {:induction false} RenderNonEmpty(grid: seq<seq<char>>, y: int)
    requires 0 <= y < |grid| && !IsBlank(grid[y])
    ensures |Render(grid)| > 0 && Render(grid)[|Render(grid)| - 1] == '\n'
    decreases |grid|
  {
    if IsBlank(grid[0]) {
      RenderNonEmpty(grid[1..], y - 1);
    } else if |grid| > 1 && exists y' :: 1 <= y' < |grid| && !IsBlank(grid[y']) {
      var y' :| 1 <= y' < |grid| && !IsBlank(grid[y']);
      RenderNonEmpty(grid[1..], y' - 1);
    } else {
      RenderBlank(grid[1..]);
    }
  }

  lemma {:induction false} RenderBlank(grid: seq<seq<char>>)
    requires forall y :: 0 <= y < |grid| ==> IsBlank(grid[y])
    ensures Render(grid) == ""
    decreases |grid|
  {
    if |grid| > 0 {
      RenderBlank(grid[1..]);
    }
  }

  /** What a finished drawing satisfies: the grid's shape, the placements, the
      centre mark, and the output as the shown rows each ended by a newline,
      never empty. */
  ghost predicate Drew(f: Frame, grid: seq<seq<char>>, placed: AList<(int, int)>, text: string)
  {
    && Shape(f, grid) && Placed(f, placed) && |placed| >= 1
    && Fits(f, CX(f), CY(f)) && grid[CY(f)][CX(f)] in "░▿▵◇"
    && text == Render(grid) && |text| > 0
    && Split(text, '\n') == Shown(grid) + [""]
  }

  /** `draw()` with the terminal size and the current room as parameters.
      KeyError('zone') when the current room has no zone; IndexError when the
      grid has no cell for the start (`lines < 2` or `columns < 1`); TypeError
      when a placed room has a drawn label that names no direction.  On
      success the text is the drawing, `grid` the final grid and `placed` the
      coordinate cache. */
  method Draw(m: MapStore, current: string, columns: int, lines: int, drawAreas: bool)
    returns (r: Result<string, Fault>, grid: seq<seq<char>>, placed: AList<(int, int)>)
    ensures r == Err(KeyError("zone")) <==> !Has(GetRoomData(m, current), "zone")
    ensures r == Err(IndexError) <==> Has(GetRoomData(m, current), "zone") && (lines < 2 || columns < 1)
    ensures r.Err? ==> r.error == KeyError("zone") || r.error == IndexError || r.error == TypeError
    ensures r == Err(TypeError) ==> exists i :: 0 <= i < |placed| && Faulty(m, placed[i].0)
    ensures r == Err(TypeError) ==> (Has(GetRoomData(m, current), "zone")
      && Placed(Frame(m, current, columns, lines, drawAreas, Get(GetRoomData(m, current), "zone").value), placed)
      && !AllResolved(Frame(m, current, columns, lines, drawAreas, Get(GetRoomData(m, current), "zone").value), placed))
    ensures r.Ok? ==> (Has(GetRoomData(m, current), "zone")
      && Drew(Frame(m, current, columns, lines, drawAreas, Get(GetRoomData(m, current), "zone").value), grid, placed, r.value)
      && AllResolved(Frame(m, current, columns, lines, drawAreas, Get(GetRoomData(m, current), "zone").value), placed))
  {
    var data := GetRoomData(m, current);
    grid, placed := Blank(lines - 1, columns), [];
    if !Has(data, "zone") {
      return Err(KeyError("zone")), grid, placed;
    }
    if lines - 1 < 1 || columns < 1 {
      return Err(IndexError), grid, placed;
    }
    var f := Frame(m, current, columns, lines, drawAreas, Get(data, "zone").value);
    var st := Layout(grid, [Entry(CX(f), CY(f), current)], {}, []);
    Start(f);
    while |st.q| > 0
      invariant Laying(f, st) && AllResolved(f, st.cache)
      decreases |RoomIds(m) - st.visited|, |st.q|
    {
      var fault;
      st, fault := Turn(f, st);
      if fault.Some? {
        return Err(fault.value), st.out, st.cache;
      }
    }
    grid := Plot(st.out, CX(f), CY(f), StartGlyph(st.out[CY(f)][CX(f)]));
    placed := st.cache;
    Finished(f, st);
    r := Ok(Render(grid));
  }

  /** The state before the loop. */
  lemma Start(f: Frame)
    requires Has(GetRoomData(f.m, f.current), "zone") && f.lines >= 2 && f.columns >= 1
    ensures Laying(f, Layout(Blank(f.lines - 1, f.columns), [Entry(CX(f), CY(f), f.current)], {}, []))
  {
    HasKeys(GetRoomData(f.m, f.current), "zone");
  }

  /** The centre marked on the grid the loop left. */
  lemma Finished(f: Frame, st: Layout)
    requires Laying(f, st) && |st.q| == 0
    ensures Fits(f, CX(f), CY(f))
    ensures var grid := Plot(st.out, CX(f), CY(f), StartGlyph(st.out[CY(f)][CX(f)]));
      Drew(f, grid, st.cache, Render(grid))
  {
    assert |st.cache| > 0;
    var grid := Plot(st.out, CX(f), CY(f), StartGlyph(st.out[CY(f)][CX(f)]));
    PlotShape(f, st.out, CX(f), CY(f), StartGlyph(st.out[CY(f)][CX(f)]));
    assert !IsBlank(grid[CY(f)]) by {
      assert grid[CY(f)][CX(f)] != ' ';
    }
    RenderNonEmpty(grid, CY(f));
    RenderLines(grid);
  }
}

=== FILE: store.dfy ===
/** The room-graph store: the `Map` class of modules/mapper.py.

    A map is the three-field record `{data, bookmarks, rooms}`.  A room is
    `{name, data, exits}` and an exit is `{tgt, data?}`.  Every room id is a
    string key (the source converts with `str(num)`; callers here pass the
    converted key).  The free-form bags become association lists with the
    value types the source stores in them: room data holds the strings
    `zone` and `terrain`, exit data the integers `lock` and `len`. */
module Store {
  import opened Wrappers
  import opened AssocList
  import opened Strings

  type RoomData = AList<string>
  type ExitData = AList<int>

  datatype Exit = Exit(tgt: string, data: Option<ExitData>)

  /** `name` is None for a stub: a room known only as the target of an exit. */
  datatype Room = Room(name: Option<string>, data: RoomData, exits: AList<Exit>)

  datatype MapStore = MapStore(data: AList<string>, bookmarks: AList<string>, rooms: AList<Room>)

  /** `Map()` without a snapshot. */
  function Fresh(): (m: MapStore)
    ensures RoomIds(m) == {} && m.bookmarks == [] && m.data == []
  {
    MapStore([], [], [])
  }

  function RoomIds(m: MapStore): set<string>
  {
    Keys(m.rooms)
  }

  predicate Known(m: MapStore, num: string)
  {
    Has(m.rooms, num)
  }

  /** The stored room; only for ids that are known. */
  function RoomOf(m: MapStore, num: string): Room
    requires Known(m, num)
  {
    Get(m.rooms, num).value
  }

  // ---------------------------------------------------------------------------
  // rooms

  /** `addRoom`: stores a whole new entry under the id, replacing any old one in
      its old position; nothing else in the map changes. */
  function AddRoom(m: MapStore, num: string, name: Option<string>, data: RoomData, exits: AList<Exit>): (r: MapStore)
    ensures Known(r, num) && RoomOf(r, num) == Room(name, data, exits)
    ensures forall k :: k != num ==> Get(r.rooms, k) == Get(m.rooms, k)
    ensures RoomIds(r) == RoomIds(m) + {num}
    ensures Known(m, num) ==> |r.rooms| == |m.rooms| && forall j :: 0 <= j < |m.rooms| ==> r.rooms[j].0 == m.rooms[j].0
    ensures !Known(m, num) ==> r.rooms == m.rooms + [(num, Room(name, data, exits))]
    ensures r.bookmarks == m.bookmarks && r.data == m.data
  {
    var r := m.(rooms := Put(m.rooms, num, Room(name, data, exits)));
    assert RoomIds(r) == RoomIds(m) + {num} by {
      forall k ensures k in RoomIds(r) <==> k in RoomIds(m) + {num} {
        HasKeys(r.rooms, k);
        HasKeys(m.rooms, k);
        if k != num {
          assert Get(r.rooms, k) == Get(m.rooms, k);
        }
      }
    }
    r
  }

  /** `getRoomName`: the name of a known room (None for a stub); a KeyError for
      an id that was never stored. */
  function GetRoomName(m: MapStore, num: string): (r: Result<Option<string>, Fault>)
    ensures r.Ok? <==> Known(m, num)
    ensures r.Ok? ==> r.value == RoomOf(m, num).name
    ensures r.Err? ==> r.error == KeyError(num)
  {
    if Known(m, num) then Ok(RoomOf(m, num).name) else Err(KeyError(num))
  }

  /** `getRoomData`: the data bag of a known room, the empty bag otherwise. */
  function GetRoomData(m: MapStore, num: string): (r: RoomData)
    ensures Known(m, num) ==> r == RoomOf(m, num).data
    ensures !Known(m, num) ==> r == []
  {
    if Known(m, num) then RoomOf(m, num).data else []
  }

  /** `getRoomExits`: the exits of a known room, no exits otherwise. */
  function GetRoomExits(m: MapStore, num: string): (r: AList<Exit>)
    ensures Known(m, num) ==> r == RoomOf(m, num).exits
    ensures !Known(m, num) ==> r == []
  {
    if Known(m, num) then RoomOf(m, num).exits else []
  }

  // ---------------------------------------------------------------------------
  // exit data

  /** The bag `getExitData` hands out for an exit: `{}` when it has none. */
  function BagOf(e: Exit): ExitData
  {
    if e.data.Some? then e.data.value else []
  }

  /** `getExitData`: the data bag of one exit; a KeyError when the room or the
      exit label does not exist, and `{}` when the exit carries no bag. */
  function GetExitData(m: MapStore, num: string, direction: string): (r: Result<ExitData, Fault>)
    ensures r.Ok? <==> Known(m, num) && Has(RoomOf(m, num).exits, direction)
    ensures r.Ok? && Get(RoomOf(m, num).exits, direction).value.data.None? ==> r.value == []
    ensures r.Ok? && Get(RoomOf(m, num).exits, direction).value.data.Some? ==> r.value == Get(RoomOf(m, num).exits, direction).value.data.value
    ensures !Known(m, num) ==> r == Err(KeyError(num))
    ensures Known(m, num) && !Has(RoomOf(m, num).exits, direction) ==> r == Err(KeyError(direction))
  {
    if !Known(m, num) then Err(KeyError(num))
    else
      match Get(RoomOf(m, num).exits, direction)
      case None => Err(KeyError(direction))
      case Some(e) => Ok(BagOf(e))
  }

  /** `setExitData`: replaces the data bag of one exit, keeping its target and
      its position; a KeyError when the room or the exit label does not exist. */
  function SetExitData(m: MapStore, source: string, direction: string, data: ExitData): (r: Result<MapStore, Fault>)
    ensures r.Ok? <==> Known(m, source) && Has(RoomOf(m, source).exits, direction)
    ensures !Known(m, source) ==> r == Err(KeyError(source))
    ensures Known(m, source) && !Has(RoomOf(m, source).exits, direction) ==> r == Err(KeyError(direction))
    ensures r.Ok? ==> GetExitData(r.value, source, direction) == Ok(data)
    ensures r.Ok? ==> Get(RoomOf(r.value, source).exits, direction).value.tgt == Get(RoomOf(m, source).exits, direction).value.tgt
    ensures r.Ok? ==> forall d :: d != direction ==> Get(RoomOf(r.value, source).exits, d) == Get(RoomOf(m, source).exits, d)
    ensures r.Ok? ==> RoomOf(r.value, source).name == RoomOf(m, source).name && RoomOf(r.value, source).data == RoomOf(m, source).data
    ensures r.Ok? ==> forall k :: k != source ==> Get(r.value.rooms, k) == Get(m.rooms, k)
    ensures r.Ok? ==> RoomIds(r.value) == RoomIds(m) && r.value.bookmarks == m.bookmarks && r.value.data == m.data
  {
    if !Known(m, source) then Err(KeyError(source))
    else
      var room := RoomOf(m, source);
      match Get(room.exits, direction)
      case None => Err(KeyError(direction))
      case Some(e) =>
        var exits := Put(room.exits, direction, e.(data := Some(data)));
        Ok(AddRoom(m, source, room.name, room.data, exits))
  }

  // ---------------------------------------------------------------------------
  // lookup by name

  /** The name test of `findRoomByName`: `name.find(needle) != -1`. */
  predicate NameHas(name: string, needle: string)
  {
    Find(name, needle) != -1
  }

  /** A room the scan of `findRoomByName` passes over: it has a name, without
      the substring. */
  predicate Passed(room: Room, needle: string)
  {
    room.name.Some? && !NameHas(room.name.value, needle)
  }

  /** `findRoomByName`: scans the rooms in insertion order and returns the id of
      the first whose name contains the substring.  A stub reached before any
      hit has the name None, on which `.find` raises AttributeError. */
  function FindRoomByName(m: MapStore, needle: string): (r: Result<Option<string>, Fault>)
    ensures r == Ok(None) <==> forall i :: 0 <= i < |m.rooms| ==> Passed(m.rooms[i].1, needle)
    ensures r.Ok? && r.value.Some? ==>
      exists i :: 0 <= i < |m.rooms| && m.rooms[i].0 == r.value.value
        && m.rooms[i].1.name.Some? && NameHas(m.rooms[i].1.name.value, needle)
        && forall j :: 0 <= j < i ==> Passed(m.rooms[j].1, needle)
    ensures r.Err? ==> r.error == AttributeError
    ensures r.Err? ==>
      exists i :: 0 <= i < |m.rooms| && m.rooms[i].1.name.None?
        && forall j :: 0 <= j < i ==> Passed(m.rooms[j].1, needle)
  {
    ScanStops(m.rooms, needle);
    ScanNames(m.rooms, needle)
  }

  /** The loop of `findRoomByName`. */
  function ScanNames(rooms: AList<Room>, needle: string): Result<Option<string>, Fault>
  {
    if |rooms| == 0 then Ok(None)
    else if rooms[0].1.name.None? then Err(AttributeError)
    else if NameHas(rooms[0].1.name.value, needle) then Ok(Some(rooms[0].0))
    else ScanNames(rooms[1..], needle)
  }

  /** Where the scan stops: the first room it does not pass over, or the end. */
  function FirstStop(rooms: AList<Room>, needle: string): (k: nat)
    ensures k <= |rooms|
    ensures forall j :: 0 <= j < k ==> Passed(rooms[j].1, needle)
    ensures k < |rooms| ==> !Passed(rooms[k].1, needle)
  {
    if |rooms| == 0 || !Passed(rooms[0].1, needle) then 0
    else
      var k := 1 + FirstStop(rooms[1..], needle);
      assert forall j :: 0 < j < |rooms| ==> rooms[j] == rooms[1..][j - 1];
      k
  }

  /** The scan answers for the room where it stops. */
  lemma {:induction false} ScanStops(rooms: AList<Room>, needle: string)
    ensures var k := FirstStop(rooms, needle);
      ScanNames(rooms, needle) ==
        if k == |rooms| then Ok(None)
        else if rooms[k].1.name.None? then Err(AttributeError)
        else Ok(Some(rooms[k].0))
  {
    if |rooms| > 0 && Passed(rooms[0].1, needle) {
      ScanStops(rooms[1..], needle);
    }
  }

  // ---------------------------------------------------------------------------
  // bookmarks and map data

  /** `setBookmarks`: the bookmark table is replaced whole; rooms and map data
      are untouched. */
  function SetBookmarks(m: MapStore, bm: AList<string>): (r: MapStore)
    ensures r.bookmarks == bm && r.rooms == m.rooms && r.data == m.data
  {
    m.(bookmarks := bm)
  }

  /** `setMapData`: the map-wide bag is replaced whole; rooms and bookmarks are
      untouched. */
  function SetMapData(m: MapStore, data: AList<string>): (r: MapStore)
    ensures r.data == data && r.rooms == m.rooms && r.bookmarks == m.bookmarks
  {
    m.(data := data)
  }

  /** The exit `items()` yields at position `j`, read through its label.  The
      labels of a dict are unique, and then it is the exit stored at `j`. */
  function ExitAt(exits: AList<Exit>, j: int): (e: Exit)
    requires 0 <= j < |exits|
    ensures Has(exits, exits[j].0) && Get(exits, exits[j].0) == Some(e)
    ensures KeysUnique(exits) ==> e == exits[j].1
  {
    assert Has(exits, exits[j].0);
    Get(exits, exits[j].0).value
  }

  // ---------------------------------------------------------------------------
  // walks

  /** An exit whose data bag holds `lock`. */
  predicate Locked(e: Exit)
  {
    Has(BagOf(e), "lock")
  }

  /** Where a sequence of exit labels leads from `from`, following each label's
      `tgt`; None when a label is missing, or (with `openOnly`) names a locked
      exit. */
  function Walk(m: MapStore, from: string, labels: seq<string>, openOnly: bool): Option<string>
    decreases |labels|
  {
    if |labels| == 0 then Some(from)
    else
      match Get(GetRoomExits(m, from), labels[0])
      case None => None
      case Some(e) => if openOnly && Locked(e) then None else Walk(m, e.tgt, labels[1..], openOnly)
  }

  /** Extending a walk by one label steps from where the walk ended. */
  lemma {:induction false} WalkSnoc(m: MapStore, from: string, labels: seq<string>, l: string, openOnly: bool)
    requires Walk(m, from, labels, openOnly).Some?
    ensures Walk(m, from, labels + [l], openOnly) ==
      match Get(GetRoomExits(m, Walk(m, from, labels, openOnly).value), l)
      case None => None
      case Some(e) => if openOnly && Locked(e) then None else Some(e.tgt)
    decreases |labels|
  {
    if |labels| == 0 {
      assert labels + [l] == [l];
    } else {
      var e := Get(GetRoomExits(m, from), labels[0]).value;
      assert (labels + [l])[1..] == labels[1..] + [l];
      WalkSnoc(m, e.tgt, labels[1..], l, openOnly);
    }
  }

  /** A walk that ends somewhere passes through somewhere before its last
      step. */
  lemma {:induction false} WalkInit(m: MapStore, from: string, labels: seq<string>, l: string, openOnly: bool)
    requires Walk(m, from, labels + [l], openOnly).Some?
    ensures Walk(m, from, labels, openOnly).Some?
    decreases |labels|
  {
    if |labels| > 0 {
      assert (labels + [l])[0] == labels[0];
      assert (labels + [l])[1..] == labels[1..] + [l];
      var e := Get(GetRoomExits(m, from), labels[0]).value;
      WalkInit(m, e.tgt, labels[1..], l, openOnly);
    }
  }

  /** Every room at the end of a walk from a room of a set `s` that is closed
      under following exits lies in `s`. */
  lemma {:induction false} WalkStaysInClosed(m: MapStore, s: set<string>, from: string, labels: seq<string>, openOnly: bool)
    requires from in s
    requires forall v, d ::
      (v in s && Has(GetRoomExits(m, v), d) && !(openOnly && Locked(Get(GetRoomExits(m, v), d).value)))
      ==> Get(GetRoomExits(m, v), d).value.tgt in s
    requires Walk(m, from, labels, openOnly).Some?
    ensures Walk(m, from, labels, openOnly).value in s
    decreases |labels|
  {
    if |labels| > 0 {
      var e := Get(GetRoomExits(m, from), labels[0]).value;
      WalkStaysInClosed(m, s, e.tgt, labels[1..], openOnly);
    }
  }

  /** Expanding a stored room that was not expanded before leaves fewer to go. */
  lemma FewerLeft(ids: set<string>, visited: set<string>, room: string)
    requires room in ids && room !in visited
    ensures |ids - (visited + {room})| < |ids - visited|
  {
    assert ids - (visited + {room}) == (ids - visited) - {room};
  }
}

=== FILE: strings.dfy ===
/** The parts of Python's `str` that the mapper relies on: `split`/`join` on a
    single separator character, `str(int)`, `lower()`, `find` and `strip(' ')`. */
module Strings {

  // ---------------------------------------------------------------------------
  // split / join

  /** `s.split(sep)`: always at least one piece, never a separator inside one. */
  function Split(s: string, sep: char): (r: seq<string>)
    ensures |r| >= 1
    ensures forall i :: 0 <= i < |r| ==> sep !in r[i]
  {
    if |s| == 0 then [""]
    else if s[0] == sep then [""] + Split(s[1..], sep)
    else
      var rest := Split(s[1..], sep);
      [[s[0]] + rest[0]] + rest[1..]
  }

  /** `sep.join(ps)`. */
  function Join(ps: seq<string>, sep: char): string
  {
    if |ps| == 0 then ""
    else if |ps| == 1 then ps[0]
    else ps[0] + [sep] + Join(ps[1..], sep)
  }

  /** A string without the separator splits into itself. */
  lemma {:induction false} SplitNoSep(p: string, sep: char)
    requires sep !in p
    ensures Split(p, sep) == [p]
  {
    if |p| > 0 {
      SplitNoSep(p[1..], sep);
      assert [p[0]] + p[1..] == p;
    }
  }

  /** Splitting `p + sep + t` peels off `p` when `p` holds no separator. */
  lemma {:induction false} SplitCons(p: string, t: string, sep: char)
    requires sep !in p
    ensures Split(p + [sep] + t, sep) == [p] + Split(t, sep)
  {
    if |p| == 0 {
      assert p + [sep] + t == [sep] + t;
      assert ([sep] + t)[1..] == t;
    } else {
      var s := p + [sep] + t;
      assert s[0] == p[0];
      assert s[1..] == p[1..] + [sep] + t;
      SplitCons(p[1..], t, sep);
      assert [p[0]] + p[1..] == p;
    }
  }

  /** Joining the pieces of a split gives back the string. */
  lemma {:induction false} JoinSplit(s: string, sep: char)
    ensures Join(Split(s, sep), sep) == s
  {
    if |s| > 0 {
      JoinSplit(s[1..], sep);
      var rest := Split(s[1..], sep);
      if s[0] == sep {
        assert Split(s, sep) == [""] + rest;
        assert ([""] + rest)[1..] == rest;
      } else {
        var r := Split(s, sep);
        assert r[0] == [s[0]] + rest[0];
        if |rest| == 1 {
          assert r == [[s[0]] + rest[0]];
        } else {
          assert r[1..] == rest[1..];
          assert Join(rest, sep) == rest[0] + [sep] + Join(rest[1..], sep);
        }
      }
    }
  }

  /** Splitting a join gives back the pieces, when no piece holds the
      separator and there is at least one piece. */
  lemma {:induction false} SplitJoin(ps: seq<string>, sep: char)
    requires |ps| >= 1
    requires forall i :: 0 <= i < |ps| ==> sep !in ps[i]
    ensures Split(Join(ps, sep), sep) == ps
  {
    if |ps| == 1 {
      SplitNoSep(ps[0], sep);
    } else {
      SplitJoin(ps[1..], sep);
      SplitCons(ps[0], Join(ps[1..], sep), sep);
      assert [ps[0]] + ps[1..] == ps;
    }
  }

  /** Joining one more piece appends a separator and the piece. */
  lemma {:induction false} JoinSnoc(ps: seq<string>, p: string, sep: char)
    requires |ps| >= 1
    ensures Join(ps + [p], sep) == Join(ps, sep) + [sep] + p
  {
    if |ps| == 1 {
      assert ps + [p] == [ps[0], p];
    } else {
      JoinSnoc(ps[1..], p, sep);
      assert (ps + [p])[1..] == ps[1..] + [p];
    }
  }

  /** A separator occurs in a join only inside a piece or between two pieces. */
  lemma {:induction false} JoinNoSep(ps: seq<string>, sep: char, c: char)
    requires |ps| <= 1 || c != sep
    requires forall i :: 0 <= i < |ps| ==> c !in ps[i]
    ensures c !in Join(ps, sep)
  {
    if |ps| > 1 {
      JoinNoSep(ps[1..], sep, c);
    }
  }

  // ---------------------------------------------------------------------------
  // decimal numbers

  predicate IsDigit(c: char) { '0' <= c <= '9' }

  function DigitChar(d: nat): (c: char)
    requires d < 10
    ensures IsDigit(c)
  {
    "0123456789"[d]
  }

  function DigitValue(c: char): (d: nat)
    requires IsDigit(c)
    ensures d < 10
  {
    (c as int - '0' as int) as nat
  }

  lemma DigitRoundTrip(d: nat)
    requires d < 10
    ensures DigitValue(DigitChar(d)) == d
  {
  }

  predicate AllDigits(s: string) { forall i :: 0 <= i < |s| ==> IsDigit(s[i]) }

  /** `str(n)` for a non-negative integer. */
  function NatToString(n: nat): (r: string)
    ensures |r| >= 1 && AllDigits(r)
  {
    if n < 10 then [DigitChar(n)] else NatToString(n / 10) + [DigitChar(n % 10)]
  }

  /** `int(s)` for a string of decimal digits. */
  function ParseDigits(s: string): nat
    requires AllDigits(s)
  {
    if |s| == 0 then 0 else ParseDigits(s[..|s| - 1]) * 10 + DigitValue(s[|s| - 1])
  }

  lemma {:induction false} ParseNatToString(n: nat)
    ensures ParseDigits(NatToString(n)) == n
  {
    if n < 10 {
      DigitRoundTrip(n);
    } else {
      var s := NatToString(n);
      assert s[..|s| - 1] == NatToString(n / 10);
      ParseNatToString(n / 10);
      DigitRoundTrip(n % 10);
    }
  }

  /** `str(i)` for any integer: a minus sign before the digits of a negative one. */
  function IntToString(i: int): (r: string)
    ensures |r| >= 1
  {
    if i < 0 then "-" + NatToString(-i) else NatToString(i)
  }

  // ---------------------------------------------------------------------------
  // lower / find / strip

  /** `s.lower()` on the ASCII letters. */
  function Lower(s: string): (r: string)
    ensures |r| == |s|
  {
    if |s| == 0 then "" else
      var c := if 'A' <= s[0] <= 'Z' then (s[0] as int + 32) as char else s[0];
      [c] + Lower(s[1..])
  }

  predicate IsPrefix(p: string, s: string) { |p| <= |s| && s[..|p|] == p }

  /** `hay.find(needle)`: the first index where `needle` occurs, or -1. */
  function Find(hay: string, needle: string): (r: int)
    ensures -1 <= r <= |hay|
    ensures r >= 0 ==> IsPrefix(needle, hay[r..])
    ensures r >= 0 ==> forall j :: 0 <= j < r ==> !IsPrefix(needle, hay[j..])
    ensures r == -1 ==> forall j :: 0 <= j <= |hay| ==> !IsPrefix(needle, hay[j..])
    decreases |hay|
  {
    if IsPrefix(needle, hay) then 0
    else if |hay| == 0 then -1
    else
      var k := Find(hay[1..], needle);
      DropFirst(hay);
      if k == -1 then -1 else k + 1
  }

  lemma DropFirst(s: string)
    requires |s| > 0
    ensures forall j :: 1 <= j <= |s| ==> s[j..] == s[1..][j - 1..]
  {
  }

  /** `s.strip(' ') == ''`: the row is made of spaces only. */
  predicate IsBlank(s: string) { forall i :: 0 <= i < |s| ==> s[i] == ' ' }
}

=== FILE: wrappers.dfy ===
/** Failure-carrying datatypes shared by the whole model.

    The mapper is written in Python and reports failures by raising.  Each
    exception the modelled code can raise becomes a `Fault`, and every operation
    that can raise returns a `Result`.
 */
module Wrappers {

  datatype Option<+T> = None | Some(value: T)

  datatype Result<+T, +E> = Ok(value: T) | Err(error: E)

  /** The Python exceptions the modelled code can raise. */
  datatype Fault =
    | KeyError(key: string)   // a missing dict key (room id, exit label, 'zone', ...)
    | KeyErrorNone            // a dict indexed with None: KeyError(None)
    | IndexError              // a grid subscript outside the drawn area
    | TypeError               // unpacking the None returned for an unknown direction
    | AttributeError          // calling str.find on the None name of a stub room
}
